=== FILE: README.md ===
# dxa Monte Carlo derivatives analytics in Dafny

This project models the deterministic core of the `dxa` derivatives analytics
library and of the small volatility-option pricing web service that ships
with it. It proves properties of that model with Dafny.

The library simulates asset paths and prices options on them:

- geometric Brownian motion, Merton jump diffusion and square-root
  (CIR) diffusion;
- European options by discounted mean payoff, American options by
  Longstaff–Schwartz least squares;
- Greeks by finite differences and portfolio statistics.

Everything random or numerical that the library takes from numpy, scipy or
pandas is an input of the model:

- the normal and Poisson draws;
- `exp` and `sqrt`, modelled as a record `RealMath.Analytic` with the laws of
  `RealMath.Lawful` (`exp` positive, strictly increasing, `exp(0) = 1`,
  `sqrt` non-negative on non-negative arguments; a negative argument is
  nan in numpy and is modelled as the error `NotANumber` before `sqrt` is
  reached);
- the regular date schedule of `pd.date_range`;
- the Cholesky factor;
- the polynomial regression.

Around those inputs, every step is a pure function over `real`, integer day
numbers and sequences. The functions cover:

- time-grid construction;
- the simulator record with its path cache;
- the three path recursions;
- antithetic and moment-matched draws;
- payoff evaluation, reduced to a small expression tree with numpy
  broadcasting;
- European and American valuation;
- delta and vega;
- the discount curves;
- portfolio assembly and statistics;
- the market environment;
- the parameter check of the pricing service.

Failures the library raises or prints become `Err` values of
`Wrappers.Result`.

Modules, one per source component: `Wrappers`, `RealMath`, `Sorting`,
`YearDeltas`, `MarketEnvironment`, `ConstantShortRate`,
`DeterministicShortRate`, `TimeGrid`, `RandomNumbers`, `Shocks`,
`GeometricBrownianMotion`, `JumpDiffusion`, `SquareRootDiffusion`, `Simulation`, `Payoff`,
`Valuation`, `European`, `American`, `Greeks`, `Portfolio`, `VolService`.

Three behaviours of the code that a reader might not expect, and which the
model keeps:

- An odd path count with antithetic draws is truncated by Python 2 integer
  division (`shape[2] / 2`) to an even one. The simulators then find one path
  fewer in the draws than in the path matrix, and the first step fails.
- A start after the end gives an empty `date_range`, and the grid built from it
  is not rejected.
- The European aggregates `mean_value`, `max_value` and `min_value` are taken
  across paths per time step, not along each path.

## Model

| member | source | states |
|---|---|---|
| TimeGrid.GenerateTimeGrid | python/dxa/simulation_class.py:62-85 | the grid holds the start, the end and every special date; its elements are exactly the schedule's dates, start, end and the special dates; with special dates it is strictly increasing |
| TimeGrid.GridWithoutSpecialDatesIncreasing | python/dxa/simulation_class.py:68-77 | without special dates, a strictly increasing schedule within ordered bounds gives a strictly increasing grid that starts at the start date and ends at the end date |
| TimeGrid.ReversedBoundsAccepted | python/dxa/simulation_class.py:68-77 | with the start after the end and nothing else, the grid is `[start, end]`, which is not increasing; no error is raised |
| Simulation.NewSimulator | python/dxa/simulation_class.py:29-60 | the constructor stores the given parameters and starts with an empty path cache |
| Simulation.Update | python36/dxa/geometric_brownian_motion.py:34-41 | each given argument overwrites its field, the others keep their value, nothing else changes and the cache is emptied |
| Simulation.EmptyUpdateOnlyClearsCache | python36/dxa/geometric_brownian_motion.py:34-41 | an update with no arguments changes nothing but the cache, which it empties |
| Simulation.UpdateJumping | legacy/python/dxa/jump_diffusion.py:41-55 | the jump update also overwrites the given lambda, mu and delta, keeps the others, and otherwise acts as the common update |
| Simulation.UpdateMeanReverting | legacy/python/dxa/square_root_diffusion.py:40-52 | the square-root update also overwrites the given kappa and theta, keeps the others, and otherwise acts as the common update |
| Simulation.Simulate | python36/dxa/geometric_brownian_motion.py:43-79 | a successful simulation returns a grid-length by paths matrix whose first row is the initial value |
| Simulation.OneDateIsInitialRow | python36/dxa/geometric_brownian_motion.py:54-65 | on a one-date grid every model returns the single row of initial values, whatever the path count, the correlation or the draws, because the path loop starts at the second date |
| Simulation.CorrelatedIgnoresPrivateDraws | python36/dxa/geometric_brownian_motion.py:55-62 | a correlated simulator draws no private normal plane: its paths are the same whatever those draws are |
| Simulation.GeneratePaths | python36/dxa/geometric_brownian_motion.py:44-45 | a zero day count fails; an existing grid is kept, a missing one is built; afterwards the cache holds a grid-length by paths matrix and nothing else has changed |
| Simulation.GetInstrumentValues | python/dxa/simulation_class.py:87-94 | with a fixed seed and a full cache the cached matrix comes back with the simulator unchanged; otherwise the paths are regenerated; on success the cache holds the returned matrix |
| Simulation.OddPathsFail | legacy/python/dxa/sn_random_numbers.py:25-27 | with private draws and at least two dates, an odd path count fails, because the antithetic draws have one path fewer than the matrix and the first step reads them |
| RandomNumbers.PathCount | legacy/python/dxa/sn_random_numbers.py:25-27 | with antithetic draws the path count is even and at most one below the request; without them it is the request |
| RandomNumbers.RawShape | legacy/python/dxa/sn_random_numbers.py:25-29 | the raw draws have the requested number of assets and steps and `PathCount` paths |
| RandomNumbers.SnRandomNumbersShape | legacy/python/dxa/sn_random_numbers.py:25-36 | a result has the requested shape with `PathCount` paths, and is squeezed to a plane exactly when there is one asset |
| RandomNumbers.SnRandomNumbersTotal | legacy/python/dxa/sn_random_numbers.py:25-29 | without moment matching every call succeeds |
| RandomNumbers.MirrorAntithetic | legacy/python/dxa/sn_random_numbers.py:26-27 | in the concatenated draws, entry `j + p/2` of every row is the negation of entry `j` |
| RandomNumbers.AntitheticWithoutMatching | legacy/python/dxa/sn_random_numbers.py:25-29 | antithetic draws without moment matching are antithetic and returned squeezed |
| RandomNumbers.MirrorSumZero | legacy/python/dxa/sn_random_numbers.py:26-27 | antithetic draws sum to zero over all entries |
| RandomNumbers.CenteredSumZero | legacy/python/dxa/sn_random_numbers.py:30-31 | after subtracting the global mean the entries sum to zero and keep their number |
| RandomNumbers.MomentMatchedSumZero | legacy/python/dxa/sn_random_numbers.py:30-32 | moment-matched draws sum to zero over all entries |
| RandomNumbers.CenterOfZeroSum | legacy/python/dxa/sn_random_numbers.py:31 | centring draws that already sum to zero leaves them unchanged |
| RandomNumbers.DivideKeepsAntithetic | legacy/python/dxa/sn_random_numbers.py:32 | dividing by one non-zero factor keeps the negation symmetry |
| RandomNumbers.AntitheticWithMatching | legacy/python/dxa/sn_random_numbers.py:26-32 | antithetic draws stay antithetic after moment matching |
| Shocks.ShockMatrix | python36/dxa/geometric_brownian_motion.py:55-72 | private draws are used as they are when they have the grid-by-paths shape; correlated draws give, for every step after the first, row `rn_set` of the Cholesky factor times the shared draws |
| Shocks.UncorrelatedRow | python36/dxa/geometric_brownian_motion.py:68-72 | with a Cholesky row that is a unit vector, the correlated row is the asset's own draw row |
| GeometricBrownianMotion.StepKeepsSign | python36/dxa/geometric_brownian_motion.py:75-77 | under lawful `exp` a step never changes the sign of an entry: positive stays positive, zero stays zero, negative stays negative |
| GeometricBrownianMotion.Rows | python36/dxa/geometric_brownian_motion.py:54-77 | row 0 is the initial value on every path and each later row is one step from the row before, over the grid's day fraction |
| GeometricBrownianMotion.Paths | python36/dxa/geometric_brownian_motion.py:43-79 | the path matrix exists exactly for a non-empty grid without a backward step; a backward step (`dt < 0`) makes `sqrt(dt)` nan, reported as `NotANumber`; the matrix has grid-length by paths shape and starts at the initial value |
| GeometricBrownianMotion.OrderedGridForward | python36/dxa/geometric_brownian_motion.py:73-77 | a non-decreasing grid has no backward step, so `sqrt(dt)` is never taken of a negative number |
| GeometricBrownianMotion.ReversedGridBackward | python36/dxa/geometric_brownian_motion.py:73-77 | a grid whose second date precedes its first has a backward step |
| GeometricBrownianMotion.RowsPositive | python36/dxa/geometric_brownian_motion.py:75-77 | on a grid without a backward step, a positive initial value gives positive entries everywhere |
| GeometricBrownianMotion.ZeroVolatilityStep | python36/dxa/geometric_brownian_motion.py:73-77 | with zero volatility a step compounds at the short rate whatever the draw |
| JumpDiffusion.Rows | legacy/python/dxa/jump_diffusion.py:62-103 | row 0 is the initial value and each later row is one jump-diffusion step from the row before |
| JumpDiffusion.Paths | legacy/python/dxa/jump_diffusion.py:57-104 | the path matrix exists exactly for a non-empty grid on which no step's Poisson mean `lambda * dt` is negative and no step is backward; a negative mean is a configuration error, as numpy's `ValueError`; otherwise a backward step makes `sqrt(dt)` nan, reported as `NotANumber`; the matrix has grid-length by paths shape and starts at the initial value |
| JumpDiffusion.OrderedGridAccepted | legacy/python/dxa/jump_diffusion.py:95-97 | a non-negative intensity on a non-decreasing grid never asks for a negative Poisson mean |
| JumpDiffusion.ReversedStepRejected | legacy/python/dxa/jump_diffusion.py:95-97 | a positive intensity on a grid whose second date precedes its first is refused at the first step |
| JumpDiffusion.NoIntensityNoCompensator | legacy/python/dxa/jump_diffusion.py:83 | zero jump intensity gives a zero drift compensator |
| JumpDiffusion.NoJumpIsGbmStep | legacy/python/dxa/jump_diffusion.py:99-101 | a path with no jump in a step moves as a GBM step whose drift is lowered by the compensator |
| JumpDiffusion.JumpTermLinear | legacy/python/dxa/jump_diffusion.py:97-103 | two jump counts change a step by the jump factor times their difference |
| JumpDiffusion.NoJumpsIsGbm | legacy/python/dxa/jump_diffusion.py:83-103 | with zero intensity and no jumps drawn, the jump-diffusion matrix is the GBM matrix |
| SquareRootDiffusion.Internal | legacy/python/dxa/square_root_diffusion.py:61-81 | the carried state starts at the initial value and each row is a full-truncation Euler step from the unclamped row before |
| SquareRootDiffusion.Clamp | legacy/python/dxa/square_root_diffusion.py:82 | a reported entry is the larger of zero and the state: non-negative, never below the state, equal to it exactly when the state is non-negative |
| SquareRootDiffusion.Reported | legacy/python/dxa/square_root_diffusion.py:61-82 | row 0 is reported unclamped; every later entry is non-negative, at least the carried state, and equal to it exactly when the state is non-negative |
| SquareRootDiffusion.Paths | legacy/python/dxa/square_root_diffusion.py:54-83 | the matrix exists exactly for a non-empty grid without a backward step; a backward step makes `sqrt(dt)` nan, which `np.maximum(0, .)` keeps, and is reported as `NotANumber`; the matrix starts at the initial value and is non-negative after row 0 |
| SquareRootDiffusion.ZeroVolatilityIgnoresShocks | legacy/python/dxa/square_root_diffusion.py:78-81 | with zero volatility any two draw matrices give the same internal states |
| SquareRootDiffusion.ZeroVolatilityPathsIgnoreShocks | legacy/python/dxa/square_root_diffusion.py:78-82 | with zero volatility any two draw matrices give the same reported paths |
| SquareRootDiffusion.NegativeStateCarried | legacy/python/dxa/square_root_diffusion.py:78-82 | a negative state is reported as zero, but the next step starts from the negative state and floors only the drift and diffusion inputs |
| Payoff.Broadcast | legacy/python/dxa/valuation_mcs_european.py:42-51 | a scalar with a scalar or a vector always combines; two vectors combine exactly when their lengths agree or one of them is one, and the result has the stretched length (the other length when one of them is one); every failure is a payoff-evaluation error |
| Payoff.BroadcastShapes | legacy/python/dxa/valuation_mcs_european.py:42-51 | a scalar combines with anything; a vector and a matrix combine exactly when every row fits the vector; two matrices exactly when the row counts fit and so do the rows that meet; a matrix operand gives a matrix |
| Payoff.SizeOneActsAsScalar | legacy/python/dxa/valuation_mcs_european.py:42-51 | an array of length one broadcasts against any array exactly like the scalar it holds |
| Payoff.BroadcastEntry | legacy/python/dxa/valuation_mcs_european.py:42-51 | every entry of a broadcast result is the operation on the operands' entries at the same position, which both operands cover |
| Payoff.Eval | legacy/python/dxa/valuation_mcs_european.py:47-51 | the only error of payoff evaluation is a payoff-evaluation error |
| Payoff.EvalPointwise | legacy/python/dxa/valuation_mcs_european.py:42-51 | every entry of an evaluated payoff is the payoff computed on the numbers at that position alone |
| Payoff.FloorAtZeroNonNegative | legacy/python/dxa/valuation_mcs_european.py:47-48 | a payoff floored with `maximum(., 0)` evaluates to non-negative entries |
| Payoff.CallPayoff | legacy/python/dxa/valuation_mcs_european.py:40-48 | the call payoff on a scope with a maturity row and a strike is `max(S_T - K, 0)` path by path |
| Payoff.PutInnerValues | python/dxa/valuation_mcs_american.py:40-42 | the put payoff on the instrument values is `max(K - S, 0)` entry by entry |
| Valuation.NewValuation | legacy/python/dxa/valuation_class.py:36-57 | the valuation copies frequency, paths and short rate from the underlying, and the underlying gains the pricing date and the maturity as special dates |
| Valuation.UpdateValuation | legacy/python/dxa/valuation_class.py:59-72 | initial value and volatility go to the underlying's update, the strike is set only when given, and a new maturity missing from the grid becomes a special date and empties the cache; a maturity against an unbuilt grid fails |
| Valuation.FindUnique | legacy/python/dxa/valuation_mcs_european.py:35-39 | success gives the one position holding the date; failure means the date is absent or occurs twice |
| Valuation.FindUniqueOnIncreasing | legacy/python/dxa/valuation_mcs_european.py:35-39 | on a strictly increasing grid the lookup succeeds exactly when the date is on the grid |
| European.RowMeans | legacy/python/dxa/valuation_mcs_european.py:42 | each entry times its row's length is that row's sum |
| European.Aggregates | legacy/python/dxa/valuation_mcs_european.py:40-46 | the aggregates exist exactly for a maturity index inside the matrix with non-empty rows before it; the maturity value is that row, the means are the row means before it, and max and min are the extremes of the row just before maturity |
| European.DiscountFactorValue | legacy/python/dxa/valuation_mcs_european.py:65-66 | the factor is `exp(-r T)` for a maturity not before the pricing date, one otherwise, and equals the first factor the library's curve computes for the pair |
| European.Payoffs | legacy/python/dxa/valuation_mcs_european.py:33-51 | a payoff vector comes from evaluating the payoff on the aggregates at the maturity's unique grid position; a maturity off the grid fails |
| European.Value | legacy/python/dxa/valuation_mcs_european.py:64-69 | the present value times the path count is the discount factor times the payoff sum, the full array is the discounted payoffs, and its mean is the present value |
| European.PresentValue | legacy/python/dxa/valuation_mcs_european.py:53-71 | the value is computed on the paths the underlying hands out, cached or fresh, and the simulator afterwards is the one that produced them |
| European.DiscountedMean | legacy/python/dxa/valuation_mcs_european.py:67 | the result times the count is the factor times the sum, it is the mean of the scaled payoffs, and it is non-negative for non-negative inputs |
| European.ValueNonNegative | legacy/python/dxa/valuation_mcs_european.py:67 | non-negative payoffs and lawful `exp` give a non-negative present value |
| European.FlooredPayoffNonNegative | legacy/python/dxa/valuation_mcs_european.py:47-67 | any payoff floored at zero has a non-negative present value |
| European.CachedValuationKeepsSimulator | python/dxa/simulation_class.py:87-94 | revaluing with a fixed seed and a full cache values the cached paths and leaves the simulator as it was |
| American.ExerciseStep | python/dxa/valuation_mcs_american.py:70-76 | each path takes its inner value when that beats the continuation estimate, otherwise its discounted value; the estimate itself is never taken |
| American.LongstaffSchwartz | python/dxa/valuation_mcs_american.py:65-76 | the loop starts from the last inner values and equals the backward recursion from step `len - 2` down to step 1 |
| American.BackwardNonNegative | python/dxa/valuation_mcs_american.py:65-76 | with non-negative inner values, start values and discount ratios the value vector stays non-negative |
| American.BackwardIgnoresFirstStep | python/dxa/valuation_mcs_american.py:66 | the recursion never reads step 0, so two slices that differ only there give the same values |
| American.NeverExerciseDiscounts | python/dxa/valuation_mcs_american.py:66-76 | when exercise never wins, the rolled-back values are the start values scaled by the ratio of discount factors |
| American.InnerValues | python/dxa/valuation_mcs_american.py:35-42 | the slice runs from the pricing date's unique grid position to the maturity's, inclusive, and the inner values are the payoff evaluated on it, with the slice's shape |
| American.StepFactorsPositive | python/dxa/valuation_mcs_american.py:63-64 | under lawful `exp` every step discount factor is positive |
| American.Rollback | python/dxa/valuation_mcs_american.py:65-76 | the rollback needs at least two steps and rectangular inner values, and is the backward recursion on the slice with the factors as `get_discount_factors` pairs them |
| American.Value | python/dxa/valuation_mcs_american.py:77-80 | the present value is the first-step ratio times the mean of the rolled-back values; the full array is that ratio times the values, and its mean is the present value |
| American.FlooredPayoffNonNegative | python/dxa/valuation_mcs_american.py:65-78 | a payoff floored at zero gives a non-negative present value |
| American.RollbackOnlyDiscounts | python/dxa/valuation_mcs_american.py:65-80 | on a slice where exercise never wins, the rolled-back values discounted by the first step's ratio are the maturity's inner values discounted by the ratio of the first to the last step factor, which is non-zero |
| American.NoEarlyExerciseIsDiscounting | python/dxa/valuation_mcs_american.py:65-80 | when exercise never wins, the values are the maturity's inner values discounted from maturity to the pricing date |
| American.PresentValue | python/dxa/valuation_mcs_american.py:47-82 | the value is computed on the paths the underlying hands out and the simulator afterwards is the one that produced them |
| Greeks.PresentValue | legacy/python/dxa/valuation_class.py:79-84 | a valuation of either style runs on the underlying's paths and returns the simulator that produced them |
| Greeks.PresentValueFrame | python/dxa/simulation_class.py:87-94 | valuing changes the simulator only in its grid and cache |
| Greeks.DeltaBump | legacy/python/dxa/valuation_class.py:75-76 | the default delta bump is one fiftieth of the initial value; a given interval is used as it is |
| Greeks.Clip | legacy/python/dxa/valuation_class.py:89-94 | the result lies in [-1, 1], equals values inside it and saturates outside |
| Greeks.Delta | legacy/python/dxa/valuation_class.py:74-94 | a zero bump fails; delta lies in [-1, 1]; the initial value is restored, the cache is empty and only the grid may differ |
| Greeks.VegaBump | legacy/python/dxa/valuation_class.py:97-98 | the vega bump is the larger of the interval (default 0.01) and one fiftieth of the volatility |
| Greeks.Vega | legacy/python/dxa/valuation_class.py:96-111 | a zero bump fails; the volatility is restored, the cache is empty and only the grid may differ |
| MarketEnvironment.NewEnv | legacy/python/dxa/market_environment.py:35-40 | a new environment has its name and pricing date and no entries |
| MarketEnvironment.Lookup | legacy/python/dxa/market_environment.py:45-46 | a lookup succeeds exactly for a present key, with its value; otherwise it reports the missing key |
| MarketEnvironment.AddConstant | legacy/python/dxa/market_environment.py:42-46 | the key then reads the new value, every other key reads as before and the other sections are untouched |
| MarketEnvironment.AddList | legacy/python/dxa/market_environment.py:48-52 | the key then reads the new list, every other key reads as before and the other sections are untouched |
| MarketEnvironment.AddCurve | legacy/python/dxa/market_environment.py:54-58 | the key then reads the new curve, every other key reads as before and the other sections are untouched |
| MarketEnvironment.AddEnvironment | legacy/python/dxa/market_environment.py:60-67 | every key of the other environment reads its value there, every other key reads as before, and name and pricing date stay |
| ConstantShortRate.NewCurve | legacy/python/dxa/constant_short_rate.py:24-28 | the curve is built exactly when the short rate is non-negative; otherwise a configuration error |
| ConstantShortRate.SortedFactorsNonDecreasing | legacy/python/dxa/constant_short_rate.py:35 | at a non-negative rate the factors as the library computes them never decrease along the list |
| ConstantShortRate.SortedFactorsBounded | legacy/python/dxa/constant_short_rate.py:31-35 | for fractions starting at zero and never negative, the last factor is one and all lie in (0, 1] |
| ConstantShortRate.SortedFactorsReversed | legacy/python/dxa/constant_short_rate.py:35 | for non-decreasing fractions the k-th factor is the factor of fraction `n-1-k` |
| ConstantShortRate.SortedFactorsEnds | legacy/python/dxa/constant_short_rate.py:35 | for non-decreasing fractions starting at zero the last factor is one and the first discounts over the whole span |
| ConstantShortRate.MisdatedFactorExample | legacy/python/dxa/constant_short_rate.py:35-36 | on fractions 0, 1, 3 at rate 1 the middle date gets `exp(-1)` where its own factor is `exp(-2)` |
| ConstantShortRate.FactorsBounded | legacy/python/dxa/constant_short_rate.py:35-36 | each date's own factor lies in (0, 1], is one for the latest date and grows with the date |
| ConstantShortRate.FactorsAgreeOnPair | legacy/python/dxa/constant_short_rate.py:35-36 | for one pricing date and a later maturity the library's factors and the per-date factors coincide |
| ConstantShortRate.DiscountFactors | legacy/python/dxa/constant_short_rate.py:30-36 | one (date, factor) pair per input date, dates in input order, each factor the sorted factor at that position; on non-decreasing dates date k gets the factor of date `n-1-k` |
| ConstantShortRate.DiscountFactorsOfFractions | legacy/python/dxa/constant_short_rate.py:33-36 | without date objects the given fractions are paired, in input order, with the sorted factors; on non-decreasing fractions fraction k gets the factor of fraction `n-1-k` |
| DeterministicShortRate.NewCurve | python3/dxa/deterministic_short_rate.py:27-31 | an empty yield list fails as numpy does; otherwise the curve is built exactly when no yield is negative, and a negative yield is a configuration error |
| DeterministicShortRate.SplineDegree | python3/dxa/deterministic_short_rate.py:41-44 | the spline degree is 1 for at most three times and 3 otherwise |
| DeterministicShortRate.ForwardRatesOfFlatCurve | python3/dxa/deterministic_short_rate.py:55 | where the yield's slope is zero the forward rate is the yield |
| DeterministicShortRate.DiscountFactors | python3/dxa/deterministic_short_rate.py:57-70 | the loop returns one factor per time, each `exp` of minus the trapezoid integral of the forward rates from that time to the last |
| DeterministicShortRate.AreaNonNegative | python3/dxa/deterministic_short_rate.py:64-69 | over non-decreasing times the integral of non-negative forwards is non-negative |
| DeterministicShortRate.LastFactorIsOne | python3/dxa/deterministic_short_rate.py:65-69 | the last time's factor is one, because its inner loop is empty |
| DeterministicShortRate.FactorsBoundedAndOrdered | python3/dxa/deterministic_short_rate.py:64-69 | over non-decreasing times with non-negative forwards the factors lie in (0, 1] and never decrease along the list |
| DeterministicShortRate.FlatCurveIsConstantRate | python3/dxa/deterministic_short_rate.py:64-69 | on a flat forward curve the trapezoid factors are the constant-rate factors of each date |
| YearDeltas.YearFractions | python36/dxa/get_year_deltas.py:7-28 | one fraction per date, the first is zero, and date i is the first date plus its fraction times the day count |
| YearDeltas.YearFractionsMonotone | python36/dxa/get_year_deltas.py:26-27 | with a positive day count, non-decreasing dates give non-decreasing fractions |
| YearDeltas.YearFractionsSign | python36/dxa/get_year_deltas.py:26-27 | a date before the first has a negative fraction, one after it a positive fraction |
| Portfolio.StartingDate | python/dxa/derivatives_portfolio.py:59-63 | the starting date is the smallest of the initial date and all pricing dates |
| Portfolio.FinalDate | python/dxa/derivatives_portfolio.py:64-67 | the final date is the largest of the initial date and all maturities |
| Portfolio.SpecialDates | python/dxa/derivatives_portfolio.py:79-83 | the special dates are the maturities missing from the schedule, each once |
| Portfolio.PortfolioGrid | python/dxa/derivatives_portfolio.py:72-92 | the grid is strictly increasing, and its elements are exactly the schedule's dates, the maturities, the start and the end |
| Portfolio.SortedUnderlyings | python/dxa/derivatives_portfolio.py:97 | the sorted underlyings list each underlying of a position exactly once and nothing else |
| Portfolio.CorrelationMatrix | python/dxa/derivatives_portfolio.py:95-106 | the matrix exists exactly when every pair names known underlyings, is n by n, and each entry is the last capped correlation given for its pair, one on the diagonal, zero otherwise |
| Portfolio.LastCorrelationIsLast | python/dxa/derivatives_portfolio.py:102-106 | the entry for a pair is absent exactly when no pair names it, and otherwise comes from the last pair that does |
| Portfolio.CorrelationSymmetric | python/dxa/derivatives_portfolio.py:105-106 | the correlation matrix is symmetric |
| Portfolio.CorrelationDefaults | python/dxa/derivatives_portfolio.py:98-99 | an entry no pair names is one on the diagonal and zero off it |
| Portfolio.CorrelationOverrides | python/dxa/derivatives_portfolio.py:102-106 | a named entry comes from the last pair naming it, capped at 0.999999999999 |
| Portfolio.RnSet | python/dxa/derivatives_portfolio.py:113-114 | each underlying maps to its position in the sorted list |
| Portfolio.RnSetBijection | python/dxa/derivatives_portfolio.py:113-114 | the map sends position k's name to k and distinct names to distinct rows |
| Portfolio.SharedDraws | python/dxa/derivatives_portfolio.py:118-121 | the shared draws have one plane per underlying, one row per grid date and the antithetic path count; one underlying fails |
| Portfolio.FirstMissing | python/dxa/derivatives_portfolio.py:130-132 | nothing is reported exactly when every underlying has a market environment; a reported name is some position's underlying without one |
| Portfolio.Correlate | python/dxa/derivatives_portfolio.py:95-128 | bad correlation labels fail; otherwise the shared record holds the Cholesky factor of the matrix, the row map and draws of the right shape |
| Portfolio.Configure | python/dxa/derivatives_portfolio.py:130-143 | each simulator takes the portfolio's final date, frequency, paths, curve and grid, starts with an empty cache, and is correlated exactly when correlations are given, with its own row |
| Portfolio.Simulators | python/dxa/derivatives_portfolio.py:130-143 | one simulator per distinct underlying, each configured from its own environment |
| Portfolio.Valuations | python/dxa/derivatives_portfolio.py:145-157 | one valuation per position on its underlying's settings, and each simulator gains the pricing dates and maturities of its positions |
| Portfolio.NewPortfolio | python/dxa/derivatives_portfolio.py:59-157 | a missing underlying reports its name, bad correlation labels fail, uncorrelated construction succeeds otherwise, and a portfolio covers the positions' dates and wires one simulator per underlying and one valuation per position |
| Portfolio.Assemble | python/dxa/derivatives_portfolio.py:130-157 | the portfolio keeps the given bounds, grid and shared draws and is wired to the positions |
| Portfolio.PositionRow | python/dxa/derivatives_portfolio.py:172-187 | a row's value is the position's present value and a failing present value is the row's error; the row describes the position, and only the grid and cache of the simulator change |
| Portfolio.PositionRowGreeks | python/dxa/derivatives_portfolio.py:174-187 | when the present value, `delta()` and `vega()` succeed in turn, the row is built from those three results (position delta `delta() * quantity`, position vega `vega() * quantity`) and the simulator vega leaves |
| Portfolio.PositionRowGreekFails | python/dxa/derivatives_portfolio.py:184-186 | a failing `delta()`, or a failing `vega()` after it, is the row's error |
| Portfolio.MakeRow | python/dxa/derivatives_portfolio.py:175-187 | name, quantity and currency come from the position; the position value, delta and vega are the unit figures times the quantity, and for a non-zero quantity they divide back to the unit figures |
| Portfolio.BoundedTimesQuantity | python/dxa/derivatives_portfolio.py:184 | a delta in [-1, 1] times the quantity is at most the quantity's size |
| Portfolio.Statistics | python/dxa/derivatives_portfolio.py:168-192 | one row per position describing that position; the first row is the first position's `PositionRow` and its failure is the error; every simulator keeps its parameters |
| Portfolio.ThreadKeeps | python/dxa/derivatives_portfolio.py:172-187 | for any row computation that describes its position and keeps simulator parameters, the loop's rows describe their positions and every simulator keeps its parameters |
| Portfolio.SeparateUnderlyingsSucceed | python/dxa/derivatives_portfolio.py:172-187 | when no two positions share an underlying, the loop succeeds exactly when each position's row succeeds on its underlying's starting simulator |
| Portfolio.SeparateUnderlyingsRows | python/dxa/derivatives_portfolio.py:172-187 | when no two positions share an underlying, row k of the loop is position k's row on its underlying's starting simulator |
| Portfolio.StatisticsOfSeparateUnderlyings | python/dxa/derivatives_portfolio.py:168-192 | with no shared underlying, `get_statistics` succeeds exactly when every position's `PositionRow` does on its own starting simulator, and row k is then that row |
| Portfolio.PortfolioStatistics | python/dxa/derivatives_portfolio.py:168-192 | the rows and simulators are those of `Statistics` on the portfolio's positions, valuations and simulators, and its error is theirs; the portfolio changes only in its simulators, which keep their keys and parameters |
| VolService.Line | python3/volservice/vol_pricing_service.py:33-34 | an error line starts with `Missing parameter ` and ends with a newline |
| VolService.Missing | python3/volservice/vol_pricing_service.py:31-34 | a parameter is reported exactly when it is in the table and the request lacks its key |
| VolService.Arguments | python3/volservice/vol_pricing_service.py:38-47 | the pricer gets eight values, the request's values of V0, kappa, theta, sigma, zeta, T, r, K in that order |
| VolService.GetOptionValue | python3/volservice/vol_pricing_service.py:27-48 | an incomplete request gets the non-empty error text with one line per missing key in table order; a complete one gets the text of the price |
| VolService.GetOptionValueLegacy | legacy/python/volservice/vol_pricing_service.py:24-45 | in any dictionary order, an incomplete request gets that order's non-empty error text, a complete one the text of the price |
| VolService.MissingCount | python3/volservice/vol_pricing_service.py:31-34 | a parameter is reported as often as it occurs in the walk when its key is missing, never otherwise |
| VolService.LegacyReportsSameLines | legacy/python/volservice/vol_pricing_service.py:26-31 | whatever order the dictionary walks, the missing parameters are the ones the current service reports |
| VolService.OneLinePerMissingKey | python3/volservice/vol_pricing_service.py:13-34 | each missing key gets exactly one line |
| VolService.ExtraKeysIgnored | python3/volservice/vol_pricing_service.py:31-47 | requests that agree on the table's keys get the same answer |

## Left out

- Random number generation: draws are inputs (`Noise`). `fixed_seed` draws are therefore identical by construction, with no lemma to state.
- Fresh draws: `get_statistics(fixed_seed=False)` and `get_instrument_values(fixed_seed=False)` draw new numbers on every call. The model reuses the same `Noise`.
- `pd.date_range`, `np.linalg.cholesky`, `np.polyfit`/`np.polyval` and the scipy spline routines are inputs. The regular schedule is a function of the bounds and the frequency string.
- `round(..., accuracy)` is left out. Values are unrounded reals.
- Floating point: all arithmetic is exact over `real`. Delta's and vega's restore `(x + h) - h` is therefore exact.
- NaN from numpy: a zero standard deviation in moment matching, the mean of an empty payoff, a zero bump and `sqrt` of a backward step's negative year fraction are modelled as `Err`; no nan value is carried through the model.
- Python dictionary and set order:
  - Statistics and valuations are produced in position order.
  - The missing-asset error names the first position whose underlying lacks an environment.
- Correlation labels: pandas enlarges the frame on an unknown label. The model reports a configuration error.
- Correlated draws with one underlying: `sn_random_numbers` squeezes the shared draws to two dimensions, which the simulators cannot index. Modelled as an error.
- Print-and-continue paths (maturity not on the grid, payoff `eval` failure) are explicit errors.
- Simulation.NewSimulator: the constructor takes parameters that are already parsed. The source reads them from the market environment inside one `try`, and on any failure prints "Error parsing market environment." and continues with a half-built object whose later use fails. The model does not construct such objects; a missing parameter is reported by the `MarketEnvironment` lookups instead.
- Payoff strings: `eval` is replaced by the `Payoff.Expr` tree over the same names.
- `float()` on a query value is an input (`toFloat`). A non-numeric value, which raises in the service, is not modelled.
- The pricing formula and `str` are inputs of the service.
- Interpolated yields: `get_interpolated_yields` and the spline itself are inputs. Only the forward-rate formula and the trapezoid loop are modelled.
- `get_positions`, `get_info` and the plotting helpers print only.
- The web and chat front ends, the closed-form Black–Scholes–Merton and volatility formulas, and the benchmark scripts are not part of this model.
- Statistical properties are not stated: convergence, the sample correlation, variance reduction.
- Simulation.GeneratePaths: a zero day count is an error even on a one-date grid, where the source never divides by it. The source's day count is the constant 365, so the case does not arise there.
- Jump sizes under `fixed_seed`: the source reseeds before each draw, so the jump-size plane equals the private diffusion plane. The model takes the two as independent inputs (`Noise.normal`, `Noise.jumpNormal`), which covers that case as one choice of inputs.
- Valuation.UpdateValuation: when a new maturity meets an unbuilt grid the source raises after it has already updated the underlying, the strike and the maturity. The model returns only the error and drops those partial updates.
- Payoff.Eval: its contract states the error kind only. The value of a successful evaluation is stated entry by entry in `Payoff.EvalPointwise`.
- Greeks.Delta, Greeks.Vega: state bounds and what is restored, not the difference quotient itself, because the quotient would only repeat the body and no derivative property holds for a Monte Carlo estimate on a finite bump.
- Portfolio.NewPortfolio: the success direction is stated only for the uncorrelated case. With correlations, success also depends on the Cholesky input's shape.

## Findings

| source | as written | input that shows it | evidently intended | confidence | as-written member | corrected member |
|---|---|---|---|---|---|---|
| legacy/python/dxa/constant_short_rate.py:35-36 | the factors `exp(r * sort(-d))` come out ordered from the earliest date to the latest, but are paired with the dates in input order, so date k gets the factor of date `n-1-k` | year fractions 0, 1, 3 at rate 1: the middle date gets `exp(-1)` although it lies two years before the last date | each date gets its own factor `exp(r * (d[k] - latest))` | medium, not executed | ConstantShortRate.MisdatedFactorExample | ConstantShortRate.FactorsBounded |

For one pricing date and one maturity both pairings agree (`ConstantShortRate.FactorsAgreeOnPair`). European values are therefore the same either way, and `European` uses the per-date factors of `ConstantShortRate.Factors`.

The American rollback uses the factors of every grid date between the pricing date and the maturity. `ConstantShortRate.DiscountFactors` and `American.StepFactors` pair them as the source does, with `SortedFactors`. On non-decreasing dates starting at zero the ratio of the first to the last factor is still the whole discount (`ConstantShortRate.SortedFactorsEnds`). Each step's ratio `dfs[t] / dfs[t + 1]` is the ratio of the mirrored interval, so on an unevenly spaced grid the continuation values are discounted over the wrong interval.

=== FILE: american.dfy ===
/** Least-squares Monte Carlo valuation of American payoffs
    (`valuation_mcs_american`, after Longstaff and Schwartz).

    The paths between the pricing date and the maturity are cut out of the
    simulated matrix, the payoff gives the inner value of every entry, and the
    value vector is rolled back from maturity to the first step after the
    pricing date. At each step a regression of the discounted values on the
    instrument values estimates the continuation value, which decides between
    exercising (the inner value) and holding (the discounted value). The
    regression, `np.polyfit` followed by `np.polyval`, is an input.
 */
module American {
  import opened Wrappers
  import opened RealMath
  import opened YearDeltas
  import opened Shocks
  import opened Simulation
  import opened Payoff
  import opened Valuation
  import European
  import ConstantShortRate
  import Sorting

  /** `np.polyval(np.polyfit(x, y, bf), x)`: the fitted continuation values. */
  type Regression = (seq<real>, seq<real>) -> seq<real>

  /** `np.where(inner > c, inner, v * df)`: exercise where the inner value
      beats the estimated continuation value, otherwise hold and discount. */
  function ExerciseStep(inner: seq<real>, c: seq<real>, v: seq<real>, df: real): (r: seq<real>)
    requires |inner| == |c| == |v|
    ensures |r| == |v|
    ensures forall i :: 0 <= i < |v| ==> r[i] == inner[i] || r[i] == v[i] * df
    ensures forall i :: 0 <= i < |v| ==> (r[i] == inner[i] <== inner[i] > c[i])
    ensures forall i :: 0 <= i < |v| ==> (r[i] == v[i] * df <== inner[i] <= c[i])
  {
    seq(|v|, i requires 0 <= i < |v| => if inner[i] > c[i] then inner[i] else v[i] * df)
  }

  /** Every row of `a` has `cols` entries. */
  predicate Rectangular(a: Matrix, cols: nat) {
    forall t :: 0 <= t < |a| ==> |a[t]| == cols
  }

  /** The backward induction from step `t` down to step 1 (never step 0),
      starting from the value vector `v` of step `t + 1`. `x` are the
      instrument values, `inner` the inner values and `dfs` the discount
      factors of the steps. */
  function Backward(x: Matrix, inner: Matrix, dfs: seq<real>, regress: Regression, t: nat, v: seq<real>): (r: Result<seq<real>>)
    requires t < |x| && t < |inner| && t + 1 < |dfs|
    requires Rectangular(inner, |v|)
    ensures r.Ok? ==> |r.value| == |v|
    decreases t
  {
    if t == 0 then Ok(v)
    else if dfs[t + 1] == 0.0 then Err(NotANumber)
    else
      var df := dfs[t] / dfs[t + 1];
      var c := regress(x[t], Scale(df, v));
      if |c| != |v| then Err(ShapeMismatch)
      else Backward(x, inner, dfs, regress, t - 1, ExerciseStep(inner[t], c, v, df))
  }

  /** The roll-back as the library writes it, a loop over
      `t = len - 2, ..., 1`; it computes `Backward`. */
  method LongstaffSchwartz(x: Matrix, inner: Matrix, dfs: seq<real>, regress: Regression) returns (r: Result<seq<real>>)
    requires 2 <= |dfs| == |x| == |inner|
    requires Rectangular(inner, |inner[|inner| - 1]|)
    ensures r == Backward(x, inner, dfs, regress, |dfs| - 2, inner[|inner| - 1])
  {
    var n := |dfs|;
    var v := inner[n - 1];
    var t := n - 2;
    while t > 0
      invariant 0 <= t <= n - 2
      invariant |v| == |inner[n - 1]|
      invariant Backward(x, inner, dfs, regress, t, v) == Backward(x, inner, dfs, regress, n - 2, inner[n - 1])
    {
      if dfs[t + 1] == 0.0 {
        return Err(NotANumber);
      }
      var df := dfs[t] / dfs[t + 1];
      var c := regress(x[t], Scale(df, v));
      if |c| != |v| {
        return Err(ShapeMismatch);
      }
      v := ExerciseStep(inner[t], c, v, df);
      t := t - 1;
    }
    return Ok(v);
  }

  /** Every entry is non-negative. */
  ghost predicate NonNegativeRow(v: seq<real>) {
    forall i :: 0 <= i < |v| ==> v[i] >= 0.0
  }

  /** With non-negative inner values and positive discount factors the value
      vector stays non-negative. */
  lemma {:induction false} BackwardNonNegative(x: Matrix, inner: Matrix, dfs: seq<real>, regress: Regression, t: nat, v: seq<real>)
    requires t < |x| && t < |inner| && t + 1 < |dfs|
    requires Rectangular(inner, |v|)
    requires forall s :: 0 <= s < |inner| ==> NonNegativeRow(inner[s])
    requires forall k :: 0 <= k < |dfs| ==> dfs[k] > 0.0
    requires NonNegativeRow(v)
    requires Backward(x, inner, dfs, regress, t, v).Ok?
    ensures NonNegativeRow(Backward(x, inner, dfs, regress, t, v).value)
  {
    if t > 0 {
      var df := dfs[t] / dfs[t + 1];
      var c := regress(x[t], Scale(df, v));
      var w := ExerciseStep(inner[t], c, v, df);
      assert df > 0.0;
      forall i | 0 <= i < |w| ensures w[i] >= 0.0 {
        if w[i] != inner[t][i] {
          assert w[i] == v[i] * df;
          assert inner[t][i] >= 0.0 && v[i] >= 0.0;
        }
      }
      BackwardNonNegative(x, inner, dfs, regress, t - 1, w);
    }
  }

  /** The roll-back never looks at step 0: the instrument and inner values of
      the pricing date do not matter. */
  lemma {:induction false} BackwardIgnoresFirstStep(x: Matrix, inner: Matrix, x': Matrix, inner': Matrix, dfs: seq<real>,
                                                    regress: Regression, t: nat, v: seq<real>)
    requires t < |x| == |x'| && t < |inner| == |inner'| && t + 1 < |dfs|
    requires Rectangular(inner, |v|) && Rectangular(inner', |v|)
    requires x[1..] == x'[1..] && inner[1..] == inner'[1..]
    ensures Backward(x, inner, dfs, regress, t, v) == Backward(x', inner', dfs, regress, t, v)
  {
    if t > 0 {
      assert x[t] == x[1..][t - 1] == x'[t];
      assert inner[t] == inner[1..][t - 1] == inner'[t];
      if dfs[t + 1] != 0.0 {
        var df := dfs[t] / dfs[t + 1];
        var c := regress(x[t], Scale(df, v));
        if |c| == |v| {
          BackwardIgnoresFirstStep(x, inner, x', inner', dfs, regress, t - 1, ExerciseStep(inner[t], c, v, df));
        }
      }
    }
  }

  /** The estimated continuation value never beats the inner value anywhere. */
  ghost predicate NeverExercise(x: Matrix, inner: Matrix, regress: Regression) {
    forall t, w :: 0 <= t < |x| && 0 <= t < |inner| ==> HoldsAt(x, inner, regress, t, w)
  }

  /** At step `t`, with values `w` ahead, no inner value beats its estimated
      continuation value. */
  ghost predicate HoldsAt(x: Matrix, inner: Matrix, regress: Regression, t: int, w: seq<real>)
    requires 0 <= t < |x| && 0 <= t < |inner|
  {
    var c := regress(x[t], w);
    forall i :: 0 <= i < |inner[t]| && 0 <= i < |c| ==> inner[t][i] <= c[i]
  }

  /** If exercising never pays, the roll-back only discounts: the value of
      step 1 is the value of step `t + 1` times `dfs[1] / dfs[t + 1]`. */
  lemma {:induction false} NeverExerciseDiscounts(x: Matrix, inner: Matrix, dfs: seq<real>, regress: Regression, t: nat, v: seq<real>)
    requires t < |x| && t < |inner| && t + 1 < |dfs|
    requires Rectangular(inner, |v|)
    requires NeverExercise(x, inner, regress)
    requires forall k :: 0 <= k < |dfs| ==> dfs[k] != 0.0
    requires Backward(x, inner, dfs, regress, t, v).Ok?
    ensures Backward(x, inner, dfs, regress, t, v).value == Scale(dfs[1] / dfs[t + 1], v)
  {
    if t == 0 {
      assert dfs[1] / dfs[1] == 1.0;
      assert Scale(dfs[1] / dfs[1], v) == v;
    } else {
      var df := dfs[t] / dfs[t + 1];
      var c := regress(x[t], Scale(df, v));
      assert HoldsAt(x, inner, regress, t, Scale(df, v));
      assert forall i :: 0 <= i < |v| ==> inner[t][i] <= c[i];
      HoldingStep(inner[t], c, v, df);
      NeverExerciseDiscounts(x, inner, dfs, regress, t - 1, Scale(df, v));
      ScaleChain(dfs[1], dfs[t], dfs[t + 1], v);
    }
  }

  /** Where no inner value beats its continuation value, the step discounts. */
  lemma HoldingStep(inner: seq<real>, c: seq<real>, v: seq<real>, df: real)
    requires |inner| == |c| == |v|
    requires forall i :: 0 <= i < |v| ==> inner[i] <= c[i]
    ensures ExerciseStep(inner, c, v, df) == Scale(df, v)
  {
  }

  /** Discounting from c to b and then from b to a is discounting from c to a. */
  lemma ScaleChain(a: real, b: real, c: real, v: seq<real>)
    requires b != 0.0 && c != 0.0
    ensures Scale(a / b, Scale(b / c, v)) == Scale(a / c, v)
  {
    var twice := Scale(a / b, Scale(b / c, v));
    var once := Scale(a / c, v);
    var p := a / b;
    var q := b / c;
    assert p * b == a;
    assert q * c == b;
    forall i | 0 <= i < |v| ensures twice[i] == once[i] {
      assert p * q * c == a;
    }
  }

  /** A quotient of positive reals is positive. Kept apart from its one use,
      whose context is too large for the solver's non-linear arithmetic. */
  lemma QuotientPositive(a: real, b: real)
    requires a > 0.0 && b > 0.0
    ensures a / b > 0.0
  {
    assert (a / b) * b == a;
  }

  /** The part of the simulation a valuation looks at: the grid positions of
      the pricing date and the maturity, the instrument values between them
      (both included) and their inner values. */
  datatype Slice = Slice(start: nat, end: nat, x: Matrix, inner: Matrix)

  /** `generate_payoff`: locates both dates, cuts out the instrument values
      and evaluates the payoff on them, which must give a matrix of the same
      shape. */
  function InnerValues(v: Valuation, grid: seq<Date>, paths: Matrix): (r: Result<Slice>)
    ensures r.Ok? ==> FindUnique(grid, v.pricingDate) == Ok(r.value.start)
    ensures r.Ok? ==> FindUnique(grid, v.maturity) == Ok(r.value.end)
    ensures r.Ok? ==> r.value.start <= r.value.end < |paths| && r.value.end < |grid|
    ensures r.Ok? ==> r.value.x == paths[r.value.start..r.value.end + 1]
    ensures r.Ok? ==> |r.value.inner| == |r.value.x|
    ensures r.Ok? ==> forall t :: 0 <= t < |r.value.x| ==> |r.value.inner[t]| == |r.value.x[t]|
    ensures r.Ok? ==> Eval(v.payoff, Scope(None, None, None, None, Some(r.value.x), v.strike)) == Ok(Grid(r.value.inner))
  {
    var tis :- FindUnique(grid, v.pricingDate);
    var tie :- FindUnique(grid, v.maturity);
    if !(tis <= tie < |paths|) then Err(ShapeMismatch)
    else
      var x := paths[tis..tie + 1];
      var inner :- Eval(v.payoff, Scope(None, None, None, None, Some(x), v.strike));
      if !(inner.Grid? && |inner.g| == |x| && forall t :: 0 <= t < |x| ==> |inner.g[t]| == |x[t]|) then Err(ShapeMismatch)
      else Ok(Slice(tis, tie, x, inner.g))
  }

  /** The discount factors of the steps from the pricing date to the maturity,
      as `get_discount_factors` returns them: the sorted factors, position by
      position. */
  function StepFactors(m: Analytic, v: Valuation, grid: seq<Date>, sl: Slice): (dfs: seq<real>)
    requires sl.start <= sl.end < |grid|
    ensures |dfs| == sl.end - sl.start + 1
  {
    ConstantShortRate.SortedFactors(m, v.shortRate, YearFractions(grid[sl.start..sl.end + 1], DefaultDayCount))
  }

  /** Under lawful `exp` every step factor is positive. */
  lemma StepFactorsPositive(m: Analytic, v: Valuation, grid: seq<Date>, sl: Slice)
    requires Lawful(m)
    requires sl.start <= sl.end < |grid|
    ensures forall k :: 0 <= k < |StepFactors(m, v, grid, sl)| ==> StepFactors(m, v, grid, sl)[k] > 0.0
  {
    var d := YearFractions(grid[sl.start..sl.end + 1], DefaultDayCount);
    var dfs := StepFactors(m, v, grid, sl);
    forall k | 0 <= k < |d| ensures dfs[k] > 0.0 {
      ConstantShortRate.SortedFactorAt(m, v.shortRate, d, k);
      CompoundPositive(m, v.shortRate, Sorting.Sort(Scale(-1.0, d))[k]);
    }
  }

  /** The value vector rolled back from maturity to the first step after the
      pricing date. */
  function Rollback(m: Analytic, v: Valuation, grid: seq<Date>, sl: Slice, regress: Regression): (r: Result<seq<real>>)
    requires sl.start <= sl.end < |grid|
    requires |sl.x| == sl.end - sl.start + 1 == |sl.inner|
    ensures r.Ok? ==> |sl.x| >= 2 && Rectangular(sl.inner, |sl.inner[|sl.x| - 1]|)
    ensures r.Ok? ==> Backward(sl.x, sl.inner, StepFactors(m, v, grid, sl), regress, |sl.x| - 2, sl.inner[|sl.x| - 1]) == r
  {
    var n := |sl.x|;
    if n < 2 || !Rectangular(sl.inner, |sl.inner[n - 1]|) then Err(ShapeMismatch)
    else Backward(sl.x, sl.inner, StepFactors(m, v, grid, sl), regress, n - 2, sl.inner[n - 1])
  }

  /** `present_value(full=True)` on given paths, without rounding: the rolled
      back value vector, discounted once more by the first step's ratio
      `dfs[0] / dfs[1]`. */
  function Value(m: Analytic, v: Valuation, grid: seq<Date>, paths: Matrix, regress: Regression): (r: Result<(real, seq<real>)>)
    ensures r.Ok? ==> InnerValues(v, grid, paths).Ok?
    ensures r.Ok? ==>
      var sl := InnerValues(v, grid, paths).value;
      var dfs := StepFactors(m, v, grid, sl);
      && Rollback(m, v, grid, sl, regress).Ok?
      && |Rollback(m, v, grid, sl, regress).value| > 0
      && dfs[1] != 0.0
      && r.value.1 == Scale(dfs[0] / dfs[1], Rollback(m, v, grid, sl, regress).value)
      && r.value.0 == European.DiscountedMean(dfs[0] / dfs[1], Rollback(m, v, grid, sl, regress).value)
    ensures r.Ok? ==> |r.value.1| > 0 && Mean(r.value.1) == r.value.0
  {
    var sl :- InnerValues(v, grid, paths);
    var vs :- Rollback(m, v, grid, sl, regress);
    var dfs := StepFactors(m, v, grid, sl);
    if |vs| == 0 || dfs[1] == 0.0 then Err(NotANumber)
    else
      var df := dfs[0] / dfs[1];
      Ok((European.DiscountedMean(df, vs), Scale(df, vs)))
  }

  /** A payoff floored at zero gives non-negative inner values. */
  lemma FlooredInnerValues(v: Valuation, grid: seq<Date>, paths: Matrix, a: Expr)
    requires v.payoff == Maximum(a, Const(0.0))
    requires InnerValues(v, grid, paths).Ok?
    ensures forall t :: 0 <= t < |InnerValues(v, grid, paths).value.inner| ==>
      NonNegativeRow(InnerValues(v, grid, paths).value.inner[t])
  {
    var sl := InnerValues(v, grid, paths).value;
    FloorAtZeroNonNegative(a, Scope(None, None, None, None, Some(sl.x), v.strike));
    assert NonNegativeValue(Grid(sl.inner));
    forall t | 0 <= t < |sl.inner| ensures NonNegativeRow(sl.inner[t]) {
    }
  }

  /** Non-negative inner values roll back to a non-negative value vector. */
  lemma RollbackNonNegative(m: Analytic, v: Valuation, grid: seq<Date>, sl: Slice, regress: Regression)
    requires Lawful(m)
    requires sl.start <= sl.end < |grid|
    requires |sl.x| == sl.end - sl.start + 1 == |sl.inner|
    requires forall t :: 0 <= t < |sl.inner| ==> NonNegativeRow(sl.inner[t])
    requires Rollback(m, v, grid, sl, regress).Ok?
    ensures NonNegativeRow(Rollback(m, v, grid, sl, regress).value)
  {
    var n := |sl.x|;
    var dfs := StepFactors(m, v, grid, sl);
    StepFactorsPositive(m, v, grid, sl);
    BackwardNonNegative(sl.x, sl.inner, dfs, regress, n - 2, sl.inner[n - 1]);
  }

  /** With a payoff floored at zero, `np.maximum(x, 0)`, and lawful `exp`,
      the American value is never negative. */
  lemma FlooredPayoffNonNegative(m: Analytic, v: Valuation, grid: seq<Date>, paths: Matrix, regress: Regression, a: Expr)
    requires Lawful(m)
    requires v.payoff == Maximum(a, Const(0.0))
    requires Value(m, v, grid, paths, regress).Ok?
    ensures Value(m, v, grid, paths, regress).value.0 >= 0.0
  {
    var sl := InnerValues(v, grid, paths).value;
    var dfs := StepFactors(m, v, grid, sl);
    StepFactorsPositive(m, v, grid, sl);
    QuotientPositive(dfs[0], dfs[1]);
    FlooredInnerValues(v, grid, paths, a);
    RollbackNonNegative(m, v, grid, sl, regress);
    var vs := Rollback(m, v, grid, sl, regress).value;
    assert European.DiscountedMean(dfs[0] / dfs[1], vs) >= 0.0;
  }

  /** When exercising early never pays, the American value vector is the
      maturity's inner values discounted from maturity to the pricing date,
      as for a European payoff. */
  lemma NoEarlyExerciseIsDiscounting(m: Analytic, v: Valuation, grid: seq<Date>, paths: Matrix, regress: Regression, sl: Slice)
    requires Lawful(m)
    requires InnerValues(v, grid, paths) == Ok(sl)
    requires Value(m, v, grid, paths, regress).Ok?
    requires NeverExercise(sl.x, sl.inner, regress)
    ensures |sl.x| >= 2 && sl.start <= sl.end < |grid|
    ensures StepFactors(m, v, grid, sl)[|sl.x| - 1] != 0.0
    ensures Value(m, v, grid, paths, regress).value.1
      == Scale(StepFactors(m, v, grid, sl)[0] / StepFactors(m, v, grid, sl)[|sl.x| - 1], sl.inner[|sl.x| - 1])
  {
    RollbackOnlyDiscounts(m, v, grid, sl, regress, Value(m, v, grid, paths, regress).value.1);
  }

  /** On a slice where exercising never pays, the rolled-back vector
      discounted by the first step's ratio is the maturity's inner values
      discounted from maturity to the pricing date. */
  lemma RollbackOnlyDiscounts(m: Analytic, v: Valuation, grid: seq<Date>, sl: Slice, regress: Regression, out: seq<real>)
    requires Lawful(m)
    requires sl.start <= sl.end < |grid|
    requires |sl.x| == sl.end - sl.start + 1 == |sl.inner|
    requires NeverExercise(sl.x, sl.inner, regress)
    requires Rollback(m, v, grid, sl, regress).Ok?
    requires StepFactors(m, v, grid, sl)[1] != 0.0
    requires out == Scale(StepFactors(m, v, grid, sl)[0] / StepFactors(m, v, grid, sl)[1], Rollback(m, v, grid, sl, regress).value)
    ensures StepFactors(m, v, grid, sl)[|sl.x| - 1] != 0.0
    ensures out == Scale(StepFactors(m, v, grid, sl)[0] / StepFactors(m, v, grid, sl)[|sl.x| - 1], sl.inner[|sl.x| - 1])
  {
    var n := |sl.x|;
    var dfs := StepFactors(m, v, grid, sl);
    var back := Rollback(m, v, grid, sl, regress).value;
    StepFactorsPositive(m, v, grid, sl);
    assert Backward(sl.x, sl.inner, dfs, regress, n - 2, sl.inner[n - 1]) == Ok(back);
    BackwardOnlyDiscounts(sl.x, sl.inner, dfs, regress, back);
    ScaleChain(dfs[0], dfs[1], dfs[n - 1], sl.inner[n - 1]);
  }

  /** The whole roll-back from maturity, when exercising never pays: the
      maturity's inner values discounted by `dfs[1] / dfs[n - 1]`. */
  lemma BackwardOnlyDiscounts(x: Matrix, inner: Matrix, dfs: seq<real>, regress: Regression, back: seq<real>)
    requires |x| >= 2 && |x| == |inner| == |dfs|
    requires Rectangular(inner, |inner[|x| - 1]|)
    requires NeverExercise(x, inner, regress)
    requires forall k :: 0 <= k < |dfs| ==> dfs[k] > 0.0
    requires Backward(x, inner, dfs, regress, |x| - 2, inner[|x| - 1]) == Ok(back)
    ensures back == Scale(dfs[1] / dfs[|x| - 1], inner[|x| - 1])
  {
    NeverExerciseDiscounts(x, inner, dfs, regress, |x| - 2, inner[|x| - 1]);
  }

  /** `present_value(fixed_seed, full=True)`: asks the underlying for its paths
      (cached or fresh) and values on them; the simulator afterwards is part
      of the result. */
  function PresentValue(m: Analytic, v: Valuation, s: Simulator, fixedSeed: bool, noise: Noise, dateRange: DateRange,
                        regress: Regression): (r: Result<(real, seq<real>, Simulator)>)
    ensures r.Ok? ==> GetInstrumentValues(m, s, fixedSeed, noise, dateRange).Ok?
    ensures r.Ok? ==>
      var got := GetInstrumentValues(m, s, fixedSeed, noise, dateRange).value;
      && r.value.2 == got.0
      && got.0.timeGrid.Some?
      && Value(m, v, got.0.timeGrid.value, got.1, regress) == Ok((r.value.0, r.value.1))
  {
    var got :- GetInstrumentValues(m, s, fixedSeed, noise, dateRange);
    if got.0.timeGrid.None? then Err(NoTimeGrid)
    else
      var value :- Value(m, v, got.0.timeGrid.value, got.1, regress);
      Ok((value.0, value.1, got.0))
  }
}

=== FILE: constant_short_rate.dfy ===
/** Discounting at a constant short rate (`constant_short_rate`).

    The library computes the discount factors of a list of year fractions `d`
    as `exp(r * sort(-d))` and pairs the k-th sorted factor with the k-th input
    date. `SortedFactors` is that computation as written. For increasing `d`
    it hands date k the factor that belongs to date `n-1-k`, which is only the
    right factor when the dates are evenly spaced (see `MisdatedFactorExample`).
    `Factors` pairs every date with its own factor, `Compound(r, d[k] - latest)`,
    and is the definition the valuation engines use.
 */
module ConstantShortRate {
  import opened Wrappers
  import opened RealMath
  import opened Sorting
  import opened YearDeltas

  datatype Curve = Curve(name: string, shortRate: real)

  /** The constructor rejects a negative short rate. */
  function NewCurve(name: string, shortRate: real): (r: Result<Curve>)
    ensures r.Ok? <==> shortRate >= 0.0
    ensures r.Ok? ==> r.value.name == name && r.value.shortRate == shortRate
    ensures r.Err? ==> r.error.ConfigurationError?
  {
    if shortRate < 0.0 then Err(ConfigurationError("Short rate negative."))
    else Ok(Curve(name, shortRate))
  }

  /** `exp(r * np.sort(-d))`, position by position: the factors as the source
      computes them. */
  function SortedFactors(m: Analytic, r: real, d: seq<real>): (f: seq<real>)
    ensures |f| == |d|
  {
    var s := Sort(Scale(-1.0, d));
    seq(|d|, k requires 0 <= k < |d| => Compound(m, r, s[k]))
  }

  /** With a non-negative rate the sorted factors never decrease along the list. */
  lemma SortedFactorsNonDecreasing(m: Analytic, r: real, d: seq<real>)
    requires Lawful(m)
    requires r >= 0.0
    ensures forall i, j :: 0 <= i < j < |d| ==> SortedFactors(m, r, d)[i] <= SortedFactors(m, r, d)[j]
  {
    var s := Sort(Scale(-1.0, d));
    var f := SortedFactors(m, r, d);
    forall i, j | 0 <= i < j < |d| ensures f[i] <= f[j] {
      CompoundMonotone(m, r, s[i], s[j]);
    }
  }

  /** Position k of the sorted factors compounds over the k-th sorted negated fraction. */
  lemma SortedFactorAt(m: Analytic, r: real, d: seq<real>, k: int)
    requires 0 <= k < |d|
    ensures SortedFactors(m, r, d)[k] == Compound(m, r, Sort(Scale(-1.0, d))[k])
  {
  }

  /** For year fractions that start at zero and never go below it, the last
      factor is one and none exceeds one. */
  lemma SortedFactorsBounded(m: Analytic, r: real, d: seq<real>)
    requires Lawful(m)
    requires r >= 0.0
    requires |d| > 0 && d[0] == 0.0
    requires forall k :: 0 <= k < |d| ==> d[k] >= 0.0
    ensures SortedFactors(m, r, d)[|d| - 1] == 1.0
    ensures forall k :: 0 <= k < |d| ==> 0.0 < SortedFactors(m, r, d)[k] <= 1.0
  {
    var s := Sort(Scale(-1.0, d));
    SortedNegatedNonPositive(d);
    SortedFactorAt(m, r, d, |d| - 1);
    CompoundAtZero(m, r);
    forall k | 0 <= k < |d| ensures 0.0 < SortedFactors(m, r, d)[k] <= 1.0 {
      SortedFactorAt(m, r, d, k);
      CompoundAtMostOne(m, r, s[k]);
    }
  }

  /** Negated non-negative fractions sort to non-positive values, and when one
      fraction is zero the largest of them is zero. */
  lemma SortedNegatedNonPositive(d: seq<real>)
    requires |d| > 0 && d[0] == 0.0
    requires forall k :: 0 <= k < |d| ==> d[k] >= 0.0
    ensures forall k :: 0 <= k < |d| ==> Sort(Scale(-1.0, d))[k] <= 0.0
    ensures Sort(Scale(-1.0, d))[|d| - 1] == 0.0
  {
    var neg := Scale(-1.0, d);
    var s := Sort(neg);
    var n := |d|;
    forall k | 0 <= k < n ensures s[k] <= 0.0 {
      assert s[k] in multiset(neg);
      var j :| 0 <= j < n && neg[j] == s[k];
      ScaleAt(-1.0, d, j);
    }
    ScaleAt(-1.0, d, 0);
    assert neg[0] in multiset(s);
    var j :| 0 <= j < n && s[j] == 0.0;
    assert s[j] <= s[n - 1];
  }

  /** Reversing a non-decreasing sequence of negated fractions gives their sorted order. */
  lemma SortNegatedIsReverse(d: seq<real>)
    requires NonDecreasing(d)
    ensures Sort(Scale(-1.0, d)) == Reverse(Scale(-1.0, d))
  {
    var neg := Scale(-1.0, d);
    var rev := Reverse(neg);
    ReverseMultiset(neg);
    forall i, j | 0 <= i < j < |rev| ensures rev[i] <= rev[j] {
      assert d[|d| - 1 - j] <= d[|d| - 1 - i];
    }
    SortedUnique(Sort(neg), rev);
  }

  /** For non-decreasing year fractions the k-th factor is the factor of the
      mirrored date `n-1-k`. */
  lemma SortedFactorsReversed(m: Analytic, r: real, d: seq<real>)
    requires NonDecreasing(d)
    ensures forall k :: 0 <= k < |d| ==> SortedFactors(m, r, d)[k] == Compound(m, r, -d[|d| - 1 - k])
  {
    forall k | 0 <= k < |d| ensures SortedFactors(m, r, d)[k] == Compound(m, r, -d[|d| - 1 - k]) {
      SortedFactorReversedAt(m, r, d, k);
    }
  }

  lemma SortedFactorReversedAt(m: Analytic, r: real, d: seq<real>, k: int)
    requires NonDecreasing(d)
    requires 0 <= k < |d|
    ensures SortedFactors(m, r, d)[k] == Compound(m, r, -d[|d| - 1 - k])
  {
    SortedNegatedAt(d, k);
    SortedFactorIs(m, r, d, k, -d[|d| - 1 - k]);
  }

  lemma SortedFactorIs(m: Analytic, r: real, d: seq<real>, k: int, x: real)
    requires 0 <= k < |d|
    requires Sort(Scale(-1.0, d))[k] == x
    ensures SortedFactors(m, r, d)[k] == Compound(m, r, x)
  {
    SortedFactorAt(m, r, d, k);
  }

  lemma SortedNegatedAt(d: seq<real>, k: int)
    requires NonDecreasing(d)
    requires 0 <= k < |d|
    ensures Sort(Scale(-1.0, d))[k] == -d[|d| - 1 - k]
  {
    SortNegatedIsReverse(d);
    ReversedNegatedAt(d, k);
  }

  lemma ReversedNegatedAt(d: seq<real>, k: int)
    requires 0 <= k < |d|
    ensures Reverse(Scale(-1.0, d))[k] == -d[|d| - 1 - k]
  {
    ScaleAt(-1.0, d, |d| - 1 - k);
  }

  /** For non-decreasing year fractions starting at zero the last sorted
      factor is one and the first discounts over the whole span, so their
      ratio is the right discount from the last date to the first. */
  lemma SortedFactorsEnds(m: Analytic, r: real, d: seq<real>)
    requires Lawful(m)
    requires NonDecreasing(d)
    requires |d| > 0 && d[0] == 0.0
    ensures SortedFactors(m, r, d)[|d| - 1] == 1.0
    ensures SortedFactors(m, r, d)[0] == Compound(m, r, -d[|d| - 1])
  {
    SortedFactorReversedAt(m, r, d, |d| - 1);
    SortedFactorReversedAt(m, r, d, 0);
    assert -d[0] == 0.0;
    CompoundAtZero(m, r);
  }

  /** The latest of the year fractions. */
  function Latest(d: seq<real>): real
    requires |d| > 0
  {
    MaxOf(d)
  }

  /** Every date paired with its own factor: `Compound(r, d[k] - latest)`. */
  function Factors(m: Analytic, r: real, d: seq<real>): (f: seq<real>)
    ensures |f| == |d|
  {
    if |d| == 0 then []
    else seq(|d|, k requires 0 <= k < |d| => Compound(m, r, d[k] - Latest(d)))
  }

  /** Date k's factor compounds over its distance to the latest date. */
  lemma FactorAt(m: Analytic, r: real, d: seq<real>, k: int)
    requires 0 <= k < |d|
    ensures Factors(m, r, d)[k] == Compound(m, r, d[k] - Latest(d))
  {
  }

  /** The factors lie in (0, 1], the latest date's is one, and later dates
      have larger factors. */
  lemma FactorsBounded(m: Analytic, r: real, d: seq<real>)
    requires Lawful(m)
    requires r >= 0.0
    ensures forall k :: 0 <= k < |d| ==> 0.0 < Factors(m, r, d)[k] <= 1.0
    ensures forall k :: 0 <= k < |d| && d[k] == Latest(d) ==> Factors(m, r, d)[k] == 1.0
    ensures forall i, j :: 0 <= i < |d| && 0 <= j < |d| && d[i] <= d[j] ==> Factors(m, r, d)[i] <= Factors(m, r, d)[j]
  {
    forall k | 0 <= k < |d| ensures 0.0 < Factors(m, r, d)[k] <= 1.0 && (d[k] == Latest(d) ==> Factors(m, r, d)[k] == 1.0) {
      FactorAtMostOne(m, r, d, k);
    }
    forall i, j | 0 <= i < |d| && 0 <= j < |d| && d[i] <= d[j] ensures Factors(m, r, d)[i] <= Factors(m, r, d)[j] {
      FactorsOrdered(m, r, d, i, j);
    }
  }

  lemma FactorAtMostOne(m: Analytic, r: real, d: seq<real>, k: int)
    requires Lawful(m)
    requires r >= 0.0
    requires 0 <= k < |d|
    ensures 0.0 < Factors(m, r, d)[k] <= 1.0
    ensures d[k] == Latest(d) ==> Factors(m, r, d)[k] == 1.0
  {
    CompoundAtMostOne(m, r, d[k] - Latest(d));
    CompoundAtZero(m, r);
  }

  lemma FactorsOrdered(m: Analytic, r: real, d: seq<real>, i: int, j: int)
    requires Lawful(m)
    requires r >= 0.0
    requires 0 <= i < |d| && 0 <= j < |d| && d[i] <= d[j]
    ensures Factors(m, r, d)[i] <= Factors(m, r, d)[j]
  {
    CompoundMonotone(m, r, d[i] - Latest(d), d[j] - Latest(d));
  }

  /** For a single pricing-date/maturity pair with the maturity not earlier,
      the source's factors and the corrected ones coincide. */
  lemma FactorsAgreeOnPair(m: Analytic, r: real, t: real)
    requires t >= 0.0
    ensures SortedFactors(m, r, [0.0, t]) == Factors(m, r, [0.0, t])
  {
    var d := [0.0, t];
    SortedFactorsReversed(m, r, d);
    assert Latest(d) == t;
    assert d[0] - t == -d[1] && d[1] - t == -d[0];
  }

  /** On the dates 0, 1 and 3 (in years) at rate 1 the source hands the middle
      date exp(-1) although it lies two years before the last date; the
      corrected factor is exp(-2). */
  lemma MisdatedFactorExample(m: Analytic)
    requires Lawful(m)
    ensures SortedFactors(m, 1.0, [0.0, 1.0, 3.0])[1] == Compound(m, 1.0, -1.0)
    ensures Factors(m, 1.0, [0.0, 1.0, 3.0])[1] == Compound(m, 1.0, -2.0)
    ensures SortedFactors(m, 1.0, [0.0, 1.0, 3.0])[1] != Factors(m, 1.0, [0.0, 1.0, 3.0])[1]
  {
    var d := [0.0, 1.0, 3.0];
    SortedFactorsReversed(m, 1.0, d);
    assert Latest(d) == 3.0;
    assert Compound(m, 1.0, -2.0) < Compound(m, 1.0, -1.0);
  }

  /** The mirrored pairing, stated for every input: it holds whenever the
      fractions do not decrease. */
  lemma SortedFactorsReversedWhenSorted(m: Analytic, r: real, d: seq<real>)
    ensures NonDecreasing(d) ==>
      forall k :: 0 <= k < |d| ==> SortedFactors(m, r, d)[k] == Compound(m, r, -d[|d| - 1 - k])
  {
    if NonDecreasing(d) {
      SortedFactorsReversed(m, r, d);
    }
  }

  /** `get_discount_factors(date_list)` on calendar dates: one (date, factor)
      pair per date, in input order, the factors being the sorted ones. On
      non-decreasing dates the k-th date gets the factor of date `n-1-k`. */
  function DiscountFactors(m: Analytic, c: Curve, dates: seq<Date>, dayCount: real): (r: seq<(Date, real)>)
    requires |dates| > 0
    requires dayCount != 0.0
    ensures |r| == |dates|
    ensures forall k :: 0 <= k < |dates| ==> r[k].0 == dates[k]
    ensures forall k :: 0 <= k < |dates| ==> r[k].1 == SortedFactors(m, c.shortRate, YearFractions(dates, dayCount))[k]
    ensures var d := YearFractions(dates, dayCount);
      NonDecreasing(d) ==> forall k :: 0 <= k < |dates| ==> r[k].1 == Compound(m, c.shortRate, -d[|d| - 1 - k])
  {
    var p := DiscountFactorsOfFractions(m, c, YearFractions(dates, dayCount));
    seq(|dates|, k requires 0 <= k < |dates| => (dates[k], p[k].1))
  }

  /** `get_discount_factors(date_list, dtobjects=False)`: the year fractions are
      taken as given and paired with the sorted factors; on non-decreasing
      fractions fraction k gets the factor of fraction `n-1-k`. */
  function DiscountFactorsOfFractions(m: Analytic, c: Curve, fractions: seq<real>): (r: seq<(real, real)>)
    ensures |r| == |fractions|
    ensures forall k :: 0 <= k < |fractions| ==> r[k].0 == fractions[k]
    ensures forall k :: 0 <= k < |fractions| ==> r[k].1 == SortedFactors(m, c.shortRate, fractions)[k]
    ensures NonDecreasing(fractions) ==>
      forall k :: 0 <= k < |fractions| ==> r[k].1 == Compound(m, c.shortRate, -fractions[|fractions| - 1 - k])
  {
    SortedFactorsReversedWhenSorted(m, c.shortRate, fractions);
    var f := SortedFactors(m, c.shortRate, fractions);
    seq(|fractions|, k requires 0 <= k < |fractions| => (fractions[k], f[k]))
  }
}

=== FILE: deterministic_short_rate.dfy ===
/** Discounting along a deterministic forward-rate curve
    (`deterministic_short_rate`).

    The yield spline (scipy's `splrep`/`splev`) is foreign: the interpolated
    yieldList and their time derivatives at the requested times are inputs. The
    discount factor of time `t[no]` integrates the forward rates from `t[no]` to
    the last time with the trapezoidal rule.
 */
module DeterministicShortRate {
  import opened Wrappers
  import opened RealMath
  import opened Sorting
  import opened YearDeltas
  import ConstantShortRate

  /** A named list of (date, yield) pairs. */
  datatype Curve = Curve(name: string, yieldList: seq<(Date, real)>)

  /** The constructor reads the yield column of the list as a two-dimensional
      array: an empty list has no such column (numpy raises an index error),
      and a list with a negative yield is rejected. */
  function NewCurve(name: string, yieldList: seq<(Date, real)>): (r: Result<Curve>)
    ensures r.Ok? <==> |yieldList| > 0 && forall k :: 0 <= k < |yieldList| ==> yieldList[k].1 >= 0.0
    ensures r.Ok? ==> r.value == Curve(name, yieldList)
    ensures |yieldList| == 0 ==> r == Err(ShapeMismatch)
    ensures |yieldList| > 0 && r.Err? ==> r.error.ConfigurationError?
  {
    if |yieldList| == 0 then Err(ShapeMismatch)
    else if exists k :: 0 <= k < |yieldList| && yieldList[k].1 < 0.0 then Err(ConfigurationError("Negative yield(s)."))
    else Ok(Curve(name, yieldList))
  }

  /** The spline degree: linear for at most three requested times, cubic otherwise. */
  function SplineDegree(timeCount: nat): (k: nat)
    ensures k == 1 || k == 3
    ensures k == 1 <==> timeCount <= 3
  {
    if timeCount <= 3 then 1 else 3
  }

  /** Forward rates from the interpolated yieldList `y` and their derivatives `dy`
      at the year fractions `t`. */
  function ForwardRates(y: seq<real>, dy: seq<real>, t: seq<real>): (f: seq<real>)
    requires |y| == |dy| == |t|
    ensures |f| == |t|
  {
    seq(|t|, k requires 0 <= k < |t| => y[k] + dy[k] * t[k])
  }

  /** Where the yield curve is flat the forward rate is the yield itself. */
  lemma ForwardRatesOfFlatCurve(y: seq<real>, dy: seq<real>, t: seq<real>)
    requires |y| == |dy| == |t|
    requires forall k :: 0 <= k < |dy| ==> dy[k] == 0.0
    ensures ForwardRates(y, dy, t) == y
  {
  }

  /** The trapezoid between times `d` and `d + 1`. */
  function Panel(t: seq<real>, f: seq<real>, d: int): real
    requires |f| == |t|
    requires 0 <= d && d + 1 < |t|
  {
    (t[d + 1] - t[d]) * (0.5 * (f[d + 1] + f[d]))
  }

  /** The trapezoidal integral of the forward rates over the panels `lo .. hi-1`. */
  function Area(t: seq<real>, f: seq<real>, lo: int, hi: int): real
    requires |f| == |t|
    requires 0 <= lo && hi < |t|
    decreases hi - lo
  {
    if hi <= lo then 0.0 else Area(t, f, lo, hi - 1) + Panel(t, f, hi - 1)
  }

  /** The discount factor of time `t[no]`: `exp` of minus the integral of the
      forward rates from `t[no]` to the last time. */
  function TrapezoidFactor(m: Analytic, t: seq<real>, f: seq<real>, no: int): real
    requires |f| == |t|
    requires 0 <= no < |t|
  {
    m.exp(-Area(t, f, no, |t| - 1))
  }

  /** `get_discount_factors`: one factor per time, `exp(-integral)` from the
      time to the last time, accumulated panel by panel as the source does. */
  method DiscountFactors(m: Analytic, t: seq<real>, f: seq<real>) returns (df: seq<real>)
    requires |f| == |t|
    ensures |df| == |t|
    ensures forall no :: 0 <= no < |t| ==> df[no] == TrapezoidFactor(m, t, f, no)
  {
    var n := |t|;
    df := [];
    var no := 0;
    while no < n
      invariant 0 <= no <= n
      invariant |df| == no
      invariant forall k :: 0 <= k < no ==> df[k] == TrapezoidFactor(m, t, f, k)
    {
      var factor := 0.0;
      var d := no;
      while d < n - 1
        invariant no <= d <= n - 1
        invariant factor == Area(t, f, no, d)
      {
        factor := factor + (t[d + 1] - t[d]) * (0.5 * (f[d + 1] + f[d]));
        d := d + 1;
      }
      df := df + [m.exp(-factor)];
      no := no + 1;
    }
  }

  /** Splitting off the first panel of an integral. */
  lemma {:induction false} AreaFirstPanel(t: seq<real>, f: seq<real>, lo: int, hi: int)
    requires |f| == |t|
    requires 0 <= lo < hi < |t|
    ensures Area(t, f, lo, hi) == Panel(t, f, lo) + Area(t, f, lo + 1, hi)
    decreases hi - lo
  {
    if hi > lo + 1 {
      AreaFirstPanel(t, f, lo, hi - 1);
    }
  }

  ghost predicate NonNegative(s: seq<real>) {
    forall k :: 0 <= k < |s| ==> s[k] >= 0.0
  }

  lemma PanelNonNegative(t: seq<real>, f: seq<real>, d: int)
    requires |f| == |t|
    requires 0 <= d && d + 1 < |t|
    requires t[d] <= t[d + 1]
    requires f[d] >= 0.0 && f[d + 1] >= 0.0
    ensures Panel(t, f, d) >= 0.0
  {
    MulMonotone(0.5 * (f[d + 1] + f[d]), 0.0, t[d + 1] - t[d]);
  }

  /** Over non-decreasing times with non-negative forwards the integral is
      non-negative. */
  lemma {:induction false} AreaNonNegative(t: seq<real>, f: seq<real>, lo: int, hi: int)
    requires |f| == |t|
    requires 0 <= lo && hi < |t|
    requires NonDecreasing(t) && NonNegative(f)
    ensures Area(t, f, lo, hi) >= 0.0
    decreases hi - lo
  {
    if hi > lo {
      AreaNonNegative(t, f, lo, hi - 1);
      PanelNonNegative(t, f, hi - 1);
    }
  }

  /** The last time's factor is `exp(0) = 1`: its integral has no panels. */
  lemma LastFactorIsOne(m: Analytic, t: seq<real>, f: seq<real>)
    requires Lawful(m)
    requires |f| == |t| > 0
    ensures TrapezoidFactor(m, t, f, |t| - 1) == 1.0
  {
  }

  /** Over non-decreasing times with non-negative forwards, every factor is in
      (0, 1] and the factors never decrease along the list. */
  lemma FactorsBoundedAndOrdered(m: Analytic, t: seq<real>, f: seq<real>)
    requires Lawful(m)
    requires |f| == |t|
    requires NonDecreasing(t) && NonNegative(f)
    ensures forall no :: 0 <= no < |t| ==> 0.0 < TrapezoidFactor(m, t, f, no) <= 1.0
    ensures forall i, j :: 0 <= i <= j < |t| ==> TrapezoidFactor(m, t, f, i) <= TrapezoidFactor(m, t, f, j)
  {
    var n := |t|;
    forall no | 0 <= no < n ensures 0.0 < TrapezoidFactor(m, t, f, no) <= 1.0 {
      AreaNonNegative(t, f, no, n - 1);
      ExpAtMostOne(m, -Area(t, f, no, n - 1));
    }
    forall i, j | 0 <= i <= j < n ensures TrapezoidFactor(m, t, f, i) <= TrapezoidFactor(m, t, f, j) {
      AreaShrinks(t, f, i, j);
      ExpMonotone(m, -Area(t, f, i, n - 1), -Area(t, f, j, n - 1));
    }
  }

  /** Starting the integral later never makes it larger. */
  lemma {:induction false} AreaShrinks(t: seq<real>, f: seq<real>, i: int, j: int)
    requires |f| == |t|
    requires 0 <= i <= j < |t|
    requires NonDecreasing(t) && NonNegative(f)
    ensures Area(t, f, j, |t| - 1) <= Area(t, f, i, |t| - 1)
    decreases j - i
  {
    if i < j {
      AreaFirstPanel(t, f, i, |t| - 1);
      PanelNonNegative(t, f, i);
      AreaShrinks(t, f, i + 1, j);
    }
  }

  /** A flat forward curve at `r` integrates to `r` times the elapsed time. */
  lemma {:induction false} AreaOfFlatCurve(t: seq<real>, f: seq<real>, r: real, lo: int, hi: int)
    requires |f| == |t|
    requires 0 <= lo <= hi < |t|
    requires forall k :: 0 <= k < |f| ==> f[k] == r
    ensures Area(t, f, lo, hi) == r * (t[hi] - t[lo])
    decreases hi - lo
  {
    if hi > lo {
      AreaOfFlatCurve(t, f, r, lo, hi - 1);
      var x0, x1, x2 := t[lo], t[hi - 1], t[hi];
      assert f[hi] == r && f[hi - 1] == r;
      assert 0.5 * (f[hi] + f[hi - 1]) == r;
      assert Panel(t, f, hi - 1) == (x2 - x1) * r;
      assert Area(t, f, lo, hi) == Area(t, f, lo, hi - 1) + Panel(t, f, hi - 1);
      assert r * (x1 - x0) + (x2 - x1) * r == r * (x2 - x0) by {
        assert r * (x1 - x0) == r * x1 - r * x0;
        assert (x2 - x1) * r == r * x2 - r * x1;
        assert r * (x2 - x0) == r * x2 - r * x0;
      }
    }
  }

  /** On a flat forward curve at `r` over non-decreasing times, the trapezoid
      factors are the constant-short-rate factors at `r`. */
  lemma FlatCurveIsConstantRate(m: Analytic, t: seq<real>, f: seq<real>, r: real)
    requires |f| == |t|
    requires NonDecreasing(t)
    requires forall k :: 0 <= k < |f| ==> f[k] == r
    ensures forall no :: 0 <= no < |t| ==>
      TrapezoidFactor(m, t, f, no) == ConstantShortRate.Factors(m, r, t)[no]
  {
    forall no | 0 <= no < |t| ensures TrapezoidFactor(m, t, f, no) == ConstantShortRate.Factors(m, r, t)[no] {
      FlatFactorAt(m, t, f, r, no);
    }
  }

  lemma FlatFactorAt(m: Analytic, t: seq<real>, f: seq<real>, r: real, no: int)
    requires |f| == |t|
    requires NonDecreasing(t)
    requires forall k :: 0 <= k < |f| ==> f[k] == r
    requires 0 <= no < |t|
    ensures TrapezoidFactor(m, t, f, no) == ConstantShortRate.Factors(m, r, t)[no]
  {
    LatestIsLast(t);
    FlatAreaNegated(t, f, r, no, |t| - 1);
    FactorFromArea(m, t, f, r, no);
  }

  /** A factor whose integral is `r` times the time to the last date is the
      constant-rate factor, once the last date is known to be the latest. */
  lemma FactorFromArea(m: Analytic, t: seq<real>, f: seq<real>, r: real, no: int)
    requires |f| == |t|
    requires 0 <= no < |t|
    requires ConstantShortRate.Latest(t) == t[|t| - 1]
    requires -Area(t, f, no, |t| - 1) == r * (t[no] - t[|t| - 1])
    ensures TrapezoidFactor(m, t, f, no) == ConstantShortRate.Factors(m, r, t)[no]
  {
    var e := t[no] - t[|t| - 1];
    var a := Area(t, f, no, |t| - 1);
    CompoundIs(m, r, e, -a);
    var x := t[no] - ConstantShortRate.Latest(t);
    assert x == e;
    ConstantShortRate.FactorAt(m, r, t, no);
    assert ConstantShortRate.Factors(m, r, t)[no] == Compound(m, r, e);
    TrapezoidFactorIs(m, t, f, no);
  }

  /** The latest of non-decreasing times is the last. */
  lemma LatestIsLast(t: seq<real>)
    requires |t| > 0
    requires NonDecreasing(t)
    ensures ConstantShortRate.Latest(t) == t[|t| - 1]
  {
    var latest := ConstantShortRate.Latest(t);
    var j :| 0 <= j < |t| && t[j] == latest;
  }

  lemma FlatAreaNegated(t: seq<real>, f: seq<real>, r: real, lo: int, hi: int)
    requires |f| == |t|
    requires 0 <= lo <= hi < |t|
    requires forall k :: 0 <= k < |f| ==> f[k] == r
    ensures -Area(t, f, lo, hi) == r * (t[lo] - t[hi])
  {
    AreaOfFlatCurve(t, f, r, lo, hi);
    assert r * (t[lo] - t[hi]) == -(r * (t[hi] - t[lo]));
  }

  lemma TrapezoidFactorIs(m: Analytic, t: seq<real>, f: seq<real>, no: int)
    requires |f| == |t|
    requires 0 <= no < |t|
    ensures TrapezoidFactor(m, t, f, no) == m.exp(-Area(t, f, no, |t| - 1))
  {
  }
}

=== FILE: european.dfy ===
/** Monte Carlo valuation of European payoffs (`valuation_mcs_european`).

    The payoff is evaluated on aggregates of the path matrix up to the
    maturity's grid position, and its discounted mean is the present value.
    The aggregates are taken across the paths of each time step, as the code
    computes them: `meanValue[k]` averages row k over all paths, and
    `maxValue`/`minValue` are the extreme entries of the row just before
    maturity.
 */
module European {
  import opened Wrappers
  import opened RealMath
  import opened YearDeltas
  import opened Shocks
  import opened Simulation
  import opened Payoff
  import opened Valuation
  import ConstantShortRate

  /** The row means of `rows`, one per row. */
  function RowMeans(rows: Matrix): (r: seq<real>)
    requires forall k :: 0 <= k < |rows| ==> |rows[k]| > 0
    ensures |r| == |rows|
    ensures forall k :: 0 <= k < |rows| ==> r[k] * |rows[k]| as real == Sum(rows[k])
  {
    seq(|rows|, k requires 0 <= k < |rows| => Mean(rows[k]))
  }

  /** The names `generate_payoff` puts in scope for maturity index `ti`. The
      aggregates need at least one step before maturity and non-empty rows
      before it; `instrument_values` is not among them. */
  function Aggregates(paths: Matrix, ti: nat, strike: Option<real>): (r: Result<Scope>)
    ensures r.Ok? <==> 0 < ti < |paths| && forall k :: 0 <= k < ti ==> |paths[k]| > 0
    ensures r.Err? ==> r.error == ShapeMismatch
    ensures r.Ok? ==> r.value.maturityValue == Some(paths[ti])
    ensures r.Ok? ==> r.value.strike == strike && r.value.instrumentValues.None?
    ensures r.Ok? ==> r.value.meanValue.Some? && |r.value.meanValue.value| == ti
    ensures r.Ok? ==> forall k :: 0 <= k < ti ==>
      r.value.meanValue.value[k] * |paths[k]| as real == Sum(paths[k])
    ensures r.Ok? ==> r.value.maxValue == Some(MaxOf(paths[ti - 1]))
    ensures r.Ok? ==> r.value.minValue == Some(MinOf(paths[ti - 1]))
  {
    if !(0 < ti < |paths| && forall k :: 0 <= k < ti ==> |paths[k]| > 0) then Err(ShapeMismatch)
    else
      var before := paths[..ti];
      Ok(Scope(Some(paths[ti]), Some(RowMeans(before)), Some(MaxOf(paths[ti - 1])), Some(MinOf(paths[ti - 1])),
               None, strike))
  }

  /** The discount factor of the (pricing date, maturity) pair: the factor the
      curve assigns to the pricing date. */
  function DiscountFactor(m: Analytic, shortRate: real, pricingDate: Date, maturity: Date): real {
    ConstantShortRate.Factors(m, shortRate, YearFractions([pricingDate, maturity], DefaultDayCount))[0]
  }

  /** For a maturity not before the pricing date the factor is
      `exp(-r * T)`; for an earlier one it is one. Either way it agrees with
      the curve's factors as the library computes them, so the misdated
      pairing does not reach European values. */
  lemma DiscountFactorValue(m: Analytic, shortRate: real, pricingDate: Date, maturity: Date)
    ensures pricingDate <= maturity ==>
      DiscountFactor(m, shortRate, pricingDate, maturity)
        == Compound(m, shortRate, -YearFraction(pricingDate, maturity, DefaultDayCount))
    ensures maturity < pricingDate ==> DiscountFactor(m, shortRate, pricingDate, maturity) == Compound(m, shortRate, 0.0)
    ensures DiscountFactor(m, shortRate, pricingDate, maturity)
      == ConstantShortRate.SortedFactors(m, shortRate, YearFractions([pricingDate, maturity], DefaultDayCount))[0]
  {
    var d := YearFractions([pricingDate, maturity], DefaultDayCount);
    var t := d[1];
    assert d == [0.0, t];
    if pricingDate <= maturity {
      assert t >= 0.0;
      ConstantShortRate.FactorsAgreeOnPair(m, shortRate, t);
      assert ConstantShortRate.Latest(d) == t;
      assert 0.0 - t == -YearFraction(pricingDate, maturity, DefaultDayCount);
    } else {
      assert t < 0.0;
      assert ConstantShortRate.Latest(d) == 0.0;
      var neg := Scale(-1.0, d);
      assert neg == [0.0, -t];
      Sorting.SortedUnique(Sorting.Sort(neg), neg);
    }
  }

  /** The payoff of every path, given the grid and the path matrix: the
      maturity's position on the grid, the aggregates up to it, and the
      payoff, which must come out as one value per path. */
  function Payoffs(v: Valuation, grid: seq<Date>, paths: Matrix): (r: Result<seq<real>>)
    ensures r.Ok? ==> FindUnique(grid, v.maturity).Ok?
    ensures r.Ok? ==>
      var ti := FindUnique(grid, v.maturity).value;
      && Aggregates(paths, ti, v.strike).Ok?
      && Eval(v.payoff, Aggregates(paths, ti, v.strike).value) == Ok(Vector(r.value))
    ensures v.maturity !in grid ==> r == Err(GridMismatch)
  {
    var ti :- FindUnique(grid, v.maturity);
    var scope :- Aggregates(paths, ti, v.strike);
    var payoff :- Eval(v.payoff, scope);
    if payoff.Vector? then Ok(payoff.v) else Err(ShapeMismatch)
  }

  /** `present_value(full=True)` on given paths, without rounding: the
      discounted mean payoff and the discounted payoffs. An empty payoff
      vector has no mean. */
  function Value(m: Analytic, v: Valuation, grid: seq<Date>, paths: Matrix): (r: Result<(real, seq<real>)>)
    ensures r.Ok? <==> Payoffs(v, grid, paths).Ok? && |Payoffs(v, grid, paths).value| > 0
    ensures r.Ok? ==>
      var cf := Payoffs(v, grid, paths).value;
      var df := DiscountFactor(m, v.shortRate, v.pricingDate, v.maturity);
      && r.value.1 == Scale(df, cf)
      && r.value.0 * |cf| as real == df * Sum(cf)
    ensures r.Ok? ==> |r.value.1| > 0 && Mean(r.value.1) == r.value.0
  {
    var cf :- Payoffs(v, grid, paths);
    if |cf| == 0 then Err(NotANumber)
    else
      var df := DiscountFactor(m, v.shortRate, v.pricingDate, v.maturity);
      Ok((DiscountedMean(df, cf), Scale(df, cf)))
  }

  /** `present_value(fixed_seed, full=True)`: asks the underlying for its paths
      (cached or fresh) and values on them; the simulator afterwards is part
      of the result. */
  function PresentValue(m: Analytic, v: Valuation, s: Simulator, fixedSeed: bool, noise: Noise, dateRange: DateRange)
    : (r: Result<(real, seq<real>, Simulator)>)
    ensures r.Ok? ==> GetInstrumentValues(m, s, fixedSeed, noise, dateRange).Ok?
    ensures r.Ok? ==>
      var got := GetInstrumentValues(m, s, fixedSeed, noise, dateRange).value;
      && r.value.2 == got.0
      && got.0.timeGrid.Some?
      && Value(m, v, got.0.timeGrid.value, got.1) == Ok((r.value.0, r.value.1))
  {
    var got :- GetInstrumentValues(m, s, fixedSeed, noise, dateRange);
    if got.0.timeGrid.None? then Err(NoTimeGrid)
    else
      var value :- Value(m, v, got.0.timeGrid.value, got.1);
      Ok((value.0, value.1, got.0))
  }

  /** `df * np.sum(cf) / len(cf)`, which is also the mean of the discounted
      payoffs. */
  function DiscountedMean(df: real, cf: seq<real>): (r: real)
    requires |cf| > 0
    ensures r * |cf| as real == df * Sum(cf)
    ensures Mean(Scale(df, cf)) == r
    ensures df >= 0.0 && (forall i :: 0 <= i < |cf| ==> cf[i] >= 0.0) ==> r >= 0.0
  {
    SumScale(df, cf);
    DiscountedMeanSign(df, cf);
    df * Sum(cf) / |cf| as real
  }

  lemma DiscountedMeanSign(df: real, cf: seq<real>)
    requires |cf| > 0
    ensures df >= 0.0 && (forall i :: 0 <= i < |cf| ==> cf[i] >= 0.0) ==> df * Sum(cf) / |cf| as real >= 0.0
  {
    if df >= 0.0 && (forall i :: 0 <= i < |cf| ==> cf[i] >= 0.0) {
      SumNonNegative(cf);
      var a := Sum(cf);
      assert df * a >= 0.0;
    }
  }

  /** Non-negative payoffs give a non-negative present value. */
  lemma ValueNonNegative(m: Analytic, v: Valuation, grid: seq<Date>, paths: Matrix)
    requires Lawful(m)
    requires Value(m, v, grid, paths).Ok?
    requires forall i :: 0 <= i < |Payoffs(v, grid, paths).value| ==> Payoffs(v, grid, paths).value[i] >= 0.0
    ensures Value(m, v, grid, paths).value.0 >= 0.0
  {
    var cf := Payoffs(v, grid, paths).value;
    var df := DiscountFactor(m, v.shortRate, v.pricingDate, v.maturity);
    var d := YearFractions([v.pricingDate, v.maturity], DefaultDayCount);
    CompoundPositive(m, v.shortRate, d[0] - ConstantShortRate.Latest(d));
    assert Value(m, v, grid, paths).value.0 == DiscountedMean(df, cf);
  }

  /** A payoff floored at zero, `np.maximum(x, 0)`, never has a negative
      present value. */
  lemma FlooredPayoffNonNegative(m: Analytic, v: Valuation, grid: seq<Date>, paths: Matrix, a: Expr)
    requires Lawful(m)
    requires v.payoff == Maximum(a, Const(0.0))
    requires Value(m, v, grid, paths).Ok?
    ensures Value(m, v, grid, paths).value.0 >= 0.0
  {
    var ti := FindUnique(grid, v.maturity).value;
    var scope := Aggregates(paths, ti, v.strike).value;
    FloorAtZeroNonNegative(a, scope);
    ValueNonNegative(m, v, grid, paths);
  }

  /** With a fixed seed and a full cache, valuing again reuses the cached
      paths and leaves the simulator as it was. */
  lemma CachedValuationKeepsSimulator(m: Analytic, v: Valuation, s: Simulator, noise: Noise, dateRange: DateRange)
    requires s.instrumentValues.Some?
    requires PresentValue(m, v, s, true, noise, dateRange).Ok?
    ensures PresentValue(m, v, s, true, noise, dateRange).value.2 == s
    ensures s.timeGrid.Some?
    ensures Value(m, v, s.timeGrid.value, s.instrumentValues.value)
      == Ok((PresentValue(m, v, s, true, noise, dateRange).value.0, PresentValue(m, v, s, true, noise, dateRange).value.1))
  {
  }
}

=== FILE: gbm.dfy ===
/** The geometric Brownian motion path recursion
    (`geometric_brownian_motion.generate_paths`).

    Row 0 holds the initial value on every path; row `t` multiplies row `t-1`
    by `exp((r - sigma^2/2) dt + sigma sqrt(dt) z)` with the year fraction `dt`
    between grid dates `t-1` and `t` and the shock `z` of the path.
 */
module GeometricBrownianMotion {
  import opened Wrappers
  import opened RealMath
  import opened YearDeltas
  import opened Shocks

  /** The year fraction of step `t` of the grid. */
  function StepLength(grid: seq<Date>, t: nat, dayCount: real): real
    requires 1 <= t < |grid|
    requires dayCount != 0.0
  {
    YearFraction(grid[t - 1], grid[t], dayCount)
  }

  /** The exponent of one GBM step. */
  function Exponent(m: Analytic, r: real, sigma: real, dt: real, z: real): real {
    (r - 0.5 * sigma * sigma) * dt + sigma * m.sqrt(dt) * z
  }

  /** `paths[t - 1] * np.exp(...)`: one step on every path. */
  function Step(m: Analytic, prev: seq<real>, r: real, sigma: real, dt: real, z: seq<real>): (next: seq<real>)
    requires |z| == |prev|
    ensures |next| == |prev|
    ensures forall i :: 0 <= i < |prev| ==> next[i] == prev[i] * m.exp(Exponent(m, r, sigma, dt, z[i]))
  {
    seq(|prev|, i requires 0 <= i < |prev| => prev[i] * m.exp(Exponent(m, r, sigma, dt, z[i])))
  }

  /** Under lawful `exp` the step factor is positive, so a step never changes
      the sign of an entry. */
  lemma StepKeepsSign(m: Analytic, prev: seq<real>, r: real, sigma: real, dt: real, z: seq<real>, i: nat)
    requires Lawful(m)
    requires |z| == |prev| && i < |prev|
    ensures Step(m, prev, r, sigma, dt, z)[i] > 0.0 <==> prev[i] > 0.0
    ensures Step(m, prev, r, sigma, dt, z)[i] == 0.0 <==> prev[i] == 0.0
    ensures Step(m, prev, r, sigma, dt, z)[i] < 0.0 <==> prev[i] < 0.0
  {
    var e := m.exp(Exponent(m, r, sigma, dt, z[i]));
    assert e > 0.0;
    assert Step(m, prev, r, sigma, dt, z)[i] == prev[i] * e;
  }

  /** The first `n` rows of the path matrix. */
  function Rows(m: Analytic, s0: real, r: real, sigma: real, grid: seq<Date>, dayCount: real,
                z: Matrix, paths: nat, n: nat): (p: Matrix)
    requires dayCount != 0.0
    requires 1 <= n <= |grid|
    requires IsMatrix(z, |grid|, paths)
    ensures IsMatrix(p, n, paths)
    ensures p[0] == Fill(paths, s0)
    ensures forall t :: 1 <= t < n ==> p[t] == Step(m, p[t - 1], r, sigma, StepLength(grid, t, dayCount), z[t])
    decreases n
  {
    if n == 1 then [Fill(paths, s0)]
    else
      var q := Rows(m, s0, r, sigma, grid, dayCount, z, paths, n - 1);
      q + [Step(m, q[n - 2], r, sigma, StepLength(grid, n - 1, dayCount), z[n - 1])]
  }

  /** Some step has a negative year fraction: a date before its predecessor
      (or a negative day count). numpy's `sqrt(dt)` is then nan, and so is
      every later entry of the path matrix. */
  predicate BackwardStep(grid: seq<Date>, dayCount: real)
    requires dayCount != 0.0
  {
    exists t :: 1 <= t < |grid| && StepLength(grid, t, dayCount) < 0.0
  }

  /** A non-decreasing grid with a positive day count has no backward step. */
  lemma OrderedGridForward(grid: seq<Date>, dayCount: real)
    requires dayCount > 0.0
    requires forall t :: 1 <= t < |grid| ==> grid[t - 1] <= grid[t]
    ensures !BackwardStep(grid, dayCount)
  {
  }

  /** A grid whose second date comes before its first has a backward step. */
  lemma ReversedGridBackward(grid: seq<Date>, dayCount: real)
    requires dayCount > 0.0
    requires |grid| >= 2 && grid[1] < grid[0]
    ensures BackwardStep(grid, dayCount)
  {
    assert (grid[1] - grid[0]) as real < 0.0;
    assert StepLength(grid, 1, dayCount) < 0.0;
  }

  /** `generate_paths` for a grid of `M` dates and the shock matrix: an
      `M x paths` matrix. An empty grid has no row 0 to initialise; a
      backward step makes the matrix nan, reported as `NotANumber`. */
  function Paths(m: Analytic, s0: real, r: real, sigma: real, grid: seq<Date>, dayCount: real,
                 z: Matrix, paths: nat): (p: Result<Matrix>)
    requires dayCount != 0.0
    requires IsMatrix(z, |grid|, paths)
    ensures p.Ok? <==> |grid| > 0 && !BackwardStep(grid, dayCount)
    ensures |grid| > 0 && BackwardStep(grid, dayCount) ==> p == Err(NotANumber)
    ensures p.Ok? ==> IsMatrix(p.value, |grid|, paths) && p.value[0] == Fill(paths, s0)
  {
    if |grid| == 0 then Err(ShapeMismatch)
    else if BackwardStep(grid, dayCount) then Err(NotANumber)
    else Ok(Rows(m, s0, r, sigma, grid, dayCount, z, paths, |grid|))
  }

  /** On a grid without backward steps, a positive initial value stays
      positive on every path at every date: each step multiplies by a
      positive `exp`. */
  lemma {:induction false} RowsPositive(m: Analytic, s0: real, r: real, sigma: real, grid: seq<Date>, dayCount: real,
                                        z: Matrix, paths: nat, n: nat)
    requires Lawful(m)
    requires s0 > 0.0
    requires dayCount != 0.0
    requires 1 <= n <= |grid|
    requires !BackwardStep(grid, dayCount)
    requires IsMatrix(z, |grid|, paths)
    ensures forall t, i :: 0 <= t < n && 0 <= i < paths ==> Rows(m, s0, r, sigma, grid, dayCount, z, paths, n)[t][i] > 0.0
    decreases n
  {
    var p := Rows(m, s0, r, sigma, grid, dayCount, z, paths, n);
    if n > 1 {
      RowsPositive(m, s0, r, sigma, grid, dayCount, z, paths, n - 1);
      var q := Rows(m, s0, r, sigma, grid, dayCount, z, paths, n - 1);
      assert p[..n - 1] == q;
      var last := p[n - 1];
      forall i | 0 <= i < paths ensures last[i] > 0.0 {
        var e := m.exp(Exponent(m, r, sigma, StepLength(grid, n - 1, dayCount), z[n - 1][i]));
        assert last[i] == q[n - 2][i] * e;
        assert q[n - 2][i] > 0.0 && e > 0.0;
      }
    }
  }

  /** With zero volatility a step grows every path by `exp(r dt)`, whatever
      its shock. */
  lemma ZeroVolatilityStep(m: Analytic, prev: seq<real>, r: real, dt: real, z: seq<real>)
    requires |z| == |prev|
    ensures forall i :: 0 <= i < |prev| ==> Step(m, prev, r, 0.0, dt, z)[i] == prev[i] * Compound(m, r, dt)
  {
    forall i | 0 <= i < |prev| ensures Step(m, prev, r, 0.0, dt, z)[i] == prev[i] * Compound(m, r, dt) {
      var x := Exponent(m, r, 0.0, dt, z[i]);
      assert x == r * dt;
      CompoundIs(m, r, dt, x);
    }
  }
}

=== FILE: greeks.dfy ===
/** The numerical Greeks of a valuation (`delta` and `vega` of
    `valuation_class`): forward differences of the present value with a
    fixed seed, after which the underlying's parameter is put back.

    Under a fixed seed the generator hands out the same draws on every call;
    the model expresses this by passing the same `Noise` to both valuations.
    `round(value, accuracy)` is left out.
 */
module Greeks {
  import opened Wrappers
  import opened RealMath
  import opened Simulation
  import opened Valuation
  import European
  import American

  /** `present_value(fixed_seed)` of the valuation's own class, with the
      simulator afterwards. */
  function PresentValue(m: Analytic, v: Valuation, s: Simulator, fixedSeed: bool, noise: Noise, dateRange: DateRange,
                        regress: American.Regression): (r: Result<(real, Simulator)>)
    ensures r.Ok? ==> GetInstrumentValues(m, s, fixedSeed, noise, dateRange).Ok?
    ensures r.Ok? ==> r.value.1 == GetInstrumentValues(m, s, fixedSeed, noise, dateRange).value.0
  {
    match v.style
    case European =>
      var value :- European.PresentValue(m, v, s, fixedSeed, noise, dateRange);
      Ok((value.0, value.2))
    case American =>
      var value :- American.PresentValue(m, v, s, fixedSeed, noise, dateRange, regress);
      Ok((value.0, value.2))
  }

  /** Valuing changes at most the simulator's grid and path cache. */
  lemma PresentValueFrame(m: Analytic, v: Valuation, s: Simulator, fixedSeed: bool, noise: Noise, dateRange: DateRange,
                          regress: American.Regression)
    requires PresentValue(m, v, s, fixedSeed, noise, dateRange, regress).Ok?
    ensures var s' := PresentValue(m, v, s, fixedSeed, noise, dateRange, regress).value.1;
      s' == s.(timeGrid := s'.timeGrid, instrumentValues := s'.instrumentValues)
  {
  }

  /** The bump of `delta`: the given interval, or one fiftieth of the
      initial value. */
  function DeltaBump(s: Simulator, interval: Option<real>): (h: real)
    ensures interval.None? ==> h * 50.0 == s.initialValue
    ensures interval.Some? ==> h == interval.value
  {
    Given(interval, s.initialValue / 50.0)
  }

  /** The difference quotient clipped to [-1, 1]. */
  function Clip(x: real): (r: real)
    ensures -1.0 <= r <= 1.0
    ensures -1.0 <= x <= 1.0 ==> r == x
    ensures x < -1.0 ==> r == -1.0
    ensures x > 1.0 ==> r == 1.0
  {
    if x < -1.0 then -1.0 else if x > 1.0 then 1.0 else x
  }

  /** `delta(interval)`: values at the initial value and at the initial value
      plus the bump, then sets the initial value back to the bumped value
      minus the bump. A zero bump divides by zero. */
  function Delta(m: Analytic, v: Valuation, s: Simulator, interval: Option<real>, noise: Noise, dateRange: DateRange,
                 regress: American.Regression): (r: Result<(real, Simulator)>)
    ensures DeltaBump(s, interval) == 0.0 ==> r.Err?
    ensures r.Ok? ==> -1.0 <= r.value.0 <= 1.0
    ensures r.Ok? ==> r.value.1.initialValue == s.initialValue
    ensures r.Ok? ==> r.value.1.instrumentValues.None?
    ensures r.Ok? ==> r.value.1 == s.(timeGrid := r.value.1.timeGrid, instrumentValues := None)
  {
    var h := DeltaBump(s, interval);
    var left :- PresentValue(m, v, s, true, noise, dateRange, regress);
    PresentValueFrame(m, v, s, true, noise, dateRange, regress);
    var bumped := left.1.initialValue + h;
    var s2 := Update(left.1, Some(bumped), None, None);
    var right :- PresentValue(m, v, s2, true, noise, dateRange, regress);
    PresentValueFrame(m, v, s2, true, noise, dateRange, regress);
    var s3 := Update(right.1, Some(bumped - h), None, None);
    if h == 0.0 then Err(ZeroDivision)
    else Ok((Clip((right.0 - left.0) / h), s3))
  }

  /** The bump of `vega`: the given interval (0.01 by default), but at least
      one fiftieth of the volatility. */
  function VegaBump(s: Simulator, interval: Option<real>): (h: real)
    ensures h >= Given(interval, 0.01) && h * 50.0 >= s.volatility
    ensures h == Given(interval, 0.01) || h * 50.0 == s.volatility
  {
    Max(Given(interval, 0.01), s.volatility / 50.0)
  }

  /** `vega(interval)`: values at the volatility and at the volatility plus
      the bump, then sets the volatility back to the bumped value minus the
      bump. The quotient is not clipped. */
  function Vega(m: Analytic, v: Valuation, s: Simulator, interval: Option<real>, noise: Noise, dateRange: DateRange,
                regress: American.Regression): (r: Result<(real, Simulator)>)
    ensures VegaBump(s, interval) == 0.0 ==> r.Err?
    ensures r.Ok? ==> r.value.1.volatility == s.volatility
    ensures r.Ok? ==> r.value.1.instrumentValues.None?
    ensures r.Ok? ==> r.value.1 == s.(timeGrid := r.value.1.timeGrid, instrumentValues := None)
  {
    var h := VegaBump(s, interval);
    var left :- PresentValue(m, v, s, true, noise, dateRange, regress);
    PresentValueFrame(m, v, s, true, noise, dateRange, regress);
    var bumped := left.1.volatility + h;
    var s2 := Update(left.1, None, Some(bumped), None);
    var right :- PresentValue(m, v, s2, true, noise, dateRange, regress);
    PresentValueFrame(m, v, s2, true, noise, dateRange, regress);
    var s3 := Update(right.1, None, Some(bumped - h), None);
    if h == 0.0 then Err(ZeroDivision)
    else Ok(((right.0 - left.0) / h, s3))
  }
}

=== FILE: jump_diffusion.dfy ===
/** The Merton jump-diffusion path recursion (`jump_diffusion.generate_paths`).

    Each step is a GBM step whose drift is lowered by the jump compensator
    `rj = lambda (exp(mu + delta^2/2) - 1)`, plus `(exp(mu + delta z2) - 1)`
    times the number of jumps the path takes in the step. The jump-size shocks
    `z2` and the Poisson jump counts are inputs, one row per step.
 */
module JumpDiffusion {
  import opened Wrappers
  import opened RealMath
  import opened YearDeltas
  import opened Shocks
  import Gbm = GeometricBrownianMotion

  /** The jump parameters: intensity, mean and standard deviation of the log jump. */
  datatype Jumps = Jumps(lambda: real, mu: real, delta: real)

  /** The drift correction `rj`. */
  function Compensator(m: Analytic, j: Jumps): real {
    j.lambda * (m.exp(j.mu + 0.5 * j.delta * j.delta) - 1.0)
  }

  /** Jump counts as `np.random.poisson` returns them: one row per step. */
  ghost predicate IsCountMatrix(c: seq<seq<nat>>, rows: nat, cols: nat) {
    |c| == rows && forall t :: 0 <= t < rows ==> |c[t]| == cols
  }

  /** The exponent of the diffusion part of a step: a GBM exponent with the
      drift lowered by `rj`. */
  function DiffusionExponent(m: Analytic, r: real, rj: real, sigma: real, dt: real, z: real): real {
    (r - rj - 0.5 * sigma * sigma) * dt + sigma * m.sqrt(dt) * z
  }

  /** The relative size of one jump, `exp(mu + delta z) - 1`. */
  function JumpSize(m: Analytic, j: Jumps, z: real): real {
    m.exp(j.mu + j.delta * z) - 1.0
  }

  /** One jump-diffusion step on every path. */
  function Step(m: Analytic, prev: seq<real>, r: real, sigma: real, j: Jumps, dt: real,
                z1: seq<real>, z2: seq<real>, poi: seq<nat>): (next: seq<real>)
    requires |z1| == |z2| == |poi| == |prev|
    ensures |next| == |prev|
  {
    var rj := Compensator(m, j);
    seq(|prev|, i requires 0 <= i < |prev| =>
      prev[i] * (m.exp(DiffusionExponent(m, r, rj, sigma, dt, z1[i])) + JumpSize(m, j, z2[i]) * poi[i] as real))
  }

  /** The first `n` rows of the path matrix. */
  function Rows(m: Analytic, s0: real, r: real, sigma: real, j: Jumps, grid: seq<Date>, dayCount: real,
                z1: Matrix, z2: Matrix, poi: seq<seq<nat>>, paths: nat, n: nat): (p: Matrix)
    requires dayCount != 0.0
    requires 1 <= n <= |grid|
    requires IsMatrix(z1, |grid|, paths) && IsMatrix(z2, |grid|, paths) && IsCountMatrix(poi, |grid|, paths)
    ensures IsMatrix(p, n, paths)
    ensures p[0] == Fill(paths, s0)
    ensures forall t :: 1 <= t < n ==>
      p[t] == Step(m, p[t - 1], r, sigma, j, Gbm.StepLength(grid, t, dayCount), z1[t], z2[t], poi[t])
    decreases n
  {
    if n == 1 then [Fill(paths, s0)]
    else
      var q := Rows(m, s0, r, sigma, j, grid, dayCount, z1, z2, poi, paths, n - 1);
      q + [Step(m, q[n - 2], r, sigma, j, Gbm.StepLength(grid, n - 1, dayCount), z1[n - 1], z2[n - 1], poi[n - 1])]
  }

  /** Some step asks `np.random.poisson` for a negative mean `lambda * dt`,
      which numpy refuses: a negative intensity, or a date before its
      predecessor. */
  predicate NegativeMean(j: Jumps, grid: seq<Date>, dayCount: real)
    requires dayCount != 0.0
  {
    exists t :: 1 <= t < |grid| && j.lambda * Gbm.StepLength(grid, t, dayCount) < 0.0
  }

  /** `generate_paths`: an `M x paths` matrix, an error for an empty grid,
      and a configuration error when a step's Poisson mean is negative. That
      raise wins over a backward step, whose `sqrt(dt)` otherwise makes the
      matrix nan, reported as `NotANumber`. */
  function Paths(m: Analytic, s0: real, r: real, sigma: real, j: Jumps, grid: seq<Date>, dayCount: real,
                 z1: Matrix, z2: Matrix, poi: seq<seq<nat>>, paths: nat): (p: Result<Matrix>)
    requires dayCount != 0.0
    requires IsMatrix(z1, |grid|, paths) && IsMatrix(z2, |grid|, paths) && IsCountMatrix(poi, |grid|, paths)
    ensures p.Ok? <==> |grid| > 0 && !NegativeMean(j, grid, dayCount) && !Gbm.BackwardStep(grid, dayCount)
    ensures |grid| > 0 && NegativeMean(j, grid, dayCount) ==> p.Err? && p.error.ConfigurationError?
    ensures |grid| > 0 && !NegativeMean(j, grid, dayCount) && Gbm.BackwardStep(grid, dayCount) ==> p == Err(NotANumber)
    ensures p.Ok? ==> IsMatrix(p.value, |grid|, paths) && p.value[0] == Fill(paths, s0)
  {
    if |grid| == 0 then Err(ShapeMismatch)
    else if NegativeMean(j, grid, dayCount) then Err(ConfigurationError("lam < 0"))
    else if Gbm.BackwardStep(grid, dayCount) then Err(NotANumber)
    else Ok(Rows(m, s0, r, sigma, j, grid, dayCount, z1, z2, poi, paths, |grid|))
  }

  /** A non-negative intensity on a non-decreasing grid with a positive day
      count never asks for a negative Poisson mean. */
  lemma OrderedGridAccepted(j: Jumps, grid: seq<Date>, dayCount: real)
    requires j.lambda >= 0.0 && dayCount > 0.0
    requires forall t :: 1 <= t < |grid| ==> grid[t - 1] <= grid[t]
    ensures !NegativeMean(j, grid, dayCount)
  {
  }

  /** A positive intensity on a grid whose second date comes before its first
      is refused at the first step. */
  lemma ReversedStepRejected(j: Jumps, grid: seq<Date>, dayCount: real)
    requires j.lambda > 0.0 && dayCount > 0.0
    requires |grid| >= 2 && grid[1] < grid[0]
    ensures NegativeMean(j, grid, dayCount)
  {
    assert (grid[1] - grid[0]) as real < 0.0;
    assert Gbm.StepLength(grid, 1, dayCount) < 0.0;
    assert j.lambda * Gbm.StepLength(grid, 1, dayCount) < 0.0;
  }

  /** Without jump intensity the compensator vanishes. */
  lemma NoIntensityNoCompensator(m: Analytic, mu: real, delta: real)
    ensures Compensator(m, Jumps(0.0, mu, delta)) == 0.0
  {
  }

  /** On a path without jumps in the step, the step is a GBM step whose drift
      is lowered by the compensator. */
  lemma NoJumpIsGbmStep(m: Analytic, prev: seq<real>, r: real, sigma: real, j: Jumps, dt: real,
                        z1: seq<real>, z2: seq<real>, poi: seq<nat>, i: nat)
    requires |z1| == |z2| == |poi| == |prev|
    requires i < |prev| && poi[i] == 0
    ensures Step(m, prev, r, sigma, j, dt, z1, z2, poi)[i]
         == Gbm.Step(m, prev, r - Compensator(m, j), sigma, dt, z1)[i]
  {
    var rj := Compensator(m, j);
    assert DiffusionExponent(m, r, rj, sigma, dt, z1[i]) == Gbm.Exponent(m, r - rj, sigma, dt, z1[i]);
  }

  /** The jump term is linear in the jump count: two counts change the step by
      the jump factor times their difference. */
  lemma JumpTermLinear(m: Analytic, prev: seq<real>, r: real, sigma: real, j: Jumps, dt: real,
                       z1: seq<real>, z2: seq<real>, poi: seq<nat>, poi': seq<nat>, i: nat)
    requires |z1| == |z2| == |poi| == |poi'| == |prev|
    requires i < |prev|
    ensures Step(m, prev, r, sigma, j, dt, z1, z2, poi)[i] - Step(m, prev, r, sigma, j, dt, z1, z2, poi')[i]
         == prev[i] * (JumpSize(m, j, z2[i]) * (poi[i] as real - poi'[i] as real))
  {
    var g := m.exp(DiffusionExponent(m, r, Compensator(m, j), sigma, dt, z1[i]));
    var k := JumpSize(m, j, z2[i]);
    var a := poi[i] as real;
    var b := poi'[i] as real;
    assert prev[i] * (g + k * a) - prev[i] * (g + k * b) == prev[i] * (k * (a - b));
  }

  /** With no jump intensity and no jumps drawn, the jump diffusion moves
      exactly like a GBM: the two path matrices coincide. */
  lemma {:induction false} NoJumpsIsGbm(m: Analytic, s0: real, r: real, sigma: real, mu: real, delta: real,
                                        grid: seq<Date>, dayCount: real, z1: Matrix, z2: Matrix,
                                        poi: seq<seq<nat>>, paths: nat, n: nat)
    requires dayCount != 0.0
    requires 1 <= n <= |grid|
    requires IsMatrix(z1, |grid|, paths) && IsMatrix(z2, |grid|, paths) && IsCountMatrix(poi, |grid|, paths)
    requires forall t, i :: 0 <= t < |grid| && 0 <= i < paths ==> poi[t][i] == 0
    ensures Rows(m, s0, r, sigma, Jumps(0.0, mu, delta), grid, dayCount, z1, z2, poi, paths, n)
         == Gbm.Rows(m, s0, r, sigma, grid, dayCount, z1, paths, n)
    decreases n
  {
    if n > 1 {
      var j := Jumps(0.0, mu, delta);
      NoJumpsIsGbm(m, s0, r, sigma, mu, delta, grid, dayCount, z1, z2, poi, paths, n - 1);
      var q := Rows(m, s0, r, sigma, j, grid, dayCount, z1, z2, poi, paths, n - 1);
      var dt := Gbm.StepLength(grid, n - 1, dayCount);
      var a := Step(m, q[n - 2], r, sigma, j, dt, z1[n - 1], z2[n - 1], poi[n - 1]);
      var b := Gbm.Step(m, q[n - 2], r, sigma, dt, z1[n - 1]);
      forall i | 0 <= i < paths ensures a[i] == b[i] {
        NoJumpIsGbmStep(m, q[n - 2], r, sigma, j, dt, z1[n - 1], z2[n - 1], poi[n - 1], i);
        assert r - Compensator(m, j) == r;
      }
      assert a == b;
    }
  }
}

=== FILE: market_environment.dfy ===
/** A market environment: a named bag of constants, lists and curves keyed by
    string, with a pricing date (`market_environment`).

    The three sections hold values of different Python types, so the model is
    generic in the value type of each section.
 */
module MarketEnvironment {
  import opened Wrappers
  import opened YearDeltas

  datatype Env<C, L, K> = Env(
    name: string,
    pricingDate: Date,
    constants: map<string, C>,
    lists: map<string, L>,
    curves: map<string, K>)

  /** A fresh environment holds nothing. */
  function NewEnv<C, L, K>(name: string, pricingDate: Date): (e: Env<C, L, K>)
    ensures e.name == name && e.pricingDate == pricingDate
    ensures |e.constants| == 0 && |e.lists| == 0 && |e.curves| == 0
  {
    Env(name, pricingDate, map[], map[], map[])
  }

  /** A dictionary lookup: `d[key]`, which raises when the key is absent. */
  function Lookup<V>(d: map<string, V>, key: string): (r: Result<V>)
    ensures r.Ok? <==> key in d
    ensures r.Ok? ==> r.value == d[key]
    ensures r.Err? ==> r.error == MissingParameter(key)
  {
    if key in d then Ok(d[key]) else Err(MissingParameter(key))
  }

  function AddConstant<C, L, K>(e: Env<C, L, K>, key: string, v: C): (r: Env<C, L, K>)
    ensures GetConstant(r, key) == Ok(v)
    ensures forall k :: k != key ==> GetConstant(r, k) == GetConstant(e, k)
    ensures r.lists == e.lists && r.curves == e.curves
    ensures r.name == e.name && r.pricingDate == e.pricingDate
  {
    e.(constants := e.constants[key := v])
  }

  function GetConstant<C, L, K>(e: Env<C, L, K>, key: string): Result<C> {
    Lookup(e.constants, key)
  }

  function AddList<C, L, K>(e: Env<C, L, K>, key: string, v: L): (r: Env<C, L, K>)
    ensures GetList(r, key) == Ok(v)
    ensures forall k :: k != key ==> GetList(r, k) == GetList(e, k)
    ensures r.constants == e.constants && r.curves == e.curves
    ensures r.name == e.name && r.pricingDate == e.pricingDate
  {
    e.(lists := e.lists[key := v])
  }

  function GetList<C, L, K>(e: Env<C, L, K>, key: string): Result<L> {
    Lookup(e.lists, key)
  }

  function AddCurve<C, L, K>(e: Env<C, L, K>, key: string, v: K): (r: Env<C, L, K>)
    ensures GetCurve(r, key) == Ok(v)
    ensures forall k :: k != key ==> GetCurve(r, k) == GetCurve(e, k)
    ensures r.constants == e.constants && r.lists == e.lists
    ensures r.name == e.name && r.pricingDate == e.pricingDate
  {
    e.(curves := e.curves[key := v])
  }

  function GetCurve<C, L, K>(e: Env<C, L, K>, key: string): Result<K> {
    Lookup(e.curves, key)
  }

  /** Copies every entry of `other` into `e`, overwriting entries with the same
      key; keys `other` lacks read as before, and the name and pricing date stay. */
  function AddEnvironment<C, L, K>(e: Env<C, L, K>, other: Env<C, L, K>): (r: Env<C, L, K>)
    ensures r.name == e.name && r.pricingDate == e.pricingDate
    ensures forall k :: k in other.constants ==> GetConstant(r, k) == Ok(other.constants[k])
    ensures forall k :: k !in other.constants ==> GetConstant(r, k) == GetConstant(e, k)
    ensures forall k :: k in other.lists ==> GetList(r, k) == Ok(other.lists[k])
    ensures forall k :: k !in other.lists ==> GetList(r, k) == GetList(e, k)
    ensures forall k :: k in other.curves ==> GetCurve(r, k) == Ok(other.curves[k])
    ensures forall k :: k !in other.curves ==> GetCurve(r, k) == GetCurve(e, k)
  {
    e.(constants := e.constants + other.constants,
       lists := e.lists + other.lists,
       curves := e.curves + other.curves)
  }
}

=== FILE: payoff.dfy ===
/** Payoff expressions.

    The library stores a payoff as a Python source string and `eval`s it with
    the per-path aggregates in scope (`np.maximum(maturity_value - strike, 0)`).
    The model replaces the string by a small expression tree over the same
    names, evaluated with numpy's broadcasting: a scalar combines with
    anything, arrays combine entry by entry when, axis by axis, their lengths
    agree or one of them is one (an axis of length one is stretched), and a
    vector lines up with the rows of a matrix. A name that is not in scope or
    shapes that do not broadcast make `eval` raise, which the valuation
    reports as `PayoffEvaluation`.
 */
module Payoff {
  import opened Wrappers
  import opened RealMath
  import opened Shocks

  datatype Expr =
    | MaturityValue
    | MeanValue
    | MaxValue
    | MinValue
    | InstrumentValues
    | Strike
    | Const(c: real)
    | Add(a: Expr, b: Expr)
    | Sub(a: Expr, b: Expr)
    | Mul(a: Expr, b: Expr)
    | Maximum(a: Expr, b: Expr)
    | Minimum(a: Expr, b: Expr)
    | Neg(a: Expr)

  /** A numpy value: a scalar, a one-dimensional or a two-dimensional array. */
  datatype Value = Scalar(x: real) | Vector(v: seq<real>) | Grid(g: Matrix)

  /** The names in scope when the payoff string is evaluated. */
  datatype Scope = Scope(
    maturityValue: Option<seq<real>>,
    meanValue: Option<seq<real>>,
    maxValue: Option<real>,
    minValue: Option<real>,
    instrumentValues: Option<Matrix>,
    strike: Option<real>)

  datatype Op = Plus | Minus | Times | Larger | Smaller

  function Apply(op: Op, x: real, y: real): real {
    match op
    case Plus => x + y
    case Minus => x - y
    case Times => x * y
    case Larger => Max(x, y)
    case Smaller => Min(x, y)
  }

  /** Two axis lengths broadcast when they agree or one of them is one. */
  predicate Fits(n: nat, k: nat) {
    n == k || n == 1 || k == 1
  }

  /** The length of two fitting axes once an axis of length one is stretched. */
  function Stretch(n: nat, k: nat): (l: nat)
    requires Fits(n, k)
    ensures (n == 1 && l == k) || (k == 1 && l == n) || l == n == k
  {
    if n == 1 then k else n
  }

  /** Entry `i` of a vector whose single entry, if it has only one, stands for every position. */
  function PickEntry(v: seq<real>, i: nat): real {
    if |v| == 1 then v[0] else if i < |v| then v[i] else 0.0
  }

  /** Row `t` of a matrix whose single row, if it has only one, stands for every row. */
  function PickRow(g: Matrix, t: nat): seq<real> {
    if |g| == 1 then g[0] else if t < |g| then g[t] else []
  }

  /** `x op v` with the scalar broadcast over the vector (scalar on the left
      when `left`). */
  function ScalarVector(op: Op, x: real, v: seq<real>, left: bool): (r: seq<real>)
    ensures |r| == |v|
    ensures forall i :: 0 <= i < |v| ==> r[i] == (if left then Apply(op, x, v[i]) else Apply(op, v[i], x))
  {
    seq(|v|, i requires 0 <= i < |v| => if left then Apply(op, x, v[i]) else Apply(op, v[i], x))
  }

  /** Two vectors entry by entry, a vector of length one standing for every entry. */
  function VectorVector(op: Op, u: seq<real>, v: seq<real>): (r: seq<real>)
    requires Fits(|u|, |v|)
    ensures |r| == Stretch(|u|, |v|)
    ensures forall i :: 0 <= i < |r| ==> r[i] == Apply(op, PickEntry(u, i), PickEntry(v, i))
    ensures |u| == |v| ==> forall i :: 0 <= i < |u| ==> r[i] == Apply(op, u[i], v[i])
  {
    seq(Stretch(|u|, |v|), i requires 0 <= i < Stretch(|u|, |v|) => Apply(op, PickEntry(u, i), PickEntry(v, i)))
  }

  /** Every row of a matrix combined with a vector, the vector on the left when `left`. */
  function RowsVector(op: Op, g: Matrix, v: seq<real>, left: bool): (r: Matrix)
    requires forall t :: 0 <= t < |g| ==> |g[t]| == |v| || |g[t]| == 1 || |v| == 1
    ensures |r| == |g|
    ensures forall t :: 0 <= t < |g| ==> r[t] == (if left then VectorVector(op, v, g[t]) else VectorVector(op, g[t], v))
  {
    seq(|g|, t requires 0 <= t < |g| => if left then VectorVector(op, v, g[t]) else VectorVector(op, g[t], v))
  }

  function RowsScalar(op: Op, g: Matrix, x: real, left: bool): (r: Matrix)
    ensures |r| == |g|
    ensures forall t :: 0 <= t < |g| ==> r[t] == ScalarVector(op, x, g[t], left)
  {
    seq(|g|, t requires 0 <= t < |g| => ScalarVector(op, x, g[t], left))
  }

  /** Two matrices that broadcast: the row counts fit and so does every pair
      of rows that meet. */
  predicate MatricesFit(g: Matrix, h: Matrix) {
    Fits(|g|, |h|) && forall t :: 0 <= t < Stretch(|g|, |h|) ==> Fits(|PickRow(g, t)|, |PickRow(h, t)|)
  }

  function RowsRows(op: Op, g: Matrix, h: Matrix): (r: Matrix)
    requires MatricesFit(g, h)
    ensures |r| == Stretch(|g|, |h|)
    ensures forall t :: 0 <= t < |r| ==> r[t] == VectorVector(op, PickRow(g, t), PickRow(h, t))
  {
    seq(Stretch(|g|, |h|), t requires 0 <= t < Stretch(|g|, |h|) => VectorVector(op, PickRow(g, t), PickRow(h, t)))
  }

  /** numpy broadcasting of a binary element-wise operation: a scalar
      combines with anything, and two arrays combine when, axis by axis from
      the last, their lengths agree or one of them is one. A vector lines up
      with the rows of a matrix. */
  function Broadcast(op: Op, a: Value, b: Value): (r: Result<Value>)
    ensures r.Err? ==> r.error == PayoffEvaluation
    ensures a.Scalar? && b.Scalar? ==> r == Ok(Scalar(Apply(op, a.x, b.x)))
    ensures a.Vector? && b.Vector? ==> (r.Ok? <==> Fits(|a.v|, |b.v|))
    ensures a.Vector? && b.Vector? && r.Ok? ==> r.value.Vector? && |r.value.v| == Stretch(|a.v|, |b.v|)
    ensures a.Scalar? && b.Vector? ==> r == Ok(Vector(ScalarVector(op, a.x, b.v, true)))
    ensures a.Vector? && b.Scalar? ==> r == Ok(Vector(ScalarVector(op, b.x, a.v, false)))
  {
    match (a, b)
    case (Scalar(x), Scalar(y)) => Ok(Scalar(Apply(op, x, y)))
    case (Scalar(x), Vector(v)) => Ok(Vector(ScalarVector(op, x, v, true)))
    case (Vector(v), Scalar(x)) => Ok(Vector(ScalarVector(op, x, v, false)))
    case (Vector(u), Vector(v)) => if Fits(|u|, |v|) then Ok(Vector(VectorVector(op, u, v))) else Err(PayoffEvaluation)
    case (Scalar(x), Grid(g)) => Ok(Grid(RowsScalar(op, g, x, true)))
    case (Grid(g), Scalar(x)) => Ok(Grid(RowsScalar(op, g, x, false)))
    case (Vector(v), Grid(g)) =>
      if forall t :: 0 <= t < |g| ==> Fits(|g[t]|, |v|) then Ok(Grid(RowsVector(op, g, v, true))) else Err(PayoffEvaluation)
    case (Grid(g), Vector(v)) =>
      if forall t :: 0 <= t < |g| ==> Fits(|g[t]|, |v|) then Ok(Grid(RowsVector(op, g, v, false))) else Err(PayoffEvaluation)
    case (Grid(g), Grid(h)) =>
      if MatricesFit(g, h) then Ok(Grid(RowsRows(op, g, h))) else Err(PayoffEvaluation)
  }

  /** Which shapes broadcast: a scalar with anything; a vector and a matrix
      exactly when every row fits the vector; two matrices exactly when the
      row counts fit and so do the rows that meet. A matrix operand gives a
      matrix. */
  lemma BroadcastShapes(op: Op, a: Value, b: Value)
    ensures a.Scalar? || b.Scalar? ==> Broadcast(op, a, b).Ok?
    ensures a.Vector? && b.Grid? ==> (Broadcast(op, a, b).Ok? <==> forall t :: 0 <= t < |b.g| ==> Fits(|b.g[t]|, |a.v|))
    ensures a.Grid? && b.Vector? ==> (Broadcast(op, a, b).Ok? <==> forall t :: 0 <= t < |a.g| ==> Fits(|a.g[t]|, |b.v|))
    ensures a.Grid? && b.Grid? ==> (Broadcast(op, a, b).Ok? <==> MatricesFit(a.g, b.g))
    ensures Broadcast(op, a, b).Ok? && (a.Grid? || b.Grid?) ==> Broadcast(op, a, b).value.Grid?
  {
  }

  /** A vector of length one broadcasts like the scalar it holds against any array. */
  lemma SizeOneActsAsScalar(op: Op, x: real, b: Value)
    requires !b.Scalar?
    ensures Broadcast(op, Vector([x]), b) == Broadcast(op, Scalar(x), b)
    ensures Broadcast(op, b, Vector([x])) == Broadcast(op, b, Scalar(x))
  {
    match b
    case Vector(v) =>
      assert VectorVector(op, [x], v) == ScalarVector(op, x, v, true);
      assert VectorVector(op, v, [x]) == ScalarVector(op, x, v, false);
    case Grid(g) =>
      forall t | 0 <= t < |g|
        ensures VectorVector(op, [x], g[t]) == ScalarVector(op, x, g[t], true)
        ensures VectorVector(op, g[t], [x]) == ScalarVector(op, x, g[t], false)
      {
      }
      assert RowsVector(op, g, [x], true) == RowsScalar(op, g, x, true);
      assert RowsVector(op, g, [x], false) == RowsScalar(op, g, x, false);
  }

  /** Position `(t, i)` (row, path) lies in the value's shape once its axes
      of length one are stretched; a vector lines up with every row. */
  predicate Covers(x: Value, t: nat, i: nat) {
    match x
    case Scalar(_) => true
    case Vector(v) => i < |v| || |v| == 1
    case Grid(g) => (t < |g| || |g| == 1) && (i < |PickRow(g, t)| || |PickRow(g, t)| == 1)
  }

  /** The entry of a value at position `(t, i)`. */
  function Entry(x: Value, t: nat, i: nat): real {
    match x
    case Scalar(c) => c
    case Vector(v) => PickEntry(v, i)
    case Grid(g) => PickEntry(PickRow(g, t), i)
  }

  /** Each entry of a broadcast result is the operation applied to the
      entries of the operands at the same position, which both cover. */
  lemma BroadcastEntry(op: Op, a: Value, b: Value, t: nat, i: nat)
    requires Broadcast(op, a, b).Ok?
    requires Covers(Broadcast(op, a, b).value, t, i)
    ensures Covers(a, t, i) && Covers(b, t, i)
    ensures Entry(Broadcast(op, a, b).value, t, i) == Apply(op, Entry(a, t, i), Entry(b, t, i))
  {
    match (a, b)
    case (Scalar(x), Scalar(y)) =>
    case (Scalar(x), Vector(v)) =>
    case (Vector(v), Scalar(x)) =>
    case (Vector(u), Vector(v)) => VectorVectorEntry(op, u, v, i);
    case (Scalar(x), Grid(g)) => RowsScalarEntry(op, g, x, true, t, i);
    case (Grid(g), Scalar(x)) => RowsScalarEntry(op, g, x, false, t, i);
    case (Vector(v), Grid(g)) => RowsVectorEntry(op, g, v, true, t, i);
    case (Grid(g), Vector(v)) => RowsVectorEntry(op, g, v, false, t, i);
    case (Grid(g), Grid(h)) => RowsRowsEntry(op, g, h, t, i);
  }

  lemma VectorVectorEntry(op: Op, u: seq<real>, v: seq<real>, i: nat)
    requires Fits(|u|, |v|)
    requires i < Stretch(|u|, |v|) || Stretch(|u|, |v|) == 1
    ensures i < |u| || |u| == 1
    ensures i < |v| || |v| == 1
    ensures PickEntry(VectorVector(op, u, v), i) == Apply(op, PickEntry(u, i), PickEntry(v, i))
  {
    var r := VectorVector(op, u, v);
    if |r| == 1 {
      assert |u| == 1 && |v| == 1;
    }
  }

  lemma RowsScalarEntry(op: Op, g: Matrix, x: real, left: bool, t: nat, i: nat)
    requires Covers(Grid(RowsScalar(op, g, x, left)), t, i)
    ensures Covers(Grid(g), t, i)
    ensures Entry(Grid(RowsScalar(op, g, x, left)), t, i)
      == (if left then Apply(op, x, Entry(Grid(g), t, i)) else Apply(op, Entry(Grid(g), t, i), x))
  {
    var r := RowsScalar(op, g, x, left);
    assert PickRow(r, t) == ScalarVector(op, x, PickRow(g, t), left);
  }

  lemma RowsVectorEntry(op: Op, g: Matrix, v: seq<real>, left: bool, t: nat, i: nat)
    requires forall t :: 0 <= t < |g| ==> |g[t]| == |v| || |g[t]| == 1 || |v| == 1
    requires Covers(Grid(RowsVector(op, g, v, left)), t, i)
    ensures Covers(Grid(g), t, i) && Covers(Vector(v), t, i)
    ensures Entry(Grid(RowsVector(op, g, v, left)), t, i)
      == (if left then Apply(op, PickEntry(v, i), Entry(Grid(g), t, i)) else Apply(op, Entry(Grid(g), t, i), PickEntry(v, i)))
  {
    var r := RowsVector(op, g, v, left);
    var row := PickRow(g, t);
    assert Fits(|row|, |v|);
    if left {
      assert PickRow(r, t) == VectorVector(op, v, row);
      VectorVectorEntry(op, v, row, i);
    } else {
      assert PickRow(r, t) == VectorVector(op, row, v);
      VectorVectorEntry(op, row, v, i);
    }
  }

  lemma RowsRowsEntry(op: Op, g: Matrix, h: Matrix, t: nat, i: nat)
    requires MatricesFit(g, h)
    requires Covers(Grid(RowsRows(op, g, h)), t, i)
    ensures Covers(Grid(g), t, i) && Covers(Grid(h), t, i)
    ensures Entry(Grid(RowsRows(op, g, h)), t, i) == Apply(op, Entry(Grid(g), t, i), Entry(Grid(h), t, i))
  {
    var r := RowsRows(op, g, h);
    var t' := if |r| == 1 then 0 else t;
    assert |r| == 1 ==> |g| == 1 && |h| == 1;
    assert PickRow(r, t) == r[t'];
    assert PickRow(g, t) == PickRow(g, t') && PickRow(h, t) == PickRow(h, t');
    VectorVectorEntry(op, PickRow(g, t'), PickRow(h, t'), i);
  }

  function Lookup<T>(v: Option<T>): (r: Result<T>)
    ensures r.Ok? <==> v.Some?
    ensures r.Ok? ==> r.value == v.value
    ensures r.Err? ==> r.error == PayoffEvaluation
  {
    if v.Some? then Ok(v.value) else Err(PayoffEvaluation)
  }

  /** `eval(payoff_func)` in the given scope. */
  function Eval(e: Expr, s: Scope): (r: Result<Value>)
    ensures r.Err? ==> r.error == PayoffEvaluation
  {
    match e
    case MaturityValue => var v :- Lookup(s.maturityValue); Ok(Vector(v))
    case MeanValue => var v :- Lookup(s.meanValue); Ok(Vector(v))
    case MaxValue => var x :- Lookup(s.maxValue); Ok(Scalar(x))
    case MinValue => var x :- Lookup(s.minValue); Ok(Scalar(x))
    case InstrumentValues => var g :- Lookup(s.instrumentValues); Ok(Grid(g))
    case Strike => var x :- Lookup(s.strike); Ok(Scalar(x))
    case Const(c) => Ok(Scalar(c))
    case Add(a, b) => var x :- Eval(a, s); var y :- Eval(b, s); Broadcast(Plus, x, y)
    case Sub(a, b) => var x :- Eval(a, s); var y :- Eval(b, s); Broadcast(Minus, x, y)
    case Mul(a, b) => var x :- Eval(a, s); var y :- Eval(b, s); Broadcast(Times, x, y)
    case Maximum(a, b) => var x :- Eval(a, s); var y :- Eval(b, s); Broadcast(Larger, x, y)
    case Minimum(a, b) => var x :- Eval(a, s); var y :- Eval(b, s); Broadcast(Smaller, x, y)
    case Neg(a) => var x :- Eval(a, s); Broadcast(Times, Scalar(-1.0), x)
  }

  /** The payoff on the numbers of one position `(t, i)` alone: every name
      replaced by its entry there, and the operations done on reals. A name
      that is not in scope counts as zero; `Eval` fails on it anyway. */
  function PointAt(e: Expr, s: Scope, t: nat, i: nat): real {
    match e
    case MaturityValue => if s.maturityValue.Some? then PickEntry(s.maturityValue.value, i) else 0.0
    case MeanValue => if s.meanValue.Some? then PickEntry(s.meanValue.value, i) else 0.0
    case MaxValue => if s.maxValue.Some? then s.maxValue.value else 0.0
    case MinValue => if s.minValue.Some? then s.minValue.value else 0.0
    case InstrumentValues => if s.instrumentValues.Some? then PickEntry(PickRow(s.instrumentValues.value, t), i) else 0.0
    case Strike => if s.strike.Some? then s.strike.value else 0.0
    case Const(c) => c
    case Add(a, b) => PointAt(a, s, t, i) + PointAt(b, s, t, i)
    case Sub(a, b) => PointAt(a, s, t, i) - PointAt(b, s, t, i)
    case Mul(a, b) => PointAt(a, s, t, i) * PointAt(b, s, t, i)
    case Maximum(a, b) => Max(PointAt(a, s, t, i), PointAt(b, s, t, i))
    case Minimum(a, b) => Min(PointAt(a, s, t, i), PointAt(b, s, t, i))
    case Neg(a) => -PointAt(a, s, t, i)
  }

  /** Evaluating on whole arrays and reading one entry is evaluating on that
      entry's numbers: every position the result covers holds the payoff of
      the numbers at that position. */
  lemma {:induction false} EvalPointwise(e: Expr, s: Scope, t: nat, i: nat)
    requires Eval(e, s).Ok?
    requires Covers(Eval(e, s).value, t, i)
    ensures Entry(Eval(e, s).value, t, i) == PointAt(e, s, t, i)
  {
    match e
    case MaturityValue =>
    case MeanValue =>
    case MaxValue =>
    case MinValue =>
    case InstrumentValues =>
    case Strike =>
    case Const(c) =>
    case Add(a, b) =>
      BroadcastEntry(Plus, Eval(a, s).value, Eval(b, s).value, t, i);
      EvalPointwise(a, s, t, i);
      EvalPointwise(b, s, t, i);
    case Sub(a, b) =>
      BroadcastEntry(Minus, Eval(a, s).value, Eval(b, s).value, t, i);
      EvalPointwise(a, s, t, i);
      EvalPointwise(b, s, t, i);
    case Mul(a, b) =>
      BroadcastEntry(Times, Eval(a, s).value, Eval(b, s).value, t, i);
      EvalPointwise(a, s, t, i);
      EvalPointwise(b, s, t, i);
    case Maximum(a, b) =>
      BroadcastEntry(Larger, Eval(a, s).value, Eval(b, s).value, t, i);
      EvalPointwise(a, s, t, i);
      EvalPointwise(b, s, t, i);
    case Minimum(a, b) =>
      BroadcastEntry(Smaller, Eval(a, s).value, Eval(b, s).value, t, i);
      EvalPointwise(a, s, t, i);
      EvalPointwise(b, s, t, i);
    case Neg(a) =>
      var x := Eval(a, s).value;
      BroadcastEntry(Times, Scalar(-1.0), x, t, i);
      EvalPointwise(a, s, t, i);
  }

  /** Every entry of a value is non-negative. */
  ghost predicate NonNegativeValue(v: Value) {
    match v
    case Scalar(x) => x >= 0.0
    case Vector(u) => forall i :: 0 <= i < |u| ==> u[i] >= 0.0
    case Grid(g) => forall t, i :: 0 <= t < |g| && 0 <= i < |g[t]| ==> g[t][i] >= 0.0
  }

  /** `np.maximum(x, 0)` is never negative, whatever `x` evaluates to. */
  lemma FloorAtZeroNonNegative(a: Expr, s: Scope)
    requires Eval(Maximum(a, Const(0.0)), s).Ok?
    ensures NonNegativeValue(Eval(Maximum(a, Const(0.0)), s).value)
  {
    var x := Eval(a, s).value;
    var r := Eval(Maximum(a, Const(0.0)), s).value;
    match x
    case Scalar(_) =>
    case Vector(u) =>
    case Grid(g) =>
      forall t, i | 0 <= t < |r.g| && 0 <= i < |r.g[t]| ensures r.g[t][i] >= 0.0 {
        assert r.g[t] == ScalarVector(Larger, 0.0, g[t], false);
      }
  }

  /** The European call `np.maximum(maturity_value - strike, 0)`: one payoff per
      path, `max(S_T - K, 0)`. */
  lemma CallPayoff(s: Scope)
    requires s.maturityValue.Some? && s.strike.Some?
    ensures Eval(Maximum(Sub(MaturityValue, Strike), Const(0.0)), s).Ok?
    ensures var r := Eval(Maximum(Sub(MaturityValue, Strike), Const(0.0)), s).value;
      && r.Vector?
      && |r.v| == |s.maturityValue.value|
      && forall i :: 0 <= i < |r.v| ==> r.v[i] == Max(s.maturityValue.value[i] - s.strike.value, 0.0)
  {
    var mv := s.maturityValue.value;
    var k := s.strike.value;
    assert Eval(MaturityValue, s) == Ok(Vector(mv));
    assert Eval(Strike, s) == Ok(Scalar(k));
    var d := ScalarVector(Minus, k, mv, false);
    assert Eval(Sub(MaturityValue, Strike), s) == Ok(Vector(d));
    assert Eval(Maximum(Sub(MaturityValue, Strike), Const(0.0)), s) == Ok(Vector(ScalarVector(Larger, 0.0, d, false)));
  }

  /** The American put `np.maximum(strike - instrument_values, 0)`: a matrix of
      inner values of the same shape as the paths, `max(K - S, 0)` entry by entry. */
  lemma PutInnerValues(s: Scope)
    requires s.instrumentValues.Some? && s.strike.Some?
    ensures Eval(Maximum(Sub(Strike, InstrumentValues), Const(0.0)), s).Ok?
    ensures var r := Eval(Maximum(Sub(Strike, InstrumentValues), Const(0.0)), s).value;
      var g := s.instrumentValues.value;
      && r.Grid?
      && |r.g| == |g|
      && (forall t :: 0 <= t < |g| ==> |r.g[t]| == |g[t]|)
      && (forall t, i :: 0 <= t < |g| && 0 <= i < |g[t]| ==> r.g[t][i] == Max(s.strike.value - g[t][i], 0.0))
  {
    var g := s.instrumentValues.value;
    var k := s.strike.value;
    assert Eval(InstrumentValues, s) == Ok(Grid(g));
    assert Eval(Strike, s) == Ok(Scalar(k));
    var d := RowsScalar(Minus, g, k, true);
    assert Eval(Sub(Strike, InstrumentValues), s) == Ok(Grid(d));
    var r := RowsScalar(Larger, d, 0.0, false);
    assert Eval(Maximum(Sub(Strike, InstrumentValues), Const(0.0)), s) == Ok(Grid(r));
    forall t | 0 <= t < |g| ensures |r[t]| == |g[t]| && forall i :: 0 <= i < |g[t]| ==> r[t][i] == Max(k - g[t][i], 0.0) {
      assert r[t] == ScalarVector(Larger, 0.0, d[t], false);
      assert d[t] == ScalarVector(Minus, k, g[t], true);
    }
  }
}

=== FILE: portfolio.dfy ===
/** A portfolio of derivatives positions valued together
    (`derivatives_portfolio`).

    The constructor widens the valuation period to cover every position,
    builds one time grid for all of them, and, when correlations are given,
    one correlation matrix, its Cholesky factor and one shared tensor of
    draws. It then creates one simulator per underlying and one valuation
    per position. `get_statistics` values every position in turn.

    `np.linalg.cholesky` is an input; so are the simulators each asset's
    market environment describes (environment parsing is not modelled) and
    the regular schedule `pd.date_range` produces.
 */
module Portfolio {
  import opened Wrappers
  import opened RealMath
  import opened Sorting
  import opened YearDeltas
  import opened RandomNumbers
  import opened Shocks
  import opened Simulation
  import opened Payoff
  import opened Valuation
  import Greeks
  import American

  /** A derivatives position: what its market environment and its record
      hold. */
  datatype Position = Position(
    name: string,
    quantity: real,
    underlying: string,
    pricingDate: Date,
    maturity: Date,
    strike: Option<real>,
    currency: string,
    payoff: Expr,
    style: Style)

  // Valuation period

  /** The running `min` of the starting date over the positions' pricing dates. */
  function StartingDate(initial: Date, positions: seq<Position>): (r: Date)
    ensures r <= initial && forall k :: 0 <= k < |positions| ==> r <= positions[k].pricingDate
    ensures r == initial || exists k :: 0 <= k < |positions| && r == positions[k].pricingDate
  {
    if |positions| == 0 then initial
    else
      var front := StartingDate(initial, positions[..|positions| - 1]);
      var d := positions[|positions| - 1].pricingDate;
      if d < front then d else front
  }

  /** The running `max` of the final date over the positions' maturities. */
  function FinalDate(initial: Date, positions: seq<Position>): (r: Date)
    ensures r >= initial && forall k :: 0 <= k < |positions| ==> r >= positions[k].maturity
    ensures r == initial || exists k :: 0 <= k < |positions| && r == positions[k].maturity
  {
    if |positions| == 0 then initial
    else
      var front := FinalDate(initial, positions[..|positions| - 1]);
      var d := positions[|positions| - 1].maturity;
      if d > front then d else front
  }

  /** The set of the positions' underlyings. */
  function Underlyings(positions: seq<Position>): set<string> {
    set k | 0 <= k < |positions| :: positions[k].underlying
  }

  // Time grid

  /** The maturities of the positions, in position order. */
  function Maturities(positions: seq<Position>): (r: seq<Date>)
    ensures |r| == |positions| && forall k :: 0 <= k < |r| ==> r[k] == positions[k].maturity
  {
    seq(|positions|, k requires 0 <= k < |positions| => positions[k].maturity)
  }

  /** The special dates: each maturity missing from the schedule, once, in the
      order the positions first mention it. */
  function SpecialDates(schedule: seq<Date>, maturities: seq<Date>): (r: seq<Date>)
    ensures forall d :: d in r <==> d in maturities && d !in schedule
    ensures forall i, j :: 0 <= i < j < |r| ==> r[i] != r[j]
  {
    if |maturities| == 0 then []
    else
      var front := SpecialDates(schedule, maturities[..|maturities| - 1]);
      var d := maturities[|maturities| - 1];
      assert maturities == maturities[..|maturities| - 1] + [d];
      if d in schedule || d in front then front else front + [d]
  }

  /** The portfolio's grid: the schedule, the maturities, the start and the
      end, deduplicated and sorted. */
  function PortfolioGrid(start: Date, end: Date, schedule: seq<Date>, maturities: seq<Date>): (g: seq<Date>)
    ensures Increasing(g, IntLess)
    ensures start in g && end in g
    ensures forall d :: d in maturities ==> d in g
    ensures forall d :: d in g <==> d in schedule || d in maturities || d == start || d == end
  {
    IntLessIsStrictTotal();
    SortUnique(schedule + maturities + [start, end], IntLess)
  }

  // Correlations

  /** The cap on a given correlation. */
  const MaxCorrelation: real := 0.999999999999

  /** A correlation `(i, j, corr)` between two underlyings. */
  type Pair = (string, string, real)

  /** The position of `a` in `names`, if it occurs there. */
  function IndexOf(names: seq<string>, a: string): (r: Option<nat>)
    ensures r.Some? <==> a in names
    ensures r.Some? ==> r.value < |names| && names[r.value] == a
    ensures r.Some? ==> forall k :: 0 <= k < r.value ==> names[k] != a
  {
    if |names| == 0 then None
    else if names[0] == a then Some(0)
    else
      var rest := IndexOf(names[1..], a);
      if rest.Some? then Some(rest.value + 1) else None
  }

  /** The identity matrix of size `n`. */
  function Identity(n: nat): (r: Matrix)
    ensures IsMatrix(r, n, n)
    ensures forall i, j :: 0 <= i < n && 0 <= j < n ==> r[i][j] == if i == j then 1.0 else 0.0
  {
    seq(n, i => seq(n, j => if i == j then 1.0 else 0.0))
  }

  /** `a[i][j] = c` and `a[j][i] = c`. */
  function SetSymmetric(a: Matrix, n: nat, i: nat, j: nat, c: real): (r: Matrix)
    requires IsMatrix(a, n, n) && i < n && j < n
    ensures IsMatrix(r, n, n)
    ensures forall k, l :: 0 <= k < n && 0 <= l < n ==>
      r[k][l] == if (k == i && l == j) || (k == j && l == i) then c else a[k][l]
  {
    var b := a[i := a[i][j := c]];
    b[j := b[j][i := c]]
  }

  /** The reference definition of an entry: the capped value of the last pair
      that names `a` and `b`, in either order. */
  function LastCorrelation(pairs: seq<Pair>, a: string, b: string): Option<real> {
    if |pairs| == 0 then None
    else
      var (x, y, c) := pairs[|pairs| - 1];
      if (x == a && y == b) || (x == b && y == a) then Some(Min(c, MaxCorrelation))
      else LastCorrelation(pairs[..|pairs| - 1], a, b)
  }

  /** The correlation matrix over `names`: ones on the diagonal, then every
      pair written to both of its entries in turn. A label that is not an
      underlying of the portfolio is an error. */
  function CorrelationMatrix(names: seq<string>, pairs: seq<Pair>): (r: Result<Matrix>)
    requires Distinct(names)
    ensures r.Ok? <==> forall k :: 0 <= k < |pairs| ==> pairs[k].0 in names && pairs[k].1 in names
    ensures r.Err? ==> r.error.ConfigurationError?
    ensures r.Ok? ==> IsMatrix(r.value, |names|, |names|)
    ensures r.Ok? ==> forall i, j :: 0 <= i < |names| && 0 <= j < |names| ==>
      r.value[i][j] == Entry(names, pairs, i, j)
  {
    if |pairs| == 0 then Ok(Identity(|names|))
    else
      var front := pairs[..|pairs| - 1];
      var (x, y, c) := pairs[|pairs| - 1];
      var a :- CorrelationMatrix(names, front);
      var i := IndexOf(names, x);
      var j := IndexOf(names, y);
      if i.None? || j.None? then Err(ConfigurationError("Correlation label is not an underlying."))
      else
        EntryStep(names, pairs, a, i.value, j.value);
        Ok(SetSymmetric(a, |names|, i.value, j.value, Min(c, MaxCorrelation)))
  }

  /** What the entry at row `i`, column `j` holds: the last pair naming both,
      else one on the diagonal and zero elsewhere. */
  function Entry(names: seq<string>, pairs: seq<Pair>, i: nat, j: nat): real
    requires i < |names| && j < |names|
  {
    var last := LastCorrelation(pairs, names[i], names[j]);
    if last.Some? then last.value else if i == j then 1.0 else 0.0
  }

  /** No name occurs twice (the names come from a set). */
  ghost predicate Distinct<T>(names: seq<T>) {
    forall p, q :: 0 <= p < q < |names| ==> names[p] != names[q]
  }

  lemma EntryStep(names: seq<string>, pairs: seq<Pair>, a: Matrix, i: nat, j: nat)
    requires Distinct(names)
    requires |pairs| > 0
    requires i < |names| && j < |names|
    requires names[i] == pairs[|pairs| - 1].0 && names[j] == pairs[|pairs| - 1].1
    requires IsMatrix(a, |names|, |names|)
    requires forall k, l :: 0 <= k < |names| && 0 <= l < |names| ==> a[k][l] == Entry(names, pairs[..|pairs| - 1], k, l)
    ensures var r := SetSymmetric(a, |names|, i, j, Min(pairs[|pairs| - 1].2, MaxCorrelation));
      forall k, l :: 0 <= k < |names| && 0 <= l < |names| ==> r[k][l] == Entry(names, pairs, k, l)
  {
    var (x, y, c) := pairs[|pairs| - 1];
    forall k, l | 0 <= k < |names| && 0 <= l < |names|
      ensures LastCorrelation(pairs, names[k], names[l])
        == if (k == i && l == j) || (k == j && l == i) then Some(Min(c, MaxCorrelation))
           else LastCorrelation(pairs[..|pairs| - 1], names[k], names[l])
    {
      assert names[k] == x <==> k == i;
      assert names[l] == x <==> l == i;
      assert names[k] == y <==> k == j;
      assert names[l] == y <==> l == j;
    }
  }

  /** A pair names `a` and `b`, in either order. */
  predicate Names(pair: Pair, a: string, b: string) {
    (pair.0 == a && pair.1 == b) || (pair.0 == b && pair.1 == a)
  }

  /** Pair `k` names `a` and `b` and no later pair does. */
  predicate LastNaming(pairs: seq<Pair>, k: int, a: string, b: string) {
    && 0 <= k < |pairs|
    && Names(pairs[k], a, b)
    && forall l :: k < l < |pairs| ==> !Names(pairs[l], a, b)
  }

  /** The reference entry is the capped value of the last pair naming both
      labels, and there is none exactly when no pair names them. */
  lemma {:induction false} LastCorrelationIsLast(pairs: seq<Pair>, a: string, b: string)
    ensures LastCorrelation(pairs, a, b).None? <==> forall k :: 0 <= k < |pairs| ==> !Names(pairs[k], a, b)
    ensures LastCorrelation(pairs, a, b).Some? ==>
      exists k :: LastNaming(pairs, k, a, b) && LastCorrelation(pairs, a, b).value == Min(pairs[k].2, MaxCorrelation)
  {
    if |pairs| > 0 {
      var front := pairs[..|pairs| - 1];
      LastCorrelationIsLast(front, a, b);
      assert forall k :: 0 <= k < |front| ==> front[k] == pairs[k];
      if Names(pairs[|pairs| - 1], a, b) {
        assert LastNaming(pairs, |pairs| - 1, a, b);
      } else if LastCorrelation(front, a, b).Some? {
        var k :| LastNaming(front, k, a, b) && LastCorrelation(front, a, b).value == Min(front[k].2, MaxCorrelation);
        assert LastNaming(pairs, k, a, b);
      }
    }
  }

  lemma {:induction false} LastCorrelationSymmetric(pairs: seq<Pair>, a: string, b: string)
    ensures LastCorrelation(pairs, a, b) == LastCorrelation(pairs, b, a)
  {
    if |pairs| > 0 {
      LastCorrelationSymmetric(pairs[..|pairs| - 1], a, b);
    }
  }

  /** The correlation matrix is symmetric. */
  lemma CorrelationSymmetric(names: seq<string>, pairs: seq<Pair>)
    requires Distinct(names)
    requires CorrelationMatrix(names, pairs).Ok?
    ensures var r := CorrelationMatrix(names, pairs).value;
      forall i, j :: 0 <= i < |names| && 0 <= j < |names| ==> r[i][j] == r[j][i]
  {
    forall i, j | 0 <= i < |names| && 0 <= j < |names| ensures Entry(names, pairs, i, j) == Entry(names, pairs, j, i) {
      LastCorrelationSymmetric(pairs, names[i], names[j]);
    }
  }

  /** Without a pair that names an underlying twice the diagonal is one, and
      two underlyings no pair names are uncorrelated. */
  lemma CorrelationDefaults(names: seq<string>, pairs: seq<Pair>)
    requires Distinct(names)
    requires CorrelationMatrix(names, pairs).Ok?
    ensures var r := CorrelationMatrix(names, pairs).value;
      forall i, j :: 0 <= i < |names| && 0 <= j < |names| && (forall k :: 0 <= k < |pairs| ==> !Names(pairs[k], names[i], names[j])) ==>
        r[i][j] == if i == j then 1.0 else 0.0
  {
    forall i, j | 0 <= i < |names| && 0 <= j < |names| && (forall k :: 0 <= k < |pairs| ==> !Names(pairs[k], names[i], names[j]))
      ensures Entry(names, pairs, i, j) == if i == j then 1.0 else 0.0
    {
      LastCorrelationIsLast(pairs, names[i], names[j]);
    }
  }

  /** Every entry named by some pair holds the capped value of the last such
      pair; in particular no entry named by a pair exceeds the cap. */
  lemma CorrelationOverrides(names: seq<string>, pairs: seq<Pair>, i: nat, j: nat)
    requires Distinct(names)
    requires CorrelationMatrix(names, pairs).Ok?
    requires i < |names| && j < |names|
    requires exists k :: 0 <= k < |pairs| && Names(pairs[k], names[i], names[j])
    ensures exists k ::
      LastNaming(pairs, k, names[i], names[j]) && CorrelationMatrix(names, pairs).value[i][j] == Min(pairs[k].2, MaxCorrelation)
    ensures CorrelationMatrix(names, pairs).value[i][j] <= MaxCorrelation
  {
    LastCorrelationIsLast(pairs, names[i], names[j]);
  }

  // Shared draws

  /** `rn_set`: every underlying's row in the shared draws, its position in
      the sorted list of underlyings. */
  function RnSet(names: seq<string>): (r: map<string, nat>)
    ensures r.Keys == set k | 0 <= k < |names| :: names[k]
    ensures forall a :: a in r ==> r[a] < |names| && names[r[a]] == a
  {
    map a | a in names :: IndexOf(names, a).value
  }

  /** On distinct names `rn_set` is a bijection onto `0 .. n-1`. */
  lemma RnSetBijection(names: seq<string>)
    requires Distinct(names)
    ensures forall k :: 0 <= k < |names| ==> RnSet(names)[names[k]] == k
    ensures forall a, b :: a in RnSet(names) && b in RnSet(names) && a != b ==> RnSet(names)[a] != RnSet(names)[b]
  {
    forall k | 0 <= k < |names| ensures RnSet(names)[names[k]] == k {
      var r := RnSet(names)[names[k]];
      assert names[r] == names[k];
    }
  }

  /** `sn_random_numbers((n, steps, paths))` for all underlyings at once, with
      antithetic variates and moment matching. With a single underlying the
      generator drops the first axis and the simulators cannot use the draws. */
  function SharedDraws(m: Analytic, n: nat, steps: nat, paths: nat, normal: (int, int, int) -> real): (r: Result<Tensor>)
    ensures n == 1 ==> r.Err?
    ensures r.Ok? ==> HasShape(r.value, n, steps, PathCount(paths, true))
  {
    var d :- SnRandomNumbers(m, n, steps, paths, true, true, normal);
    SnRandomNumbersShape(m, n, steps, paths, true, true, normal);
    if d.Plane? then Err(ShapeMismatch) else Ok(d.cube)
  }

  // Construction

  /** The valuation environment every underlying and position shares. */
  datatype ValEnv = ValEnv(startingDate: Date, finalDate: Date, frequency: string, paths: nat, shortRate: real)

  /** The correlation context of the portfolio: the factor, `rn_set` and the
      shared draws. */
  datatype Shared = Shared(cholesky: Matrix, rnSet: map<string, nat>, draws: Tensor)

  datatype Portfolio = Portfolio(
    start: Date,
    end: Date,
    grid: seq<Date>,
    specialDates: seq<Date>,
    shared: Option<Shared>,
    simulators: map<string, Simulator>,
    valuations: seq<Valuation>)

  /** The underlying of the first position whose asset has no market
      environment, if any. */
  function FirstMissing(positions: seq<Position>, assets: map<string, Simulator>): (r: Option<string>)
    ensures r.None? <==> forall k :: 0 <= k < |positions| ==> positions[k].underlying in assets
    ensures r.Some? ==> r.value !in assets && exists k :: 0 <= k < |positions| && positions[k].underlying == r.value
  {
    if |positions| == 0 then None
    else if positions[0].underlying !in assets then Some(positions[0].underlying)
    else
      var rest := FirstMissing(positions[1..], assets);
      assert forall k :: 1 <= k < |positions| ==> positions[k] == positions[1..][k - 1];
      rest
  }

  /** `sorted(self.underlyings)`. */
  function SortedUnderlyings(positions: seq<Position>): (r: seq<string>)
    ensures Distinct(r)
    ensures forall a :: a in r <==> a in Underlyings(positions)
  {
    var all := seq(|positions|, k requires 0 <= k < |positions| => positions[k].underlying);
    StringLessIsStrictTotal();
    var r := SortUnique(all, StringLess);
    assert forall a :: a in all <==> a in Underlyings(positions) by {
      forall a | a in Underlyings(positions) ensures a in all {
        var k :| 0 <= k < |positions| && positions[k].underlying == a;
        assert all[k] == a;
      }
    }
    IncreasingDistinctNames(r);
    r
  }

  lemma IncreasingDistinctNames(r: seq<string>)
    requires Increasing(r, StringLess)
    ensures Distinct(r)
  {
    forall p, q | 0 <= p < q < |r| ensures r[p] != r[q] {
      StringLessIrreflexive(r[p]);
    }
  }

  /** The shared correlation context, built over the sorted underlyings. */
  function Correlate(m: Analytic, names: seq<string>, pairs: seq<Pair>, cholesky: Matrix -> Matrix, steps: nat, paths: nat,
                     normal: (int, int, int) -> real): (r: Result<Shared>)
    requires Distinct(names)
    ensures !CorrelationMatrix(names, pairs).Ok? ==> r.Err?
    ensures r.Ok? ==> r.value.cholesky == cholesky(CorrelationMatrix(names, pairs).value)
    ensures r.Ok? ==> r.value.rnSet == RnSet(names)
    ensures r.Ok? ==> HasShape(r.value.draws, |names|, steps, PathCount(paths, true))
  {
    var matrix :- CorrelationMatrix(names, pairs);
    var draws :- SharedDraws(m, |names|, steps, paths, normal);
    Ok(Shared(cholesky(matrix), RnSet(names), draws))
  }

  /** An asset's simulator once the valuation environment is merged into its
      market environment: the portfolio's final date, frequency, path count,
      discount rate and grid, an empty cache, and the shared draws when
      correlated. */
  function Configure(base: Simulator, name: string, env: ValEnv, end: Date, grid: seq<Date>, shared: Option<Shared>): (s: Simulator)
    requires shared.Some? ==> name in shared.value.rnSet
    ensures s.finalDate == end && s.frequency == env.frequency && s.paths == env.paths && s.shortRate == env.shortRate
    ensures s.timeGrid == Some(grid) && s.instrumentValues.None?
    ensures s.correlation.Some? <==> shared.Some?
    ensures shared.Some? ==> s.correlation.value.rnSet == shared.value.rnSet[name]
    ensures shared.Some? ==> s.correlation.value.cholesky == shared.value.cholesky
    ensures shared.Some? ==> s.correlation.value.randomNumbers == shared.value.draws
    ensures s == base.(finalDate := s.finalDate, frequency := s.frequency, paths := s.paths, shortRate := s.shortRate,
                       timeGrid := s.timeGrid, instrumentValues := s.instrumentValues, correlation := s.correlation)
  {
    var corr := if shared.Some? then Some(Correlation(shared.value.cholesky, shared.value.rnSet[name], shared.value.draws)) else None;
    base.(finalDate := end, frequency := env.frequency, paths := env.paths, shortRate := env.shortRate,
          timeGrid := Some(grid), instrumentValues := None, correlation := corr)
  }

  /** One simulator per underlying. */
  function Simulators(assets: map<string, Simulator>, names: set<string>, env: ValEnv, end: Date, grid: seq<Date>,
                      shared: Option<Shared>): (r: map<string, Simulator>)
    requires names <= assets.Keys
    requires shared.Some? ==> names <= shared.value.rnSet.Keys
    ensures r.Keys == names
    ensures forall a :: a in r ==> r[a] == Configure(assets[a], a, env, end, grid, shared)
  {
    map a | a in names :: Configure(assets[a], a, env, end, grid, shared)
  }

  /** The valuation of a position takes the position's terms and the
      underlying's frequency, path count and discount rate. */
  predicate ValuationOf(v: Valuation, p: Position, frequency: string, paths: nat, shortRate: real) {
    && v.name == p.name && v.pricingDate == p.pricingDate && v.maturity == p.maturity && v.strike == p.strike
    && v.currency == p.currency && v.payoff == p.payoff && v.style == p.style
    && v.frequency == frequency && v.paths == paths && v.shortRate == shortRate
  }

  /** The special dates the positions on `a` add to its simulator: pricing
      date and maturity of each, in position order. */
  function AddedDates(positions: seq<Position>, a: string): seq<Date> {
    if |positions| == 0 then []
    else
      var p := positions[0];
      (if p.underlying == a then [p.pricingDate, p.maturity] else []) + AddedDates(positions[1..], a)
  }

  /** Every simulator with the special dates of its positions appended. */
  function WithAddedDates(sims: map<string, Simulator>, positions: seq<Position>): (r: map<string, Simulator>)
    ensures r.Keys == sims.Keys
  {
    map a | a in sims :: sims[a].(specialDates := sims[a].specialDates + AddedDates(positions, a))
  }

  /** One valuation per position, in order, each on its own underlying's
      simulator, which receives the position's pricing date and maturity as
      special dates: apart from those dates the simulators are unchanged. */
  function Valuations(positions: seq<Position>, sims: map<string, Simulator>): (r: (seq<Valuation>, map<string, Simulator>))
    requires forall k :: 0 <= k < |positions| ==> positions[k].underlying in sims
    ensures |r.0| == |positions|
    ensures r.1 == WithAddedDates(sims, positions)
    ensures forall k :: 0 <= k < |positions| ==>
      var s := sims[positions[k].underlying];
      ValuationOf(r.0[k], positions[k], s.frequency, s.paths, s.shortRate)
  {
    if |positions| == 0 then
      NoAddedDates(sims, positions);
      ([], sims)
    else
      var p := positions[0];
      var made := NewValuation(p.name, p.pricingDate, p.strike, p.maturity, p.currency, sims[p.underlying], p.payoff, p.style);
      var sims1 := sims[p.underlying := made.1];
      assert forall k :: 1 <= k < |positions| ==> positions[k] == positions[1..][k - 1];
      var rest := Valuations(positions[1..], sims1);
      AddedDatesStep(positions, sims, sims1);
      ([made.0] + rest.0, rest.1)
  }

  lemma NoAddedDates(sims: map<string, Simulator>, positions: seq<Position>)
    requires |positions| == 0
    ensures WithAddedDates(sims, positions) == sims
  {
    forall a | a in sims ensures WithAddedDates(sims, positions)[a] == sims[a] {
      assert sims[a].specialDates + AddedDates(positions, a) == sims[a].specialDates;
    }
  }

  lemma AddedDatesStep(positions: seq<Position>, sims: map<string, Simulator>, sims1: map<string, Simulator>)
    requires |positions| > 0 && positions[0].underlying in sims
    requires var p := positions[0];
      sims1 == sims[p.underlying := sims[p.underlying].(specialDates := sims[p.underlying].specialDates + [p.pricingDate, p.maturity])]
    ensures WithAddedDates(sims1, positions[1..]) == WithAddedDates(sims, positions)
  {
    var p := positions[0];
    var left := WithAddedDates(sims1, positions[1..]);
    var right := WithAddedDates(sims, positions);
    forall a | a in sims ensures left[a] == right[a] {
      var rest := AddedDates(positions[1..], a);
      var base := sims[a].specialDates;
      if a == p.underlying {
        assert AddedDates(positions, a) == [p.pricingDate, p.maturity] + rest;
        assert (base + [p.pricingDate, p.maturity]) + rest == base + ([p.pricingDate, p.maturity] + rest);
      } else {
        assert AddedDates(positions, a) == rest;
      }
    }
    assert left.Keys == right.Keys;
  }

  /** The constructor. A position whose underlying has no market environment
      is an error; so is, when correlations are given, a label that is not
      an underlying. */
  function NewPortfolio(m: Analytic, positions: seq<Position>, env: ValEnv, assets: map<string, Simulator>,
                        correlations: Option<seq<Pair>>, dateRange: DateRange, cholesky: Matrix -> Matrix,
                        normal: (int, int, int) -> real): (r: Result<Portfolio>)
    ensures FirstMissing(positions, assets).Some? ==> r == Err(MissingParameter(FirstMissing(positions, assets).value))
    ensures FirstMissing(positions, assets).None? && correlations.None? ==> r.Ok?
    ensures correlations.Some? && (exists k :: 0 <= k < |correlations.value| && Unknown(correlations.value[k], positions)) ==> r.Err?
    ensures r.Ok? ==> Covers(r.value, positions, env, dateRange)
    ensures r.Ok? ==> Wired(r.value, positions, env, correlations.Some?)
  {
    var missing := FirstMissing(positions, assets);
    if missing.Some? then Err(MissingParameter(missing.value))
    else
      var start := StartingDate(env.startingDate, positions);
      var end := FinalDate(env.finalDate, positions);
      var schedule := dateRange(start, end, env.frequency);
      var grid := PortfolioGrid(start, end, schedule, Maturities(positions));
      var names := SortedUnderlyings(positions);
      var shared :- if correlations.Some? then
                      var c :- Correlate(m, names, correlations.value, cholesky, |grid|, env.paths, normal); Ok(Some(c))
                    else Ok(None);
      var pf := Assemble(positions, env, assets, start, end, grid, SpecialDates(schedule, Maturities(positions)), shared);
      Ok(pf)
  }

  /** A correlation that names an asset no position is written on. */
  predicate Unknown(pair: Pair, positions: seq<Position>) {
    pair.0 !in Underlyings(positions) || pair.1 !in Underlyings(positions)
  }

  /** The valuation period covers every position and the grid holds the
      schedule, every maturity and both ends, in increasing order. */
  ghost predicate Covers(pf: Portfolio, positions: seq<Position>, env: ValEnv, dateRange: DateRange) {
    && pf.start == StartingDate(env.startingDate, positions)
    && pf.end == FinalDate(env.finalDate, positions)
    && Increasing(pf.grid, IntLess)
    && (forall d :: d in pf.grid <==>
          d in dateRange(pf.start, pf.end, env.frequency) || d in Maturities(positions) || d == pf.start || d == pf.end)
    && (forall d :: d in pf.specialDates <==> d in Maturities(positions) && d !in dateRange(pf.start, pf.end, env.frequency))
  }

  /** One simulator per underlying, all on the portfolio grid and correlated
      exactly when correlations are given, and one valuation per position on
      the valuation environment's frequency, path count and rate. */
  ghost predicate Wired(pf: Portfolio, positions: seq<Position>, env: ValEnv, correlated: bool) {
    && pf.simulators.Keys == Underlyings(positions)
    && (forall a :: a in pf.simulators ==>
          && pf.simulators[a].timeGrid == Some(pf.grid) && pf.simulators[a].finalDate == pf.end
          && pf.simulators[a].instrumentValues.None?
          && (pf.simulators[a].correlation.Some? <==> correlated))
    && (correlated ==> pf.shared.Some? && forall a :: a in pf.simulators ==>
          pf.simulators[a].correlation.value.rnSet == RnSet(SortedUnderlyings(positions))[a])
    && |pf.valuations| == |positions|
    && (forall k :: 0 <= k < |positions| ==> ValuationOf(pf.valuations[k], positions[k], env.frequency, env.paths, env.shortRate))
  }

  /** The simulators and valuations of a portfolio whose every underlying has
      a market environment. */
  function Assemble(positions: seq<Position>, env: ValEnv, assets: map<string, Simulator>, start: Date, end: Date,
                    grid: seq<Date>, specialDates: seq<Date>, shared: Option<Shared>): (pf: Portfolio)
    requires forall k :: 0 <= k < |positions| ==> positions[k].underlying in assets
    requires shared.Some? ==> shared.value.rnSet == RnSet(SortedUnderlyings(positions))
    ensures pf.start == start && pf.end == end && pf.grid == grid && pf.specialDates == specialDates && pf.shared == shared
    ensures Wired(pf, positions, env, shared.Some?)
  {
    var names := Underlyings(positions);
    assert names <= assets.Keys;
    assert shared.Some? ==> names <= shared.value.rnSet.Keys;
    var sims := Simulators(assets, names, env, end, grid, shared);
    var made := Valuations(positions, sims);
    Portfolio(start, end, grid, specialDates, shared, made.1, made.0)
  }

  // Statistics

  /** A row of `get_statistics`. */
  datatype Row = Row(name: string, quantity: real, value: real, currency: string, posValue: real, posDelta: real, posVega: real)

  /** A position's row: its present value, then its delta and its vega with
      the default intervals, each on the simulator the previous step left
      behind. The first of the three that fails decides the error. */
  function PositionRow(m: Analytic, v: Valuation, p: Position, s: Simulator, fixedSeed: bool, noise: Noise,
                       dateRange: DateRange, regress: American.Regression): (r: Result<(Row, Simulator)>)
    ensures var pv := Greeks.PresentValue(m, v, s, fixedSeed, noise, dateRange, regress);
      && (pv.Err? ==> r == Err(pv.error))
      && (r.Ok? ==> pv.Ok? && r.value.0.value == pv.value.0)
    ensures r.Ok? ==> RowOf(r.value.0, p, v)
    ensures r.Ok? ==> KeepsParameters(s, r.value.1)
  {
    var pv :- Greeks.PresentValue(m, v, s, fixedSeed, noise, dateRange, regress);
    Greeks.PresentValueFrame(m, v, s, fixedSeed, noise, dateRange, regress);
    var delta :- Greeks.Delta(m, v, pv.1, None, noise, dateRange, regress);
    var vega :- Greeks.Vega(m, v, delta.1, None, noise, dateRange, regress);
    var row := MakeRow(p, v, pv.0, delta.0, vega.0);
    Ok((row, vega.1))
  }

  /** The position delta and vega of a row are `delta() * quantity` and
      `vega() * quantity`, each Greek taken with its default interval on the
      simulator the previous step left; the row's simulator is the one vega
      leaves. */
  lemma PositionRowGreeks(m: Analytic, v: Valuation, p: Position, s: Simulator, fixedSeed: bool, noise: Noise,
                          dateRange: DateRange, regress: American.Regression,
                          pv: (real, Simulator), delta: (real, Simulator), vega: (real, Simulator))
    requires Greeks.PresentValue(m, v, s, fixedSeed, noise, dateRange, regress) == Ok(pv)
    requires Greeks.Delta(m, v, pv.1, None, noise, dateRange, regress) == Ok(delta)
    requires Greeks.Vega(m, v, delta.1, None, noise, dateRange, regress) == Ok(vega)
    ensures -1.0 <= delta.0 <= 1.0
    ensures PositionRow(m, v, p, s, fixedSeed, noise, dateRange, regress) == Ok((MakeRow(p, v, pv.0, delta.0, vega.0), vega.1))
  {
  }

  /** A row fails with the error of the first Greek that fails. */
  lemma PositionRowGreekFails(m: Analytic, v: Valuation, p: Position, s: Simulator, fixedSeed: bool, noise: Noise,
                              dateRange: DateRange, regress: American.Regression, pv: (real, Simulator))
    requires Greeks.PresentValue(m, v, s, fixedSeed, noise, dateRange, regress) == Ok(pv)
    ensures var d := Greeks.Delta(m, v, pv.1, None, noise, dateRange, regress);
      && (d.Err? ==> PositionRow(m, v, p, s, fixedSeed, noise, dateRange, regress) == Err(d.error))
      && (d.Ok? && Greeks.Vega(m, v, d.value.1, None, noise, dateRange, regress).Err? ==>
            PositionRow(m, v, p, s, fixedSeed, noise, dateRange, regress)
            == Err(Greeks.Vega(m, v, d.value.1, None, noise, dateRange, regress).error))
  {
  }

  /** A row describes position `p` valued by `v`: the position's name,
      quantity and currency, a position value of the unit value times the
      quantity, and a position delta no larger in size than the quantity. */
  predicate RowOf(row: Row, p: Position, v: Valuation) {
    && row.name == p.name && row.quantity == p.quantity && row.currency == v.currency
    && row.posValue == row.value * row.quantity
    && -Abs(row.quantity) <= row.posDelta <= Abs(row.quantity)
  }

  /** The row of a position from its unit value and Greeks: the position
      columns scale them by the quantity. */
  function MakeRow(p: Position, v: Valuation, value: real, delta: real, vega: real): (row: Row)
    requires -1.0 <= delta <= 1.0
    ensures row.value == value && RowOf(row, p, v)
    ensures row.posDelta == delta * p.quantity && row.posVega == vega * p.quantity
    ensures p.quantity != 0.0 ==> row.posDelta / p.quantity == delta && row.posVega / p.quantity == vega
  {
    BoundedTimesQuantity(delta, p.quantity);
    if p.quantity != 0.0 then
      var q := p.quantity;
      assert (delta * q) / q == delta by { assert (delta * q) / q * q == delta * q; }
      assert (vega * q) / q == vega by { assert (vega * q) / q * q == vega * q; }
      Row(p.name, p.quantity, value, v.currency, value * p.quantity, delta * p.quantity, vega * p.quantity)
    else
      Row(p.name, p.quantity, value, v.currency, value * p.quantity, delta * p.quantity, vega * p.quantity)
  }

  function Abs(x: real): real {
    if x < 0.0 then -x else x
  }

  lemma BoundedTimesQuantity(d: real, q: real)
    requires -1.0 <= d <= 1.0
    ensures -Abs(q) <= d * q <= Abs(q)
  {
    if q >= 0.0 {
      MulMonotone(q, d, 1.0);
      assert q * d <= q * 1.0;
      assert q * 1.0 == q;
      assert q * d <= q;
      assert d * q == q * d;
      MulMonotone(q, -1.0, d);
      assert q * -1.0 == -q;
    } else {
      var c := -q;
      MulMonotone(c, d, 1.0);
      MulMonotone(c, -1.0, d);
      assert c * d == -(d * q);
    }
  }

  /** The simulator after valuing differs at most in its grid and its cache:
      the Greeks put the initial value and the volatility back. */
  predicate KeepsParameters(before: Simulator, after: Simulator) {
    after == before.(timeGrid := after.timeGrid, instrumentValues := after.instrumentValues)
  }

  /** How one position's row is computed from its valuation and the current
      simulator of its underlying. */
  type RowStep = (Valuation, Position, Simulator) -> Result<(Row, Simulator)>

  /** The loop of `get_statistics` for any way of computing a row: one row
      per position, in position order, each position seeing the simulator of
      its underlying as the positions before it left it. */
  function Thread(rowOf: RowStep, positions: seq<Position>, valuations: seq<Valuation>, sims: map<string, Simulator>)
    : (r: Result<(seq<Row>, map<string, Simulator>)>)
    requires |valuations| == |positions|
    requires forall k :: 0 <= k < |positions| ==> positions[k].underlying in sims
    ensures r.Ok? ==> |r.value.0| == |positions| && r.value.1.Keys == sims.Keys
  {
    if |positions| == 0 then Ok(([], sims))
    else
      var p := positions[0];
      var first :- rowOf(valuations[0], p, sims[p.underlying]);
      var sims1 := sims[p.underlying := first.1];
      assert forall k :: 0 <= k < |positions[1..]| ==> positions[1..][k].underlying in sims1 by {
        TailUnderlyingsKept(positions, sims, sims1);
      }
      var rest :- Thread(rowOf, positions[1..], valuations[1..], sims1);
      Ok(([first.0] + rest.0, rest.1))
  }

  /** Every row a step produces describes its position, and the step keeps
      the simulator's parameters. */
  ghost predicate Faithful(rowOf: RowStep) {
    forall v, p, s :: rowOf(v, p, s).Ok? ==>
      RowOf(rowOf(v, p, s).value.0, p, v) && KeepsParameters(s, rowOf(v, p, s).value.1)
  }

  /** A faithful step gives rows that describe their positions, and leaves
      every simulator with its parameters. */
  lemma {:induction false} ThreadKeeps(rowOf: RowStep, positions: seq<Position>, valuations: seq<Valuation>,
                                       sims: map<string, Simulator>)
    requires |valuations| == |positions|
    requires forall k :: 0 <= k < |positions| ==> positions[k].underlying in sims
    requires Faithful(rowOf)
    ensures var r := Thread(rowOf, positions, valuations, sims);
      r.Ok? ==>
        && (forall k :: 0 <= k < |positions| ==> RowOf(r.value.0[k], positions[k], valuations[k]))
        && (forall a :: a in sims ==> KeepsParameters(sims[a], r.value.1[a]))
    decreases |positions|
  {
    var r := Thread(rowOf, positions, valuations, sims);
    if |positions| > 0 && r.Ok? {
      var p := positions[0];
      var first := rowOf(valuations[0], p, sims[p.underlying]).value;
      var sims1 := sims[p.underlying := first.1];
      TailUnderlyingsKept(positions, sims, sims1);
      ThreadKeeps(rowOf, positions[1..], valuations[1..], sims1);
      var rest := Thread(rowOf, positions[1..], valuations[1..], sims1).value;
      StatisticsStepKeeps(positions, valuations, sims, first.0, first.1, sims1, rest.0, rest.1);
    }
  }

  /** Position `k`'s row computed on the simulator its underlying starts with. */
  function Alone(rowOf: RowStep, positions: seq<Position>, valuations: seq<Valuation>, sims: map<string, Simulator>, k: nat)
    : Result<(Row, Simulator)>
    requires k < |positions| == |valuations|
    requires positions[k].underlying in sims
  {
    rowOf(valuations[k], positions[k], sims[positions[k].underlying])
  }

  /** No two positions are written on the same underlying. */
  predicate SeparateUnderlyings(positions: seq<Position>) {
    forall j, k :: 0 <= j < k < |positions| ==> positions[j].underlying != positions[k].underlying
  }

  /** With separate underlyings, replacing the first position's simulator
      leaves every later position's row as it was. */
  lemma TailAlone(rowOf: RowStep, positions: seq<Position>, valuations: seq<Valuation>, sims: map<string, Simulator>, s1: Simulator)
    requires |valuations| == |positions| > 0
    requires forall k :: 0 <= k < |positions| ==> positions[k].underlying in sims
    requires SeparateUnderlyings(positions)
    ensures SeparateUnderlyings(positions[1..])
    ensures forall k :: 0 <= k < |positions[1..]| ==> positions[1..][k].underlying in sims[positions[0].underlying := s1]
    ensures forall k :: 1 <= k < |positions| ==>
      Alone(rowOf, positions[1..], valuations[1..], sims[positions[0].underlying := s1], k - 1)
      == Alone(rowOf, positions, valuations, sims, k)
  {
    var ps, vs := positions[1..], valuations[1..];
    var sims1 := sims[positions[0].underlying := s1];
    TailUnderlyingsKept(positions, sims, sims1);
    forall j, k | 0 <= j < k < |ps| ensures ps[j].underlying != ps[k].underlying {
      assert ps[j] == positions[j + 1] && ps[k] == positions[k + 1];
    }
    forall k | 1 <= k < |positions| ensures Alone(rowOf, ps, vs, sims1, k - 1) == Alone(rowOf, positions, valuations, sims, k) {
      assert ps[k - 1] == positions[k] && vs[k - 1] == valuations[k];
    }
  }

  /** When no two positions share an underlying, no row sees another
      position's simulator: the loop succeeds exactly when every row does on
      its own starting simulator. */
  lemma {:induction false} SeparateUnderlyingsSucceed(rowOf: RowStep, positions: seq<Position>, valuations: seq<Valuation>,
                                                     sims: map<string, Simulator>)
    requires |valuations| == |positions|
    requires forall k :: 0 <= k < |positions| ==> positions[k].underlying in sims
    requires SeparateUnderlyings(positions)
    ensures Thread(rowOf, positions, valuations, sims).Ok? <==>
      forall k :: 0 <= k < |positions| ==> Alone(rowOf, positions, valuations, sims, k).Ok?
    decreases |positions|
  {
    if |positions| > 0 {
      var first := Alone(rowOf, positions, valuations, sims, 0);
      if first.Ok? {
        var ps, vs := positions[1..], valuations[1..];
        var sims1 := sims[positions[0].underlying := first.value.1];
        TailAlone(rowOf, positions, valuations, sims, first.value.1);
        SeparateUnderlyingsSucceed(rowOf, ps, vs, sims1);
        if Thread(rowOf, ps, vs, sims1).Ok? {
          forall k | 1 <= k < |positions| ensures Alone(rowOf, positions, valuations, sims, k).Ok? {
            assert Alone(rowOf, ps, vs, sims1, k - 1).Ok?;
          }
        } else {
          var k :| 0 <= k < |ps| && Alone(rowOf, ps, vs, sims1, k).Err?;
          assert Alone(rowOf, positions, valuations, sims, k + 1).Err?;
        }
      }
    }
  }

  /** With separate underlyings, row `k` of a successful loop is the row
      position `k` gets on its own starting simulator. */
  lemma {:induction false} SeparateUnderlyingsRows(rowOf: RowStep, positions: seq<Position>, valuations: seq<Valuation>,
                                                  sims: map<string, Simulator>)
    requires |valuations| == |positions|
    requires forall k :: 0 <= k < |positions| ==> positions[k].underlying in sims
    requires SeparateUnderlyings(positions)
    requires Thread(rowOf, positions, valuations, sims).Ok?
    ensures forall k :: 0 <= k < |positions| ==>
      Alone(rowOf, positions, valuations, sims, k).Ok? &&
      Thread(rowOf, positions, valuations, sims).value.0[k] == Alone(rowOf, positions, valuations, sims, k).value.0
    decreases |positions|
  {
    if |positions| > 0 {
      var first := Alone(rowOf, positions, valuations, sims, 0);
      var ps, vs := positions[1..], valuations[1..];
      var sims1 := sims[positions[0].underlying := first.value.1];
      TailAlone(rowOf, positions, valuations, sims, first.value.1);
      SeparateUnderlyingsRows(rowOf, ps, vs, sims1);
      var rows := Thread(rowOf, positions, valuations, sims).value.0;
      var rest := Thread(rowOf, ps, vs, sims1).value.0;
      forall k | 1 <= k < |positions| ensures rows[k] == rest[k - 1] {
      }
    }
  }

  /** The row step of `get_statistics`. */
  function StatisticsStep(m: Analytic, fixedSeed: bool, noise: Noise, dateRange: DateRange, regress: American.Regression)
    : (f: RowStep)
    ensures Faithful(f)
  {
    (v: Valuation, p: Position, s: Simulator) => PositionRow(m, v, p, s, fixedSeed, noise, dateRange, regress)
  }

  /** `get_statistics`: one row per position, in position order, threading
      the simulators, which the positions on one underlying share. */
  function Statistics(m: Analytic, positions: seq<Position>, valuations: seq<Valuation>, sims: map<string, Simulator>,
                      fixedSeed: bool, noise: Noise, dateRange: DateRange, regress: American.Regression)
    : (r: Result<(seq<Row>, map<string, Simulator>)>)
    requires |valuations| == |positions|
    requires forall k :: 0 <= k < |positions| ==> positions[k].underlying in sims
    ensures r.Ok? ==> |r.value.0| == |positions|
    ensures r.Ok? ==> forall k :: 0 <= k < |positions| ==> RowOf(r.value.0[k], positions[k], valuations[k])
    ensures r.Ok? ==> r.value.1.Keys == sims.Keys
    ensures r.Ok? ==> forall a :: a in sims ==> KeepsParameters(sims[a], r.value.1[a])
    ensures |positions| > 0 ==>
      var first := PositionRow(m, valuations[0], positions[0], sims[positions[0].underlying], fixedSeed, noise, dateRange, regress);
      && (first.Err? ==> r == Err(first.error))
      && (r.Ok? ==> first.Ok? && r.value.0[0] == first.value.0)
  {
    var f := StatisticsStep(m, fixedSeed, noise, dateRange, regress);
    ThreadKeeps(f, positions, valuations, sims);
    Thread(f, positions, valuations, sims)
  }

  /** When no two positions share an underlying, `get_statistics` succeeds
      exactly when every position's row does on the simulator its underlying
      starts with, and each row is then that row. */
  lemma StatisticsOfSeparateUnderlyings(m: Analytic, positions: seq<Position>, valuations: seq<Valuation>,
                                        sims: map<string, Simulator>, fixedSeed: bool, noise: Noise,
                                        dateRange: DateRange, regress: American.Regression)
    requires |valuations| == |positions|
    requires forall k :: 0 <= k < |positions| ==> positions[k].underlying in sims
    requires SeparateUnderlyings(positions)
    ensures Statistics(m, positions, valuations, sims, fixedSeed, noise, dateRange, regress).Ok? <==>
      forall k :: 0 <= k < |positions| ==>
        PositionRow(m, valuations[k], positions[k], sims[positions[k].underlying], fixedSeed, noise, dateRange, regress).Ok?
    ensures Statistics(m, positions, valuations, sims, fixedSeed, noise, dateRange, regress).Ok? ==>
      forall k :: 0 <= k < |positions| ==>
        Statistics(m, positions, valuations, sims, fixedSeed, noise, dateRange, regress).value.0[k]
        == PositionRow(m, valuations[k], positions[k], sims[positions[k].underlying], fixedSeed, noise, dateRange, regress).value.0
  {
    var f := StatisticsStep(m, fixedSeed, noise, dateRange, regress);
    SeparateUnderlyingsSucceed(f, positions, valuations, sims);
    if Statistics(m, positions, valuations, sims, fixedSeed, noise, dateRange, regress).Ok? {
      SeparateUnderlyingsRows(f, positions, valuations, sims);
    }
  }

  lemma StatisticsStepKeeps(positions: seq<Position>, valuations: seq<Valuation>, sims: map<string, Simulator>,
                           row: Row, s: Simulator, sims1: map<string, Simulator>, rows: seq<Row>, out: map<string, Simulator>)
    requires |positions| > 0 && |valuations| == |positions| && positions[0].underlying in sims
    requires RowOf(row, positions[0], valuations[0])
    requires KeepsParameters(sims[positions[0].underlying], s)
    requires sims1 == sims[positions[0].underlying := s]
    requires |rows| == |positions| - 1
    requires forall k :: 0 <= k < |rows| ==> RowOf(rows[k], positions[1..][k], valuations[1..][k])
    requires out.Keys == sims1.Keys
    requires forall a :: a in sims1 ==> KeepsParameters(sims1[a], out[a])
    ensures forall k :: 0 <= k < |positions| ==> RowOf(([row] + rows)[k], positions[k], valuations[k])
    ensures out.Keys == sims.Keys
    ensures forall a :: a in sims ==> KeepsParameters(sims[a], out[a])
  {
    forall k | 0 <= k < |positions| ensures RowOf(([row] + rows)[k], positions[k], valuations[k]) {
      if k > 0 {
        assert positions[1..][k - 1] == positions[k] && valuations[1..][k - 1] == valuations[k];
      }
    }
  }

  lemma TailUnderlyingsKept(positions: seq<Position>, sims: map<string, Simulator>, sims1: map<string, Simulator>)
    requires |positions| > 0
    requires forall k :: 0 <= k < |positions| ==> positions[k].underlying in sims
    requires sims.Keys <= sims1.Keys
    ensures forall k :: 0 <= k < |positions[1..]| ==> positions[1..][k].underlying in sims1
  {
    forall k | 0 <= k < |positions[1..]| ensures positions[1..][k].underlying in sims1 {
      assert positions[1..][k] == positions[k + 1];
    }
  }

  /** `get_statistics` on a portfolio built from `positions`: the rows, and
      the portfolio whose simulators hold what valuing left in their caches. */
  function PortfolioStatistics(m: Analytic, pf: Portfolio, positions: seq<Position>, fixedSeed: bool, noise: Noise,
                               dateRange: DateRange, regress: American.Regression): (r: Result<(seq<Row>, Portfolio)>)
    requires |pf.valuations| == |positions|
    requires pf.simulators.Keys == Underlyings(positions)
    requires forall k :: 0 <= k < |positions| ==> positions[k].underlying in pf.simulators
    ensures var st := Statistics(m, positions, pf.valuations, pf.simulators, fixedSeed, noise, dateRange, regress);
      && (st.Err? ==> r == Err(st.error))
      && (st.Ok? ==> r.Ok? && r.value.0 == st.value.0 && r.value.1.simulators == st.value.1)
    ensures r.Ok? ==> |r.value.0| == |positions|
    ensures r.Ok? ==> r.value.1 == pf.(simulators := r.value.1.simulators)
    ensures r.Ok? ==> r.value.1.simulators.Keys == pf.simulators.Keys
    ensures r.Ok? ==> forall a :: a in pf.simulators ==> KeepsParameters(pf.simulators[a], r.value.1.simulators[a])
  {
    var stats :- Statistics(m, positions, pf.valuations, pf.simulators, fixedSeed, noise, dateRange, regress);
    Ok((stats.0, pf.(simulators := stats.1)))
  }
}

=== FILE: random_numbers.dfy ===
/** Standard normal draws with antithetic variates and moment matching
    (`sn_random_numbers`).

    numpy's generator is foreign: `normal(a, b, c)` is the draw it would put at
    index `(a, b, c)`, so a fixed seed corresponds to passing the same
    function. The model keeps the structure the post-processing gives the
    draws (shape, the mirrored half, the exact zero mean), not their
    distribution.
 */
module RandomNumbers {
  import opened Wrappers
  import opened RealMath

  /** A three-dimensional array indexed `[asset][step][path]`. */
  type Tensor = seq<seq<seq<real>>>

  ghost predicate HasShape(t: Tensor, o: nat, n: nat, p: nat) {
    && |t| == o
    && (forall a :: 0 <= a < o ==> |t[a]| == n)
    && (forall a, b :: 0 <= a < o && 0 <= b < n ==> |t[a][b]| == p)
  }

  /** The array a squeezed result stands for: a single asset's plane comes back
      two-dimensional. */
  datatype Draws = Plane(plane: seq<seq<real>>) | Cube(cube: Tensor)

  /** `np.random.standard_normal((o, n, p))`. */
  function Fresh(o: nat, n: nat, p: nat, normal: (int, int, int) -> real): (t: Tensor)
    ensures HasShape(t, o, n, p)
  {
    seq(o, a => seq(n, b => seq(p, c => normal(a, b, c))))
  }

  /** `-s`, element-wise. */
  function Negate(s: seq<real>): (r: seq<real>)
    ensures |r| == |s|
    ensures forall i :: 0 <= i < |s| ==> r[i] == -s[i]
  {
    seq(|s|, i requires 0 <= i < |s| => -s[i])
  }

  /** `np.concatenate((t, -t), axis=2)`: every row followed by its negation. */
  function Mirror(t: Tensor): (r: Tensor)
    ensures |r| == |t|
    ensures forall a :: 0 <= a < |t| ==> |r[a]| == |t[a]|
    ensures forall a, b :: 0 <= a < |t| && 0 <= b < |t[a]| ==> r[a][b] == t[a][b] + Negate(t[a][b])
    ensures forall a, b :: 0 <= a < |t| && 0 <= b < |t[a]| ==>
      |r[a][b]| == 2 * |t[a][b]| && r[a][b][..|t[a][b]|] == t[a][b]
  {
    seq(|t|, a requires 0 <= a < |t| =>
      seq(|t[a]|, b requires 0 <= b < |t[a]| => t[a][b] + Negate(t[a][b])))
  }

  /** The draws before moment matching. With `antithetic` only `p / 2` paths
      are drawn (integer division) and mirrored. */
  function Raw(o: nat, n: nat, p: nat, antithetic: bool, normal: (int, int, int) -> real): Tensor {
    if antithetic then Mirror(Fresh(o, n, p / 2, normal)) else Fresh(o, n, p, normal)
  }

  /** `f` applied to every element. */
  function Each(f: real -> real, s: seq<real>): (r: seq<real>)
    ensures |r| == |s|
  {
    seq(|s|, i requires 0 <= i < |s| => f(s[i]))
  }

  /** `f` applied to every element of an array. */
  function EachTensor(f: real -> real, t: Tensor): (r: Tensor)
    ensures |r| == |t|
    ensures forall a :: 0 <= a < |t| ==> |r[a]| == |t[a]|
    ensures forall a, b :: 0 <= a < |t| && 0 <= b < |t[a]| ==> r[a][b] == Each(f, t[a][b])
  {
    seq(|t|, a requires 0 <= a < |t| =>
      seq(|t[a]|, b requires 0 <= b < |t[a]| => Each(f, t[a][b])))
  }

  /** All entries of a plane, row after row. */
  function FlattenPlane(p: seq<seq<real>>): seq<real> {
    if |p| == 0 then [] else p[0] + FlattenPlane(p[1..])
  }

  /** All entries of an array, in index order: what `np.mean` and `np.std` see. */
  function Flatten(t: Tensor): seq<real> {
    if |t| == 0 then [] else FlattenPlane(t[0]) + Flatten(t[1..])
  }

  /** `np.std` (population standard deviation). */
  function Std(m: Analytic, xs: seq<real>): real
    requires |xs| > 0
  {
    var mu := Mean(xs);
    m.sqrt(Mean(Each(x => (x - mu) * (x - mu), xs)))
  }

  /** Subtracting `c`, as one function, so that every use names the same one. */
  function Less(c: real): real -> real
  {
    x => x - c
  }

  /** Dividing by `d`, as one function. */
  function Over(d: real): real -> real
    requires d != 0.0
  {
    x => x / d
  }

  /** `ran - np.mean(ran)`. */
  function Center(t: Tensor): Tensor {
    var xs := Flatten(t);
    if |xs| == 0 then t else var mu := Mean(xs); EachTensor(Less(mu), t)
  }

  /** `ran = ran - np.mean(ran); ran = ran / np.std(ran)`. An empty array comes
      back as it was; a constant array has standard deviation zero, and numpy's
      `0 / 0` gives nan, reported as `NotANumber`. */
  function MomentMatch(m: Analytic, t: Tensor): Result<Tensor> {
    var c := Center(t);
    var xs := Flatten(c);
    if |xs| == 0 then Ok(c)
    else
      var s := Std(m, xs);
      if s == 0.0 then Err(NotANumber) else Ok(EachTensor(Over(s), c))
  }

  /** `ran[0]` when there is a single asset, else the array itself. */
  function Squeeze(t: Tensor, o: nat): (r: Draws)
    requires |t| == o
    ensures r.Plane? <==> o == 1
    ensures r.Plane? ==> r.plane == t[0]
    ensures r.Cube? ==> r.cube == t
  {
    if o == 1 then Plane(t[0]) else Cube(t)
  }

  /** `sn_random_numbers((o, n, p), antithetic, moment_matching)`. */
  function SnRandomNumbers(m: Analytic, o: nat, n: nat, p: nat, antithetic: bool, momentMatching: bool,
                           normal: (int, int, int) -> real): Result<Draws>
  {
    var raw := Raw(o, n, p, antithetic, normal);
    var ran :- if momentMatching then MomentMatch(m, raw) else Ok(raw);
    if |ran| == o then Ok(Squeeze(ran, o)) else Err(ShapeMismatch)
  }

  // Shape

  /** The number of paths actually produced: `2 * (p / 2)` with antithetic
      variates, which drops one path when `p` is odd. */
  function PathCount(p: nat, antithetic: bool): (q: nat)
    ensures antithetic ==> q <= p && p - q <= 1 && q % 2 == 0
    ensures !antithetic ==> q == p
  {
    if antithetic then 2 * (p / 2) else p
  }

  lemma RawShape(o: nat, n: nat, p: nat, antithetic: bool, normal: (int, int, int) -> real)
    ensures HasShape(Raw(o, n, p, antithetic, normal), o, n, PathCount(p, antithetic))
  {
  }

  lemma EachTensorShape(f: real -> real, t: Tensor, o: nat, n: nat, p: nat)
    requires HasShape(t, o, n, p)
    ensures HasShape(EachTensor(f, t), o, n, p)
  {
  }

  lemma MomentMatchShape(m: Analytic, t: Tensor, o: nat, n: nat, p: nat)
    requires HasShape(t, o, n, p)
    requires MomentMatch(m, t).Ok?
    ensures HasShape(MomentMatch(m, t).value, o, n, p)
  {
    if |Flatten(t)| > 0 {
      var mu := Mean(Flatten(t));
      EachTensorShape(Less(mu), t, o, n, p);
      var c := Center(t);
      if |Flatten(c)| > 0 {
        var s := Std(m, Flatten(c));
        EachTensorShape(Over(s), c, o, n, p);
      }
    }
  }

  /** A successful call returns an array of `o` assets, `n` steps and
      `PathCount(p, antithetic)` paths, squeezed to a plane exactly when
      `o == 1`. */
  lemma SnRandomNumbersShape(m: Analytic, o: nat, n: nat, p: nat, antithetic: bool, momentMatching: bool,
                             normal: (int, int, int) -> real)
    requires SnRandomNumbers(m, o, n, p, antithetic, momentMatching, normal).Ok?
    ensures var r := SnRandomNumbers(m, o, n, p, antithetic, momentMatching, normal).value;
      && (r.Plane? <==> o == 1)
      && (r.Plane? ==> |r.plane| == n && forall b :: 0 <= b < n ==> |r.plane[b]| == PathCount(p, antithetic))
      && (r.Cube? ==> HasShape(r.cube, o, n, PathCount(p, antithetic)))
  {
    var raw := Raw(o, n, p, antithetic, normal);
    RawShape(o, n, p, antithetic, normal);
    if momentMatching {
      MomentMatchShape(m, raw, o, n, PathCount(p, antithetic));
    }
  }

  /** Without moment matching every call returns a result. */
  lemma SnRandomNumbersTotal(m: Analytic, o: nat, n: nat, p: nat, antithetic: bool, normal: (int, int, int) -> real)
    ensures SnRandomNumbers(m, o, n, p, antithetic, false, normal).Ok?
  {
    RawShape(o, n, p, antithetic, normal);
  }

  // Antithetic symmetry

  /** A row of even length whose second half negates its first half. */
  ghost predicate MirroredRow(row: seq<real>) {
    && |row| % 2 == 0
    && forall j :: 0 <= j < |row| / 2 ==> row[|row| / 2 + j] == -row[j]
  }

  /** Path `p/2 + j` is the negation of path `j`, for every asset and step. */
  ghost predicate Antithetic(t: Tensor) {
    forall a, b :: 0 <= a < |t| && 0 <= b < |t[a]| ==> MirroredRow(t[a][b])
  }

  lemma MirrorAntithetic(t: Tensor)
    ensures Antithetic(Mirror(t))
  {
    var r := Mirror(t);
    forall a, b | 0 <= a < |r| && 0 <= b < |r[a]| ensures MirroredRow(r[a][b]) {
      var h := |t[a][b]|;
      assert |r[a][b]| == 2 * h;
      forall j | 0 <= j < h ensures r[a][b][h + j] == -r[a][b][j] {
        assert r[a][b][h + j] == Negate(t[a][b])[j];
      }
    }
  }

  /** With antithetic variates and no moment matching, path `j + p/2` of the
      result is the negation of path `j`. */
  lemma AntitheticWithoutMatching(m: Analytic, o: nat, n: nat, p: nat, normal: (int, int, int) -> real)
    ensures Antithetic(Raw(o, n, p, true, normal))
    ensures SnRandomNumbers(m, o, n, p, true, false, normal) == Ok(Squeeze(Raw(o, n, p, true, normal), o))
  {
    MirrorAntithetic(Fresh(o, n, p / 2, normal));
  }

  // Sums

  lemma {:induction false} SumNegate(s: seq<real>)
    ensures Sum(Negate(s)) == -Sum(s)
  {
    if |s| > 0 {
      assert Negate(s)[1..] == Negate(s[1..]);
      SumNegate(s[1..]);
    }
  }

  ghost predicate RowsSumToZero(t: Tensor) {
    forall a, b :: 0 <= a < |t| && 0 <= b < |t[a]| ==> Sum(t[a][b]) == 0.0
  }

  lemma {:induction false} PlaneSumZero(p: seq<seq<real>>)
    requires forall b :: 0 <= b < |p| ==> Sum(p[b]) == 0.0
    ensures Sum(FlattenPlane(p)) == 0.0
  {
    if |p| > 0 {
      PlaneSumZero(p[1..]);
      SumAppend(p[0], FlattenPlane(p[1..]));
    }
  }

  lemma {:induction false} TensorSumZero(t: Tensor)
    requires RowsSumToZero(t)
    ensures Sum(Flatten(t)) == 0.0
  {
    if |t| > 0 {
      PlaneSumZero(t[0]);
      assert RowsSumToZero(t[1..]) by {
        forall a, b | 0 <= a < |t[1..]| && 0 <= b < |t[1..][a]| ensures Sum(t[1..][a][b]) == 0.0 {
          assert t[1..][a] == t[a + 1];
        }
      }
      TensorSumZero(t[1..]);
      SumAppend(FlattenPlane(t[0]), Flatten(t[1..]));
    }
  }

  /** A mirrored array sums to exactly zero. */
  lemma MirrorSumZero(t: Tensor)
    ensures Sum(Flatten(Mirror(t))) == 0.0
  {
    var r := Mirror(t);
    forall a, b | 0 <= a < |r| && 0 <= b < |r[a]| ensures Sum(r[a][b]) == 0.0 {
      SumAppend(t[a][b], Negate(t[a][b]));
      SumNegate(t[a][b]);
    }
    TensorSumZero(r);
  }

  lemma {:induction false} EachAppend(f: real -> real, s: seq<real>, u: seq<real>)
    ensures Each(f, s + u) == Each(f, s) + Each(f, u)
  {
  }

  lemma {:induction false} FlattenPlaneEach(f: real -> real, p: seq<seq<real>>)
    ensures FlattenPlane(seq(|p|, b requires 0 <= b < |p| => Each(f, p[b]))) == Each(f, FlattenPlane(p))
  {
    var q := seq(|p|, b requires 0 <= b < |p| => Each(f, p[b]));
    if |p| > 0 {
      var q' := seq(|p[1..]|, b requires 0 <= b < |p[1..]| => Each(f, p[1..][b]));
      assert q[1..] == q';
      FlattenPlaneEach(f, p[1..]);
      EachAppend(f, p[0], FlattenPlane(p[1..]));
    }
  }

  /** Flattening commutes with applying `f` to every element. */
  lemma {:induction false} FlattenEach(f: real -> real, t: Tensor)
    ensures Flatten(EachTensor(f, t)) == Each(f, Flatten(t))
  {
    if |t| > 0 {
      var r := EachTensor(f, t);
      assert r[1..] == EachTensor(f, t[1..]);
      assert r[0] == seq(|t[0]|, b requires 0 <= b < |t[0]| => Each(f, t[0][b]));
      FlattenPlaneEach(f, t[0]);
      FlattenEach(f, t[1..]);
      EachAppend(f, FlattenPlane(t[0]), Flatten(t[1..]));
    }
  }

  lemma {:induction false} SumMinus(s: seq<real>, c: real)
    ensures Sum(Each(Less(c), s)) == Sum(s) - |s| as real * c
  {
    if |s| > 0 {
      assert Each(Less(c), s)[1..] == Each(Less(c), s[1..]);
      SumMinus(s[1..], c);
    }
  }

  lemma {:induction false} SumDivide(s: seq<real>, d: real)
    requires d != 0.0
    ensures Sum(Each(Over(d), s)) == Sum(s) / d
  {
    if |s| > 0 {
      assert Each(Over(d), s)[1..] == Each(Over(d), s[1..]);
      SumDivide(s[1..], d);
      assert s[0] / d + Sum(s[1..]) / d == (s[0] + Sum(s[1..])) / d;
    }
  }

  // Moment matching

  /** After centring, the entries sum, and so average, to exactly zero. */
  lemma CenteredSumZero(t: Tensor)
    ensures Sum(Flatten(Center(t))) == 0.0
    ensures |Flatten(Center(t))| == |Flatten(t)|
  {
    var xs := Flatten(t);
    if |xs| > 0 {
      var mu := Mean(xs);
      assert Center(t) == EachTensor(Less(mu), t);
      ShiftedSumZero(t, xs, mu);
    }
  }

  /** Subtracting the mean of all entries from each entry leaves entries
      that sum to zero. */
  lemma ShiftedSumZero(t: Tensor, xs: seq<real>, mu: real)
    requires xs == Flatten(t) && |xs| > 0
    requires mu == Mean(xs)
    ensures Sum(Flatten(EachTensor(Less(mu), t))) == 0.0
    ensures |Flatten(EachTensor(Less(mu), t))| == |xs|
  {
    FlattenEach(Less(mu), t);
    SumMinus(xs, mu);
    ZeroAfterCentering(Sum(xs), |xs| as real, mu, Sum(Each(Less(mu), xs)));
  }

  /** Subtracting the mean from each of `n` entries removes their total. */
  lemma ZeroAfterCentering(total: real, n: real, mu: real, centered: real)
    requires n > 0.0
    requires mu == total / n
    requires centered == total - n * mu
    ensures centered == 0.0
  {
  }

  /** A moment-matched array has global mean exactly zero over the reals. */
  lemma MomentMatchedSumZero(m: Analytic, t: Tensor)
    requires MomentMatch(m, t).Ok?
    ensures Sum(Flatten(MomentMatch(m, t).value)) == 0.0
  {
    var c := Center(t);
    CenteredSumZero(t);
    var xs := Flatten(c);
    if |xs| > 0 {
      var s := Std(m, xs);
      FlattenEach(Over(s), c);
      SumDivide(xs, s);
    }
  }

  /** Centring an array whose entries already sum to zero changes nothing. */
  lemma CenterOfZeroSum(t: Tensor)
    requires Sum(Flatten(t)) == 0.0
    ensures Center(t) == t
  {
    var xs := Flatten(t);
    if |xs| > 0 {
      var c := Center(t);
      assert Mean(xs) == 0.0;
      forall a, b | 0 <= a < |t| && 0 <= b < |t[a]| ensures c[a][b] == t[a][b] {
        assert Each(Less(0.0), t[a][b]) == t[a][b];
      }
      assert forall a | 0 <= a < |t| :: c[a] == t[a];
    }
  }

  /** Dividing every entry by one common number keeps the antithetic symmetry. */
  lemma DivideKeepsAntithetic(t: Tensor, s: real)
    requires Antithetic(t)
    requires s != 0.0
    ensures Antithetic(EachTensor(Over(s), t))
  {
    var r := EachTensor(Over(s), t);
    forall a, b | 0 <= a < |r| && 0 <= b < |r[a]| ensures MirroredRow(r[a][b]) {
      var row := t[a][b];
      var h := |row| / 2;
      assert MirroredRow(row);
      forall j | 0 <= j < h ensures r[a][b][h + j] == -r[a][b][j] {
        assert row[h + j] == -row[j];
        assert r[a][b][h + j] == row[h + j] / s;
        assert r[a][b][j] == row[j] / s;
      }
    }
  }

  /** With antithetic variates and moment matching the symmetry survives: the
      mirrored draws already have mean zero, so centring subtracts nothing, and
      scaling divides every entry by the same number. */
  lemma AntitheticWithMatching(m: Analytic, o: nat, n: nat, p: nat, normal: (int, int, int) -> real)
    requires MomentMatch(m, Raw(o, n, p, true, normal)).Ok?
    ensures Antithetic(MomentMatch(m, Raw(o, n, p, true, normal)).value)
  {
    var raw := Raw(o, n, p, true, normal);
    MirrorAntithetic(Fresh(o, n, p / 2, normal));
    MirrorSumZero(Fresh(o, n, p / 2, normal));
    CenterOfZeroSum(raw);
    var xs := Flatten(raw);
    if |xs| > 0 {
      DivideKeepsAntithetic(raw, Std(m, xs));
    }
  }
}

=== FILE: real_math.dfy ===
/** Real arithmetic the simulation and valuation code rely on.

    numpy's `exp` and `sqrt` are foreign: the model passes them around as a
    record of two functions and states, in `Lawful`, the only facts about them
    that any proof uses. Aggregates over a sequence of reals (`np.sum`,
    `np.mean`, `np.amax`, `np.amin`) are defined here once.
 */
module RealMath {

  /** The transcendental functions, supplied by the caller. */
  datatype Analytic = Analytic(exp: real -> real, sqrt: real -> real)

  /** The laws of `exp` and `sqrt` the proofs are allowed to use. */
  ghost predicate Lawful(m: Analytic) {
    && m.exp(0.0) == 1.0
    && (forall x :: m.exp(x) > 0.0)
    && (forall x, y :: x < y ==> m.exp(x) < m.exp(y))
    && (forall x :: x >= 0.0 ==> m.sqrt(x) >= 0.0)
  }

  lemma ExpMonotone(m: Analytic, x: real, y: real)
    requires Lawful(m)
    requires x <= y
    ensures m.exp(x) <= m.exp(y)
  {
    if x < y {
      assert m.exp(x) < m.exp(y);
    }
  }

  /** exp of a non-positive number is at most one. */
  lemma ExpAtMostOne(m: Analytic, x: real)
    requires Lawful(m)
    requires x <= 0.0
    ensures 0.0 < m.exp(x) <= 1.0
  {
    ExpMonotone(m, x, 0.0);
  }

  /** Multiplying by a non-negative number keeps the order. */
  lemma MulMonotone(c: real, a: real, b: real)
    requires c >= 0.0
    requires a <= b
    ensures c * a <= c * b
  {
    assert c * b - c * a == c * (b - a);
  }

  /** Continuous compounding at `rate` over `t` years: `exp(rate * t)`. A
      discount factor is `Compound(m, r, -t)`. */
  function Compound(m: Analytic, rate: real, t: real): real {
    m.exp(rate * t)
  }

  lemma CompoundPositive(m: Analytic, rate: real, t: real)
    requires Lawful(m)
    ensures Compound(m, rate, t) > 0.0
  {
  }

  /** Compounding over no time gives one. */
  lemma CompoundAtZero(m: Analytic, rate: real)
    requires Lawful(m)
    ensures Compound(m, rate, 0.0) == 1.0
  {
    var x := rate * 0.0;
    assert x == 0.0;
  }

  /** At a non-negative rate, compounding over a longer time gives more. */
  lemma CompoundMonotone(m: Analytic, rate: real, a: real, b: real)
    requires Lawful(m)
    requires rate >= 0.0
    requires a <= b
    ensures Compound(m, rate, a) <= Compound(m, rate, b)
  {
    var x := rate * a;
    var y := rate * b;
    MulMonotone(rate, a, b);
    ExpMonotone(m, x, y);
  }

  /** At a non-negative rate, discounting over a non-negative time gives a
      factor in (0, 1]. */
  lemma CompoundAtMostOne(m: Analytic, rate: real, t: real)
    requires Lawful(m)
    requires rate >= 0.0
    requires t <= 0.0
    ensures 0.0 < Compound(m, rate, t) <= 1.0
  {
    CompoundMonotone(m, rate, t, 0.0);
    CompoundAtZero(m, rate);
  }

  /** Compounding equals `exp` of any expression that equals `rate * t`. */
  lemma CompoundIs(m: Analytic, rate: real, t: real, x: real)
    requires rate * t == x
    ensures Compound(m, rate, t) == m.exp(x)
  {
  }

  function Max(a: real, b: real): real {
    if a >= b then a else b
  }

  function Min(a: real, b: real): real {
    if a <= b then a else b
  }

  /** `np.sum` over reals (the order of additions is immaterial over reals). */
  function Sum(s: seq<real>): real {
    if |s| == 0 then 0.0 else s[0] + Sum(s[1..])
  }

  /** `np.mean`; numpy returns nan for an empty array, so callers check `|s| > 0`. */
  function Mean(s: seq<real>): real
    requires |s| > 0
  {
    Sum(s) / |s| as real
  }

  /** The largest entry (`np.amax`), defined only for a non-empty sequence. */
  function MaxOf(s: seq<real>): (r: real)
    requires |s| > 0
    ensures r in s
    ensures forall i :: 0 <= i < |s| ==> s[i] <= r
  {
    if |s| == 1 then s[0] else Max(s[0], MaxOf(s[1..]))
  }

  /** The smallest entry (`np.amin`), defined only for a non-empty sequence. */
  function MinOf(s: seq<real>): (r: real)
    requires |s| > 0
    ensures r in s
    ensures forall i :: 0 <= i < |s| ==> r <= s[i]
  {
    if |s| == 1 then s[0] else Min(s[0], MinOf(s[1..]))
  }

  /** `n` copies of `v` (a row filled by broadcasting). */
  function Fill(n: nat, v: real): (r: seq<real>)
    ensures |r| == n
    ensures forall i :: 0 <= i < n ==> r[i] == v
  {
    seq(n, _ => v)
  }

  /** `c * s`, element-wise. */
  function Scale(c: real, s: seq<real>): (r: seq<real>)
    ensures |r| == |s|
  {
    seq(|s|, i requires 0 <= i < |s| => c * s[i])
  }

  lemma ScaleAt(c: real, s: seq<real>, i: int)
    requires 0 <= i < |s|
    ensures Scale(c, s)[i] == c * s[i]
  {
  }

  /** `s - c`, element-wise. */
  function Shift(s: seq<real>, c: real): (r: seq<real>)
    ensures |r| == |s|
  {
    seq(|s|, i requires 0 <= i < |s| => s[i] - c)
  }

  lemma {:induction false} SumAppend(a: seq<real>, b: seq<real>)
    ensures Sum(a + b) == Sum(a) + Sum(b)
  {
    if |a| == 0 {
      assert a + b == b;
    } else {
      assert (a + b)[1..] == a[1..] + b;
      SumAppend(a[1..], b);
    }
  }

  lemma {:induction false} SumScale(c: real, s: seq<real>)
    ensures Sum(Scale(c, s)) == c * Sum(s)
  {
    if |s| > 0 {
      forall i | 0 <= i < |s| - 1
        ensures Scale(c, s)[1..][i] == Scale(c, s[1..])[i]
      {
        assert Scale(c, s)[1..][i] == c * s[i + 1];
      }
      assert Scale(c, s)[1..] == Scale(c, s[1..]);
      SumScale(c, s[1..]);
    }
  }

  lemma {:induction false} SumShift(s: seq<real>, c: real)
    ensures Sum(Shift(s, c)) == Sum(s) - |s| as real * c
  {
    if |s| > 0 {
      assert Shift(s, c)[1..] == Shift(s[1..], c);
      SumShift(s[1..], c);
    }
  }

  lemma {:induction false} SumNonNegative(s: seq<real>)
    requires forall i :: 0 <= i < |s| ==> s[i] >= 0.0
    ensures Sum(s) >= 0.0
  {
    if |s| > 0 {
      SumNonNegative(s[1..]);
    }
  }
}

=== FILE: shocks.dfy ===
/** The standard normal shocks a simulation step consumes.

    A stand-alone simulator draws its own plane of shocks (`rand[t]` is the row
    of step `t`). In a portfolio the simulators share one draw tensor with a
    row per risk factor and correlate it through the Cholesky factor of the
    correlation matrix: the shock of step `t` is row `rn_set` of
    `cholesky . rand[:, t, :]`.
 */
module Shocks {
  import opened Wrappers
  import opened RealMath
  import opened RandomNumbers

  /** A two-dimensional array indexed `[row][column]`. */
  type Matrix = seq<seq<real>>

  ghost predicate IsMatrix(a: Matrix, rows: nat, cols: nat) {
    |a| == rows && forall t :: 0 <= t < rows ==> |a[t]| == cols
  }

  /** The inner product of two vectors of equal length. */
  function Dot(a: seq<real>, b: seq<real>): real
    requires |a| == |b|
  {
    if |a| == 0 then 0.0 else a[0] * b[0] + Dot(a[1..], b[1..])
  }

  /** The correlation context a portfolio hands each of its simulators. */
  datatype Correlation = Correlation(cholesky: Matrix, rnSet: nat, randomNumbers: Tensor)

  /** The shapes `np.dot(cholesky, rand[:, t, :])` needs for steps `1 .. steps-1`,
      and a valid `rn_set` row. */
  predicate CorrelationFits(c: Correlation, steps: nat, paths: nat) {
    var n := |c.randomNumbers|;
    && c.rnSet < |c.cholesky|
    && (forall j :: 0 <= j < |c.cholesky| ==> |c.cholesky[j]| == n)
    && (forall k :: 0 <= k < n ==> |c.randomNumbers[k]| >= steps)
    && (forall k, t :: 0 <= k < n && 1 <= t < steps ==> |c.randomNumbers[k][t]| == paths)
  }

  /** `rand[:, t, i]`: the draws of every risk factor for step `t` and path `i`. */
  function Across(tensor: Tensor, t: nat, i: nat): (v: seq<real>)
    requires forall k :: 0 <= k < |tensor| ==> t < |tensor[k]| && i < |tensor[k][t]|
    ensures |v| == |tensor|
    ensures forall k :: 0 <= k < |tensor| ==> v[k] == tensor[k][t][i]
  {
    seq(|tensor|, k requires 0 <= k < |tensor| => tensor[k][t][i])
  }

  /** Row `rn_set` of `cholesky . rand[:, t, :]`. */
  function CorrelatedRow(c: Correlation, t: nat, paths: nat): (row: seq<real>)
    requires CorrelationFits(c, t + 1, paths)
    requires t >= 1
    ensures |row| == paths
    ensures forall i :: 0 <= i < paths ==> row[i] == Dot(c.cholesky[c.rnSet], Across(c.randomNumbers, t, i))
  {
    seq(paths, i requires 0 <= i < paths => Dot(c.cholesky[c.rnSet], Across(c.randomNumbers, t, i)))
  }

  /** The shocks of steps `0 .. steps-1`, one row of `paths` per step. Row 0 is
      never read by a path recursion; in the correlated case it is zero. A
      private plane of the wrong shape cannot be broadcast and is an error. */
  function ShockMatrix(corr: Option<Correlation>, plane: Matrix, steps: nat, paths: nat): (r: Result<Matrix>)
    ensures r.Ok? ==> IsMatrix(r.value, steps, paths)
    ensures corr.None? ==> (r.Ok? <==> IsMatrix(plane, steps, paths))
    ensures corr.None? && r.Ok? ==> r.value == plane
    ensures corr.Some? ==> (r.Ok? <==> CorrelationFits(corr.value, steps, paths))
    ensures corr.Some? && r.Ok? ==> forall t :: 1 <= t < steps ==> r.value[t] == CorrelatedRow(corr.value, t, paths)
  {
    match corr
    case None =>
      if |plane| == steps && forall t :: 0 <= t < steps ==> |plane[t]| == paths then Ok(plane) else Err(ShapeMismatch)
    case Some(c) =>
      if CorrelationFits(c, steps, paths) then
        Ok(seq(steps, t requires 0 <= t < steps => if t == 0 then Fill(paths, 0.0) else CorrelatedRow(c, t, paths)))
      else Err(ShapeMismatch)
  }

  /** A `steps x paths` matrix of zeros: the shocks of a grid with fewer than
      two dates, whose path recursion never reads one. */
  function Zeros(steps: nat, paths: nat): (z: Matrix)
    ensures IsMatrix(z, steps, paths)
  {
    seq(steps, t => Fill(paths, 0.0))
  }

  /** The `j`-th unit vector of length `n`. */
  function Unit(n: nat, j: nat): (e: seq<real>)
    ensures |e| == n
    ensures forall k :: 0 <= k < n ==> e[k] == (if k == j then 1.0 else 0.0)
  {
    seq(n, k => if k == j then 1.0 else 0.0)
  }

  /** The inner product with a unit vector picks one entry. */
  lemma {:induction false} DotUnit(n: nat, j: nat, v: seq<real>)
    requires j < n == |v|
    ensures Dot(Unit(n, j), v) == v[j]
  {
    var e := Unit(n, j);
    if j == 0 {
      DotZero(e[1..], v[1..]);
    } else {
      assert e[1..] == Unit(n - 1, j - 1);
      DotUnit(n - 1, j - 1, v[1..]);
    }
  }

  lemma {:induction false} DotZero(a: seq<real>, v: seq<real>)
    requires |a| == |v|
    requires forall k :: 0 <= k < |a| ==> a[k] == 0.0
    ensures Dot(a, v) == 0.0
  {
    if |a| > 0 {
      DotZero(a[1..], v[1..]);
    }
  }

  /** When the Cholesky row of the simulator is a unit vector (uncorrelated
      risk factors) its shock is its own row of the shared draws. */
  lemma UncorrelatedRow(c: Correlation, t: nat, paths: nat)
    requires CorrelationFits(c, t + 1, paths)
    requires t >= 1
    requires c.cholesky[c.rnSet] == Unit(|c.randomNumbers|, c.rnSet)
    requires c.rnSet < |c.randomNumbers|
    ensures CorrelatedRow(c, t, paths) == c.randomNumbers[c.rnSet][t]
  {
    var row := CorrelatedRow(c, t, paths);
    forall i | 0 <= i < paths ensures row[i] == c.randomNumbers[c.rnSet][t][i] {
      DotUnit(|c.randomNumbers|, c.rnSet, Across(c.randomNumbers, t, i));
    }
  }
}

=== FILE: simulation.dfy ===
/** The simulator object shared by the three models (`simulation_class` and the
    `update` / `generate_paths` methods of its subclasses).

    A simulator is an immutable record here: every operation that changes the
    Python object returns the new record. `instrumentValues` is the path cache;
    `None` means it must be regenerated. `pd.date_range` and the random number
    generator are inputs: `DateRange` and `Noise`.
 */
module Simulation {
  import opened Wrappers
  import opened RealMath
  import opened YearDeltas
  import opened Shocks
  import opened RandomNumbers
  import opened TimeGrid
  import Gbm = GeometricBrownianMotion
  import Jd = JumpDiffusion
  import Srd = SquareRootDiffusion

  /** The simulation class and its model-specific parameters. */
  datatype Model =
    | GeometricBrownian
    | Jumping(jumps: Jd.Jumps)
    | MeanReverting(reversion: Srd.Reversion)

  datatype Simulator = Simulator(
    name: string,
    model: Model,
    pricingDate: Date,
    initialValue: real,
    volatility: real,
    finalDate: Date,
    currency: string,
    frequency: string,
    paths: nat,
    shortRate: real,
    timeGrid: Option<seq<Date>>,
    specialDates: seq<Date>,
    instrumentValues: Option<Matrix>,
    correlation: Option<Correlation>)

  /** `pd.date_range(start, end, freq)`. */
  type DateRange = (Date, Date, string) -> seq<Date>

  /** What the random number generator would hand out: the normals behind the
      diffusion shocks and the jump sizes, and the Poisson jump counts. */
  datatype Noise = Noise(normal: (int, int, int) -> real, jumpNormal: (int, int, int) -> real, poisson: (int, int) -> nat)

  /** A freshly constructed simulator has an empty path cache. */
  function NewSimulator(name: string, model: Model, pricingDate: Date, initialValue: real, volatility: real,
                        finalDate: Date, currency: string, frequency: string, paths: nat, shortRate: real,
                        timeGrid: Option<seq<Date>>, specialDates: seq<Date>, correlation: Option<Correlation>): (s: Simulator)
    ensures s.instrumentValues.None?
    ensures s.name == name && s.model == model && s.initialValue == initialValue && s.volatility == volatility
    ensures s.pricingDate == pricingDate && s.finalDate == finalDate && s.paths == paths
    ensures s.timeGrid == timeGrid && s.specialDates == specialDates && s.correlation == correlation
  {
    Simulator(name, model, pricingDate, initialValue, volatility, finalDate, currency, frequency, paths, shortRate,
              timeGrid, specialDates, None, correlation)
  }

  /** `opt if opt is not None else v`. */
  function Given<T>(opt: Option<T>, v: T): (r: T)
    ensures opt.Some? ==> r == opt.value
    ensures opt.None? ==> r == v
  {
    if opt.Some? then opt.value else v
  }

  /** The `update` every model has: overwrites the arguments that are given
      and always empties the path cache. */
  function Update(s: Simulator, initialValue: Option<real>, volatility: Option<real>, finalDate: Option<Date>): (r: Simulator)
    ensures r.instrumentValues.None?
    ensures initialValue.Some? ==> r.initialValue == initialValue.value
    ensures initialValue.None? ==> r.initialValue == s.initialValue
    ensures volatility.Some? ==> r.volatility == volatility.value
    ensures volatility.None? ==> r.volatility == s.volatility
    ensures finalDate.Some? ==> r.finalDate == finalDate.value
    ensures finalDate.None? ==> r.finalDate == s.finalDate
    ensures r == s.(initialValue := r.initialValue, volatility := r.volatility, finalDate := r.finalDate,
                    instrumentValues := None)
  {
    s.(initialValue := Given(initialValue, s.initialValue),
       volatility := Given(volatility, s.volatility),
       finalDate := Given(finalDate, s.finalDate),
       instrumentValues := None)
  }

  /** `jump_diffusion.update`: the common arguments and the jump parameters. */
  function UpdateJumping(s: Simulator, initialValue: Option<real>, volatility: Option<real>,
                         lambda: Option<real>, mu: Option<real>, delta: Option<real>, finalDate: Option<Date>): (r: Simulator)
    requires s.model.Jumping?
    ensures r.instrumentValues.None?
    ensures r.model.Jumping?
    ensures r.model.jumps.lambda == Given(lambda, s.model.jumps.lambda)
    ensures r.model.jumps.mu == Given(mu, s.model.jumps.mu)
    ensures r.model.jumps.delta == Given(delta, s.model.jumps.delta)
    ensures r == Update(s, initialValue, volatility, finalDate).(model := r.model)
  {
    var j := s.model.jumps;
    Update(s, initialValue, volatility, finalDate).(
      model := Jumping(Jd.Jumps(Given(lambda, j.lambda), Given(mu, j.mu), Given(delta, j.delta))))
  }

  /** `square_root_diffusion.update`: the common arguments and the reversion
      parameters. */
  function UpdateMeanReverting(s: Simulator, initialValue: Option<real>, volatility: Option<real>,
                               kappa: Option<real>, theta: Option<real>, finalDate: Option<Date>): (r: Simulator)
    requires s.model.MeanReverting?
    ensures r.instrumentValues.None?
    ensures r.model.MeanReverting?
    ensures r.model.reversion.kappa == Given(kappa, s.model.reversion.kappa)
    ensures r.model.reversion.theta == Given(theta, s.model.reversion.theta)
    ensures r == Update(s, initialValue, volatility, finalDate).(model := r.model)
  {
    var v := s.model.reversion;
    Update(s, initialValue, volatility, finalDate).(
      model := MeanReverting(Srd.Reversion(Given(kappa, v.kappa), Given(theta, v.theta))))
  }

  /** An update with no arguments still empties the cache and changes nothing else. */
  lemma EmptyUpdateOnlyClearsCache(s: Simulator)
    ensures Update(s, None, None, None) == s.(instrumentValues := None)
  {
  }

  /** The grid a simulation runs on: the stored one, or a freshly generated one. */
  function GridOf(s: Simulator, dateRange: DateRange): seq<Date> {
    if s.timeGrid.Some? then s.timeGrid.value
    else GenerateTimeGrid(s.pricingDate, s.finalDate, dateRange(s.pricingDate, s.finalDate, s.frequency), s.specialDates)
  }

  /** `sn_random_numbers((1, steps, paths))` with antithetic variates and moment
      matching: a plane, since the first dimension is one. */
  function PrivatePlane(m: Analytic, steps: nat, paths: nat, normal: (int, int, int) -> real): Result<Matrix> {
    var d :- SnRandomNumbers(m, 1, steps, paths, true, true, normal);
    if d.Plane? then Ok(d.plane) else Err(ShapeMismatch)
  }

  /** The Poisson jump counts, one row of `paths` per step. */
  function Counts(steps: nat, paths: nat, poisson: (int, int) -> nat): (c: seq<seq<nat>>)
    ensures Jd.IsCountMatrix(c, steps, paths)
  {
    seq(steps, t => seq(paths, i => poisson(t, i)))
  }

  /** The diffusion shocks of a simulation on `steps` dates. An uncorrelated
      simulator draws its own standard normal plane; a correlated one takes
      its shocks from the correlation and draws none. The path loops start at
      the second date, so with fewer than two dates no draw is ever indexed:
      whatever shape or values the draws have, they cannot fail the
      simulation there, and the model does not consult them. */
  function DiffusionShocks(m: Analytic, s: Simulator, steps: nat, normal: (int, int, int) -> real): (r: Result<Matrix>)
    ensures r.Ok? ==> IsMatrix(r.value, steps, s.paths)
  {
    if steps < 2 then Ok(Zeros(steps, s.paths))
    else if s.correlation.Some? then ShockMatrix(s.correlation, [], steps, s.paths)
    else (var plane :- PrivatePlane(m, steps, s.paths, normal);
          ShockMatrix(None, plane, steps, s.paths))
  }

  /** The jump model's second plane, for its jump sizes: always private, and
      likewise never indexed on fewer than two dates. */
  function JumpShocks(m: Analytic, steps: nat, paths: nat, jumpNormal: (int, int, int) -> real): (r: Result<Matrix>)
    ensures r.Ok? ==> IsMatrix(r.value, steps, paths)
  {
    if steps < 2 then Ok(Zeros(steps, paths))
    else
      var z2 :- PrivatePlane(m, steps, paths, jumpNormal);
      ShockMatrix(None, z2, steps, paths)
  }

  /** The path matrix of the simulator's model on `grid`. */
  function Simulate(m: Analytic, s: Simulator, grid: seq<Date>, dayCount: real, noise: Noise): (r: Result<Matrix>)
    requires dayCount != 0.0
    ensures r.Ok? ==> IsMatrix(r.value, |grid|, s.paths)
    ensures r.Ok? ==> |grid| > 0 && r.value[0] == Fill(s.paths, s.initialValue)
  {
    var steps := |grid|;
    var z :- DiffusionShocks(m, s, steps, noise.normal);
    match s.model
    case GeometricBrownian =>
      Gbm.Paths(m, s.initialValue, s.shortRate, s.volatility, grid, dayCount, z, s.paths)
    case Jumping(j) =>
      var z2 :- JumpShocks(m, steps, s.paths, noise.jumpNormal);
      Jd.Paths(m, s.initialValue, s.shortRate, s.volatility, j, grid, dayCount, z, z2,
               Counts(steps, s.paths, noise.poisson), s.paths)
    case MeanReverting(v) =>
      Srd.Paths(m, s.initialValue, v, s.volatility, grid, dayCount, z, s.paths)
  }

  /** A correlated simulator's paths do not depend on the private normal draws. */
  lemma CorrelatedIgnoresPrivateDraws(m: Analytic, s: Simulator, grid: seq<Date>, dayCount: real, noise: Noise,
                                      other: (int, int, int) -> real)
    requires dayCount != 0.0
    requires s.correlation.Some?
    ensures Simulate(m, s, grid, dayCount, noise) == Simulate(m, s, grid, dayCount, noise.(normal := other))
  {
    assert DiffusionShocks(m, s, |grid|, noise.normal) == DiffusionShocks(m, s, |grid|, other);
  }

  /** `generate_paths`: fills the grid if it was missing, then the cache.
      Nothing else about the simulator changes. */
  function GeneratePaths(m: Analytic, s: Simulator, dayCount: real, noise: Noise, dateRange: DateRange): (r: Result<Simulator>)
    ensures dayCount == 0.0 ==> r == Err(ZeroDivision)
    ensures r.Ok? ==> r.value.timeGrid == Some(GridOf(s, dateRange))
    ensures r.Ok? ==> s.timeGrid.Some? ==> r.value.timeGrid == s.timeGrid
    ensures r.Ok? ==> r.value.instrumentValues.Some?
    ensures r.Ok? ==> IsMatrix(r.value.instrumentValues.value, |GridOf(s, dateRange)|, s.paths)
    ensures r.Ok? ==> r.value == s.(timeGrid := r.value.timeGrid, instrumentValues := r.value.instrumentValues)
  {
    if dayCount == 0.0 then Err(ZeroDivision)
    else
      var grid := GridOf(s, dateRange);
      var values :- Simulate(m, s, grid, dayCount, noise);
      Ok(s.(timeGrid := Some(grid), instrumentValues := Some(values)))
  }

  /** The day count `get_instrument_values` simulates with. */
  const InstrumentDayCount: real := 365.0

  /** `get_instrument_values(fixed_seed)`: regenerates the paths when the cache
      is empty or the seed is not fixed, and otherwise hands back the cached
      matrix with the simulator unchanged. The cache is full afterwards. */
  function GetInstrumentValues(m: Analytic, s: Simulator, fixedSeed: bool, noise: Noise, dateRange: DateRange): (r: Result<(Simulator, Matrix)>)
    ensures r.Ok? ==> r.value.0.instrumentValues == Some(r.value.1)
    ensures s.instrumentValues.Some? && fixedSeed ==> r == Ok((s, s.instrumentValues.value))
    ensures s.instrumentValues.None? || !fixedSeed ==>
      (r.Ok? <==> GeneratePaths(m, s, InstrumentDayCount, noise, dateRange).Ok?)
    ensures (s.instrumentValues.None? || !fixedSeed) && r.Ok? ==>
      r.value.0 == GeneratePaths(m, s, InstrumentDayCount, noise, dateRange).value
  {
    if s.instrumentValues.None? || !fixedSeed then
      var s' :- GeneratePaths(m, s, InstrumentDayCount, noise, dateRange);
      Ok((s', s'.instrumentValues.value))
    else
      Ok((s, s.instrumentValues.value))
  }

  /** On a grid of at least two dates, an odd number of paths cannot be
      simulated with private draws: the antithetic draws have one path fewer
      than the paths matrix, and the first step reads them. */
  lemma OddPathsFail(m: Analytic, s: Simulator, grid: seq<Date>, dayCount: real, noise: Noise)
    requires dayCount != 0.0
    requires s.correlation.None?
    requires s.paths % 2 == 1
    requires |grid| >= 2
    ensures Simulate(m, s, grid, dayCount, noise).Err?
  {
    var steps := |grid|;
    var d := SnRandomNumbers(m, 1, steps, s.paths, true, true, noise.normal);
    if d.Ok? {
      SnRandomNumbersShape(m, 1, steps, s.paths, true, true, noise.normal);
      assert |d.value.plane[0]| == PathCount(s.paths, true) != s.paths;
    }
  }

  /** A one-date grid gives the single row of initial values, whatever the
      path count, the correlation or the draws: the path loop never runs. */
  lemma OneDateIsInitialRow(m: Analytic, s: Simulator, date: Date, dayCount: real, noise: Noise)
    requires dayCount != 0.0
    ensures Simulate(m, s, [date], dayCount, noise) == Ok([Fill(s.paths, s.initialValue)])
  {
    var z := Zeros(1, s.paths);
    match s.model
    case GeometricBrownian =>
    case Jumping(j) =>
      assert !Jd.NegativeMean(j, [date], dayCount);
      assert Simulate(m, s, [date], dayCount, noise)
          == Jd.Paths(m, s.initialValue, s.shortRate, s.volatility, j, [date], dayCount, z, z, Counts(1, s.paths, noise.poisson), s.paths);
    case MeanReverting(v) =>
      var p := Srd.Paths(m, s.initialValue, v, s.volatility, [date], dayCount, z, s.paths);
      assert Simulate(m, s, [date], dayCount, noise) == p;
      assert p.value == [p.value[0]];
  }
}

=== FILE: sorting.dfy ===
/** Sorting as the library uses it: `sorted(set(xs))` for dates and asset names
    (sort and drop duplicates) and `np.sort` for year fractions (sort, keep
    duplicates). Both are insertion sorts over a caller-supplied strict total
    order, so one definition serves integers, reals and strings.
 */
module Sorting {

  ghost predicate StrictTotalOrder<T(!new)>(less: (T, T) -> bool) {
    && (forall a :: !less(a, a))
    && (forall a, b, c :: less(a, b) && less(b, c) ==> less(a, c))
    && (forall a, b :: a != b ==> less(a, b) || less(b, a))
  }

  /** Strictly increasing: sorted and free of duplicates. */
  ghost predicate Increasing<T>(s: seq<T>, less: (T, T) -> bool) {
    forall i, j :: 0 <= i < j < |s| ==> less(s[i], s[j])
  }

  /** Non-decreasing: no later element is below an earlier one. */
  ghost predicate Sorted<T>(s: seq<T>, less: (T, T) -> bool) {
    forall i, j :: 0 <= i < j < |s| ==> !less(s[j], s[i])
  }

  predicate IntLess(a: int, b: int) {
    a < b
  }

  predicate RealLess(a: real, b: real) {
    a < b
  }

  /** Python's string comparison: code point by code point, a proper prefix first. */
  predicate StringLess(a: string, b: string) {
    if |a| == 0 then |b| > 0
    else if |b| == 0 then false
    else if a[0] < b[0] then true
    else if a[0] == b[0] then StringLess(a[1..], b[1..])
    else false
  }

  lemma IntLessIsStrictTotal()
    ensures StrictTotalOrder(IntLess)
  {
  }

  lemma RealLessIsStrictTotal()
    ensures StrictTotalOrder(RealLess)
  {
  }

  lemma {:induction false} StringLessIrreflexive(a: string)
    ensures !StringLess(a, a)
  {
    if |a| > 0 {
      StringLessIrreflexive(a[1..]);
    }
  }

  lemma {:induction false} StringLessTransitive(a: string, b: string, c: string)
    requires StringLess(a, b) && StringLess(b, c)
    ensures StringLess(a, c)
  {
    if |a| > 0 && |b| > 0 && |c| > 0 && a[0] == b[0] && b[0] == c[0] {
      StringLessTransitive(a[1..], b[1..], c[1..]);
    }
  }

  lemma {:induction false} StringLessTotal(a: string, b: string)
    requires a != b
    ensures StringLess(a, b) || StringLess(b, a)
  {
    if |a| > 0 && |b| > 0 && a[0] == b[0] {
      assert a == [a[0]] + a[1..] && b == [b[0]] + b[1..];
      StringLessTotal(a[1..], b[1..]);
    }
  }

  lemma StringLessIsStrictTotal()
    ensures StrictTotalOrder(StringLess)
  {
    forall a: string ensures !StringLess(a, a) {
      StringLessIrreflexive(a);
    }
    forall a: string, b: string, c: string | StringLess(a, b) && StringLess(b, c)
      ensures StringLess(a, c)
    {
      StringLessTransitive(a, b, c);
    }
    forall a: string, b: string | a != b
      ensures StringLess(a, b) || StringLess(b, a)
    {
      StringLessTotal(a, b);
    }
  }

  /** Adds `x` to a strictly increasing sequence unless it is already there. */
  function InsertUnique<T(==,!new)>(x: T, s: seq<T>, less: (T, T) -> bool): (r: seq<T>)
    requires StrictTotalOrder(less)
    requires Increasing(s, less)
    ensures Increasing(r, less)
    ensures forall y :: y in r <==> y in s || y == x
  {
    if |s| == 0 then [x]
    else if x == s[0] then s
    else if less(x, s[0]) then [x] + s
    else
      var tail := InsertUnique(x, s[1..], less);
      assert forall y :: y in tail ==> less(s[0], y);
      [s[0]] + tail
  }

  /** `sorted(set(xs))`: the distinct elements of `xs` in increasing order. */
  function SortUnique<T(==,!new)>(xs: seq<T>, less: (T, T) -> bool): (r: seq<T>)
    requires StrictTotalOrder(less)
    ensures Increasing(r, less)
    ensures forall y :: y in r <==> y in xs
  {
    if |xs| == 0 then []
    else
      var last := xs[|xs| - 1];
      var front := xs[..|xs| - 1];
      assert xs == front + [last];
      InsertUnique(last, SortUnique(front, less), less)
  }

  /** Non-decreasing sequence of reals. */
  ghost predicate NonDecreasing(s: seq<real>) {
    forall i, j :: 0 <= i < j < |s| ==> s[i] <= s[j]
  }

  /** Adds `x` to a non-decreasing sequence, keeping duplicates. */
  function Insert(x: real, s: seq<real>): (r: seq<real>)
    requires NonDecreasing(s)
    ensures NonDecreasing(r)
    ensures multiset(r) == multiset(s) + multiset{x}
  {
    if |s| == 0 then [x]
    else if s[0] < x then
      var tail := Insert(x, s[1..]);
      assert s == [s[0]] + s[1..];
      HeadBelowInserted(x, s, tail);
      [s[0]] + tail
    else
      [x] + s
  }

  /** The head of a non-decreasing sequence bounds what is left after it once
      a larger element is inserted. */
  lemma HeadBelowInserted(x: real, s: seq<real>, tail: seq<real>)
    requires NonDecreasing(s) && |s| > 0 && s[0] < x
    requires multiset(tail) == multiset(s[1..]) + multiset{x}
    ensures forall k :: 0 <= k < |tail| ==> s[0] <= tail[k]
  {
    forall k | 0 <= k < |tail| ensures s[0] <= tail[k] {
      assert tail[k] in multiset(tail);
      if tail[k] != x {
        assert tail[k] in multiset(s[1..]);
        var j :| 0 <= j < |s[1..]| && s[1..][j] == tail[k];
        assert s[j + 1] == tail[k];
      }
    }
  }

  /** `np.sort` on reals: the elements of `xs` in non-decreasing order. */
  function Sort(xs: seq<real>): (r: seq<real>)
    ensures NonDecreasing(r)
    ensures multiset(r) == multiset(xs)
    ensures |r| == |xs|
  {
    if |xs| == 0 then []
    else
      var front := xs[..|xs| - 1];
      assert xs == front + [xs[|xs| - 1]];
      var r := Insert(xs[|xs| - 1], Sort(front));
      assert |r| == |multiset(r)|;
      r
  }

  /** A non-decreasing arrangement of a multiset of reals is unique. */
  lemma {:induction false} SortedUnique(a: seq<real>, b: seq<real>)
    requires NonDecreasing(a) && NonDecreasing(b)
    requires multiset(a) == multiset(b)
    ensures a == b
  {
    if |a| == 0 {
      assert |multiset(b)| == 0;
    } else {
      assert |b| > 0 by {
        assert |multiset(b)| == |a|;
      }
      assert a[0] == b[0] by {
        HeadIsLeast(a, b[0]);
        HeadIsLeast(b, a[0]);
      }
      assert multiset(a[1..]) == multiset(b[1..]) by {
        DropHead(a);
        DropHead(b);
      }
      SortedUnique(a[1..], b[1..]);
      SameHeadAndTail(a, b);
    }
  }

  lemma SameHeadAndTail<T>(a: seq<T>, b: seq<T>)
    requires |a| > 0 && |b| > 0
    requires a[0] == b[0] && a[1..] == b[1..]
    ensures a == b
  {
    assert a == [a[0]] + a[1..] && b == [b[0]] + b[1..];
  }

  /** The head of a non-decreasing sequence is at most any of its elements. */
  lemma HeadIsLeast(s: seq<real>, x: real)
    requires NonDecreasing(s) && |s| > 0
    requires x in multiset(s)
    ensures s[0] <= x
  {
    var j :| 0 <= j < |s| && s[j] == x;
  }

  /** Dropping the head removes one copy of it from the multiset. */
  lemma DropHead<T>(s: seq<T>)
    requires |s| > 0
    ensures multiset(s[1..]) == multiset(s) - multiset{s[0]}
  {
    assert s == [s[0]] + s[1..];
  }

  /** The elements of `s` in reverse order. */
  function Reverse<T>(s: seq<T>): (r: seq<T>)
    ensures |r| == |s|
    ensures forall k :: 0 <= k < |s| ==> r[k] == s[|s| - 1 - k]
  {
    seq(|s|, k requires 0 <= k < |s| => s[|s| - 1 - k])
  }

  lemma {:induction false} ReverseMultiset<T>(s: seq<T>)
    ensures multiset(Reverse(s)) == multiset(s)
  {
    if |s| > 0 {
      var front := s[..|s| - 1];
      assert s == front + [s[|s| - 1]];
      assert Reverse(s) == [s[|s| - 1]] + Reverse(front);
      ReverseMultiset(front);
    }
  }
}

=== FILE: square_root_diffusion.dfy ===
/** The square-root diffusion path recursion with full truncation
    (`square_root_diffusion.generate_paths`).

    The recursion runs on an internal array that is never clamped: only the
    drift and the diffusion of a step see `max(0, x)`. The reported array is
    the internal one clamped at zero from row 1 on; row 0 of both is the
    initial value as given.
 */
module SquareRootDiffusion {
  import opened Wrappers
  import opened RealMath
  import opened YearDeltas
  import opened Shocks
  import Gbm = GeometricBrownianMotion

  /** The mean-reversion parameters: speed and long-run level. */
  datatype Reversion = Reversion(kappa: real, theta: real)

  /** The diffusion term of one step for a path at internal value `x`. */
  function Diffusion(m: Analytic, x: real, sigma: real, dt: real, z: real): real {
    m.sqrt(Max(0.0, x)) * sigma * m.sqrt(dt) * z
  }

  /** One full-truncation Euler step of the internal array. */
  function Step(m: Analytic, prev: seq<real>, rev: Reversion, sigma: real, dt: real, z: seq<real>): (next: seq<real>)
    requires |z| == |prev|
    ensures |next| == |prev|
  {
    seq(|prev|, i requires 0 <= i < |prev| =>
      prev[i] + rev.kappa * (rev.theta - Max(0.0, prev[i])) * dt + Diffusion(m, prev[i], sigma, dt, z[i]))
  }

  /** The first `n` rows of the internal (unclamped) array `paths_`. */
  function Internal(m: Analytic, x0: real, rev: Reversion, sigma: real, grid: seq<Date>, dayCount: real,
                    z: Matrix, paths: nat, n: nat): (p: Matrix)
    requires dayCount != 0.0
    requires 1 <= n <= |grid|
    requires IsMatrix(z, |grid|, paths)
    ensures IsMatrix(p, n, paths)
    ensures p[0] == Fill(paths, x0)
    ensures forall t :: 1 <= t < n ==> p[t] == Step(m, p[t - 1], rev, sigma, Gbm.StepLength(grid, t, dayCount), z[t])
    decreases n
  {
    if n == 1 then [Fill(paths, x0)]
    else
      var q := Internal(m, x0, rev, sigma, grid, dayCount, z, paths, n - 1);
      q + [Step(m, q[n - 2], rev, sigma, Gbm.StepLength(grid, n - 1, dayCount), z[n - 1])]
  }

  /** `np.maximum(0, row)`. */
  function Clamp(row: seq<real>): (c: seq<real>)
    ensures |c| == |row|
    ensures forall i :: 0 <= i < |row| ==> c[i] >= 0.0 && c[i] >= row[i]
    ensures forall i :: 0 <= i < |row| ==> (c[i] == row[i] <==> row[i] >= 0.0)
  {
    seq(|row|, i requires 0 <= i < |row| => Max(0.0, row[i]))
  }

  /** The reported array: row 0 as given, every later row clamped at zero,
      so that only negative states change. */
  function Reported(internal: Matrix): (p: Matrix)
    ensures |p| == |internal|
    ensures |internal| > 0 ==> p[0] == internal[0]
    ensures forall t :: 1 <= t < |internal| ==> |p[t]| == |internal[t]|
    ensures forall t, i :: 1 <= t < |internal| && 0 <= i < |internal[t]| ==> p[t][i] >= 0.0 && p[t][i] >= internal[t][i]
    ensures forall t, i :: 1 <= t < |internal| && 0 <= i < |internal[t]| ==> (p[t][i] == internal[t][i] <==> internal[t][i] >= 0.0)
  {
    seq(|internal|, t requires 0 <= t < |internal| => if t == 0 then internal[0] else Clamp(internal[t]))
  }

  /** `generate_paths`: the reported `M x paths` matrix, or an error for an
      empty grid. A backward step makes `sqrt(dt)` nan, which
      `np.maximum(0, .)` keeps, so the matrix is reported as `NotANumber`. */
  function Paths(m: Analytic, x0: real, rev: Reversion, sigma: real, grid: seq<Date>, dayCount: real,
                 z: Matrix, paths: nat): (p: Result<Matrix>)
    requires dayCount != 0.0
    requires IsMatrix(z, |grid|, paths)
    ensures p.Ok? <==> |grid| > 0 && !Gbm.BackwardStep(grid, dayCount)
    ensures |grid| > 0 && Gbm.BackwardStep(grid, dayCount) ==> p == Err(NotANumber)
    ensures p.Ok? ==> IsMatrix(p.value, |grid|, paths)
    ensures p.Ok? ==> p.value[0] == Fill(paths, x0)
    ensures p.Ok? ==> forall t, i :: 1 <= t < |grid| && 0 <= i < paths ==> p.value[t][i] >= 0.0
  {
    if |grid| == 0 then Err(ShapeMismatch)
    else if Gbm.BackwardStep(grid, dayCount) then Err(NotANumber)
    else Ok(Reported(Internal(m, x0, rev, sigma, grid, dayCount, z, paths, |grid|)))
  }

  /** With zero volatility the diffusion term vanishes, so the shocks have no
      effect on the internal array. */
  lemma {:induction false} ZeroVolatilityIgnoresShocks(m: Analytic, x0: real, rev: Reversion, grid: seq<Date>, dayCount: real,
                                                       z: Matrix, z': Matrix, paths: nat, n: nat)
    requires dayCount != 0.0
    requires 1 <= n <= |grid|
    requires IsMatrix(z, |grid|, paths) && IsMatrix(z', |grid|, paths)
    ensures Internal(m, x0, rev, 0.0, grid, dayCount, z, paths, n) == Internal(m, x0, rev, 0.0, grid, dayCount, z', paths, n)
    decreases n
  {
    if n > 1 {
      ZeroVolatilityIgnoresShocks(m, x0, rev, grid, dayCount, z, z', paths, n - 1);
      var q := Internal(m, x0, rev, 0.0, grid, dayCount, z, paths, n - 1);
      var dt := Gbm.StepLength(grid, n - 1, dayCount);
      var a := Step(m, q[n - 2], rev, 0.0, dt, z[n - 1]);
      var b := Step(m, q[n - 2], rev, 0.0, dt, z'[n - 1]);
      forall i | 0 <= i < paths ensures a[i] == b[i] {
        assert Diffusion(m, q[n - 2][i], 0.0, dt, z[n - 1][i]) == 0.0;
        assert Diffusion(m, q[n - 2][i], 0.0, dt, z'[n - 1][i]) == 0.0;
      }
      assert a == b;
    }
  }

  /** With zero volatility the reported paths do not depend on the shocks. */
  lemma ZeroVolatilityPathsIgnoreShocks(m: Analytic, x0: real, rev: Reversion, grid: seq<Date>, dayCount: real,
                                        z: Matrix, z': Matrix, paths: nat)
    requires dayCount != 0.0
    requires IsMatrix(z, |grid|, paths) && IsMatrix(z', |grid|, paths)
    ensures Paths(m, x0, rev, 0.0, grid, dayCount, z, paths) == Paths(m, x0, rev, 0.0, grid, dayCount, z', paths)
  {
    if |grid| > 0 {
      ZeroVolatilityIgnoresShocks(m, x0, rev, grid, dayCount, z, z', paths, |grid|);
    }
  }

  /** A negative internal value is carried forward as it is: the next internal
      value starts from it, not from zero, while the reported value shows zero. */
  lemma NegativeStateCarried(m: Analytic, prev: seq<real>, rev: Reversion, sigma: real, dt: real, z: seq<real>, i: nat)
    requires |z| == |prev|
    requires i < |prev| && prev[i] < 0.0
    ensures Clamp(prev)[i] == 0.0
    ensures Step(m, prev, rev, sigma, dt, z)[i] == prev[i] + rev.kappa * rev.theta * dt + Diffusion(m, 0.0, sigma, dt, z[i])
  {
    assert Max(0.0, prev[i]) == Max(0.0, 0.0);
    assert rev.kappa * (rev.theta - 0.0) * dt == rev.kappa * rev.theta * dt;
  }
}

=== FILE: time_grid.dfy ===
/** The simulation time grid (`generate_time_grid`).

    `pd.date_range(start, end, freq)` is foreign: its output, the regular
    schedule, is an input, characterised by `RegularSchedule` as strictly
    increasing dates within `[start, end]`. The grid is the schedule with the
    start date put in front and the end date put at the back when they are
    missing; special dates, when there are any, are added and the whole list is
    deduplicated and sorted.
 */
module TimeGrid {
  import opened Sorting
  import opened YearDeltas

  /** What `pd.date_range` returns: strictly increasing dates within the bounds. */
  ghost predicate RegularSchedule(schedule: seq<Date>, start: Date, end: Date) {
    && Increasing(schedule, IntLess)
    && (forall k :: 0 <= k < |schedule| ==> start <= schedule[k] <= end)
  }

  /** The schedule with the start date in front unless it is already there. */
  function WithStart(schedule: seq<Date>, start: Date): seq<Date> {
    if start in schedule then schedule else [start] + schedule
  }

  /** The list with the end date at the back unless it is already there. */
  function WithEnd(grid: seq<Date>, end: Date): seq<Date> {
    if end in grid then grid else grid + [end]
  }

  function GenerateTimeGrid(start: Date, end: Date, schedule: seq<Date>, special: seq<Date>): (g: seq<Date>)
    ensures start in g && end in g
    ensures forall d :: d in special ==> d in g
    ensures forall d :: d in g <==> d in schedule || d == start || d == end || d in special
    ensures |special| > 0 ==> Increasing(g, IntLess)
  {
    var bounded := WithEnd(WithStart(schedule, start), end);
    if |special| > 0 then
      IntLessIsStrictTotal();
      SortUnique(bounded + special, IntLess)
    else
      bounded
  }

  /** Without special dates, a regular schedule between ordered bounds gives a
      strictly increasing grid that starts at the start date and ends at the
      end date. */
  lemma GridWithoutSpecialDatesIncreasing(start: Date, end: Date, schedule: seq<Date>)
    requires start <= end
    requires RegularSchedule(schedule, start, end)
    ensures Increasing(GenerateTimeGrid(start, end, schedule, []), IntLess)
    ensures GenerateTimeGrid(start, end, schedule, [])[0] == start
    ensures GenerateTimeGrid(start, end, schedule, [])[|GenerateTimeGrid(start, end, schedule, [])| - 1] == end
  {
    var s := WithStart(schedule, start);
    StartKeepsIncreasing(schedule, start, end);
    EndKeepsIncreasing(s, start, end);
    assert GenerateTimeGrid(start, end, schedule, []) == WithEnd(s, end);
  }

  /** Putting the start date in front of a regular schedule keeps it
      increasing and within the bounds. */
  lemma StartKeepsIncreasing(schedule: seq<Date>, start: Date, end: Date)
    requires start <= end
    requires RegularSchedule(schedule, start, end)
    ensures Increasing(WithStart(schedule, start), IntLess) && WithStart(schedule, start)[0] == start
    ensures forall k :: 0 <= k < |WithStart(schedule, start)| ==> start <= WithStart(schedule, start)[k] <= end
  {
    if start !in schedule {
      forall k | 0 <= k < |schedule| ensures start < schedule[k] {
        assert schedule[k] != start;
      }
    } else {
      var j :| 0 <= j < |schedule| && schedule[j] == start;
      assert schedule[0] <= schedule[j];
    }
  }

  /** Putting the end date at the back of an increasing list within the
      bounds keeps it increasing, with the start in front and the end last. */
  lemma EndKeepsIncreasing(s: seq<Date>, start: Date, end: Date)
    requires Increasing(s, IntLess) && |s| > 0 && s[0] == start
    requires forall k :: 0 <= k < |s| ==> start <= s[k] <= end
    ensures Increasing(WithEnd(s, end), IntLess)
    ensures WithEnd(s, end)[0] == start && WithEnd(s, end)[|WithEnd(s, end)| - 1] == end
  {
    if end !in s {
      forall k | 0 <= k < |s| ensures s[k] < end {
        assert s[k] != end;
      }
    } else {
      assert forall k :: 0 <= k < |s| - 1 ==> s[k] < s[|s| - 1];
    }
  }

  /** Bounds in the wrong order are not rejected: with no schedule dates between
      them the grid is the start date followed by the earlier end date. */
  lemma ReversedBoundsAccepted(start: Date, end: Date)
    requires end < start
    ensures GenerateTimeGrid(start, end, [], []) == [start, end]
    ensures !Increasing(GenerateTimeGrid(start, end, [], []), IntLess)
  {
    assert GenerateTimeGrid(start, end, [], [])[0] == start;
  }
}

=== FILE: valuation.dfy ===
/** The generic valuation object (`valuation_class`): its construction and
    `update`.

    A valuation refers to a simulator that, in a portfolio, other valuations
    share. The model keeps the two apart: every operation takes the simulator
    and returns the possibly changed simulator next to the valuation.
 */
module Valuation {
  import opened Wrappers
  import opened YearDeltas
  import opened Simulation
  import opened Payoff
  import opened Sorting

  /** The exercise style, which selects the valuation subclass. */
  datatype Style = European | American

  datatype Valuation = Valuation(
    name: string,
    pricingDate: Date,
    strike: Option<real>,
    maturity: Date,
    currency: string,
    frequency: string,
    paths: nat,
    shortRate: real,
    payoff: Expr,
    style: Style)

  /** The constructor copies the simulation parameters and the discount curve
      from the underlying and hands it the pricing date and the maturity as
      special dates. */
  function NewValuation(name: string, pricingDate: Date, strike: Option<real>, maturity: Date, currency: string,
                        underlying: Simulator, payoff: Expr, style: Style): (r: (Valuation, Simulator))
    ensures r.0.frequency == underlying.frequency && r.0.paths == underlying.paths
    ensures r.0.shortRate == underlying.shortRate
    ensures r.0.pricingDate == pricingDate && r.0.maturity == maturity && r.0.strike == strike
    ensures r.1 == underlying.(specialDates := underlying.specialDates + [pricingDate, maturity])
  {
    (Valuation(name, pricingDate, strike, maturity, currency, underlying.frequency, underlying.paths,
               underlying.shortRate, payoff, style),
     underlying.(specialDates := underlying.specialDates + [pricingDate, maturity]))
  }

  /** `update`: the initial value and the volatility are passed on to the
      underlying's own `update` (which empties its cache), the strike is set
      when given, and a new maturity that the grid lacks becomes a special date
      of the underlying and empties its cache. Testing the maturity against a
      grid that was never built raises. */
  function UpdateValuation(v: Valuation, underlying: Simulator, initialValue: Option<real>, volatility: Option<real>,
                           strike: Option<real>, maturity: Option<Date>): (r: Result<(Valuation, Simulator)>)
    ensures r.Err? <==> maturity.Some? && underlying.timeGrid.None?
    ensures r.Ok? ==> r.value.0.strike == (if strike.Some? then strike else v.strike)
    ensures r.Ok? ==> r.value.0.maturity == Given(maturity, v.maturity)
    ensures r.Ok? ==> r.value.0 == v.(strike := r.value.0.strike, maturity := r.value.0.maturity)
    ensures r.Ok? ==> r.value.1.initialValue == Given(initialValue, underlying.initialValue)
    ensures r.Ok? ==> r.value.1.volatility == Given(volatility, underlying.volatility)
    ensures r.Ok? && (initialValue.Some? || volatility.Some?) ==> r.value.1.instrumentValues.None?
    ensures r.Ok? && maturity.Some? && maturity.value !in underlying.timeGrid.value ==>
      r.value.1.specialDates == underlying.specialDates + [maturity.value] && r.value.1.instrumentValues.None?
    ensures r.Ok? && (maturity.None? || maturity.value in underlying.timeGrid.value) ==>
      r.value.1.specialDates == underlying.specialDates
    ensures r.Ok? && initialValue.None? && volatility.None? && (maturity.None? || maturity.value in underlying.timeGrid.value) ==>
      r.value.1 == underlying
  {
    var s1 := if initialValue.Some? then Update(underlying, initialValue, None, None) else underlying;
    var s2 := if volatility.Some? then Update(s1, None, volatility, None) else s1;
    var v1 := if strike.Some? then v.(strike := strike) else v;
    if maturity.None? then Ok((v1, s2))
    else if s2.timeGrid.None? then Err(NoTimeGrid)
    else
      var v2 := v1.(maturity := maturity.value);
      if maturity.value in s2.timeGrid.value then Ok((v2, s2))
      else Ok((v2, s2.(specialDates := s2.specialDates + [maturity.value], instrumentValues := None)))
  }

  /** The positions at which `d` occurs in `grid`, in increasing order
      (`np.where(time_grid == d)[0]`). */
  function Positions(grid: seq<Date>, d: Date): (r: seq<nat>)
    ensures forall k :: 0 <= k < |r| ==> r[k] < |grid| && grid[r[k]] == d
    ensures forall i :: 0 <= i < |grid| && grid[i] == d ==> i in r
    ensures forall k, l :: 0 <= k < l < |r| ==> r[k] < r[l]
  {
    if |grid| == 0 then []
    else
      var front := Positions(grid[..|grid| - 1], d);
      if grid[|grid| - 1] == d then front + [|grid| - 1] else front
  }

  /** `int(np.where(time_grid == d)[0])`: succeeds only when `d` occurs exactly
      once; the library prints a message and carries on, which later fails. */
  function FindUnique(grid: seq<Date>, d: Date): (r: Result<nat>)
    ensures r.Ok? ==> r.value < |grid| && grid[r.value] == d
    ensures r.Ok? ==> forall i :: 0 <= i < |grid| && grid[i] == d ==> i == r.value
    ensures r.Err? ==> r.error == GridMismatch
    ensures r.Err? ==> d !in grid || exists i, j :: 0 <= i < j < |grid| && grid[i] == d && grid[j] == d
  {
    var p := Positions(grid, d);
    if |p| == 1 then Ok(p[0])
    else
      assert |p| > 1 ==> grid[p[0]] == d && grid[p[1]] == d && p[0] < p[1];
      Err(GridMismatch)
  }

  /** On a strictly increasing grid (the kind the simulators build) the
      lookup succeeds exactly when the date is a grid date. */
  lemma FindUniqueOnIncreasing(grid: seq<Date>, d: Date)
    requires Increasing(grid, IntLess)
    ensures FindUnique(grid, d).Ok? <==> d in grid
  {
    var p := Positions(grid, d);
    assert forall k, l :: 0 <= k < l < |p| ==> grid[p[k]] < grid[p[l]];
    if d in grid {
      var i :| 0 <= i < |grid| && grid[i] == d;
      assert i in p;
    }
  }
}

=== FILE: vol_service.dfy ===
/** The parameter check of the volatility-option pricing web service
    (`get_option_value` in `vol_pricing_service`).

    The request's query parameters arrive as a map from names to strings.
    Every missing parameter of the table contributes one line to an error
    text, which is returned when it is not empty; otherwise the eight values
    are converted to numbers and handed to the pricer in table order, and the
    result is returned as text. `float`, the pricing formula and `str` are
    inputs of the model.

    The current service walks the table in its written order (dictionaries
    keep insertion order). The Python 2 service walks it in the dictionary's
    own order, which the language leaves unspecified: the model takes that
    order as an argument, any arrangement of the table.
 */
module VolService {

  /** A parameter of the pricing formula and what it means. */
  datatype Param = Param(key: string, description: string)

  /** The parameter table in its written order, which is also the order of
      the pricer's arguments. */
  const Params: seq<Param> := [
    Param("V0", "current volatility level"),
    Param("kappa", "mean reversion factor"),
    Param("theta", "long-run mean of volatility"),
    Param("sigma", "volatility of volatility"),
    Param("zeta", "factor of the expected volatility risk premium"),
    Param("T", "time horizon in years"),
    Param("r", "risk-free interest rate"),
    Param("K", "strike")
  ]

  /** The error line of one missing parameter. */
  function Line(p: Param): (s: string)
    ensures |s| > 18 && s[..18] == "Missing parameter " && s[|s| - 1] == '\n'
  {
    "Missing parameter " + p.key + " (" + p.description + ")\n"
  }

  /** The parameters of `order` the request lacks, in that order. */
  function Missing(order: seq<Param>, data: map<string, string>): (r: seq<Param>)
    ensures |r| <= |order|
    ensures forall p :: p in r <==> p in order && p.key !in data
  {
    if |order| == 0 then []
    else (if order[0].key in data then [] else [order[0]]) + Missing(order[1..], data)
  }

  /** The error lines of `ps`, concatenated. */
  function Lines(ps: seq<Param>): (s: string)
    ensures |s| == 0 <==> |ps| == 0
  {
    if |ps| == 0 then "" else Line(ps[0]) + Lines(ps[1..])
  }

  /** Every parameter of the table is in the request. */
  predicate Complete(data: map<string, string>) {
    forall k :: 0 <= k < |Params| ==> Params[k].key in data
  }

  /** The pricer's arguments: every parameter's value converted to a number,
      in table order. */
  function Arguments(data: map<string, string>, toFloat: string -> real): (r: seq<real>)
    requires Complete(data)
    ensures |r| == |Params| == 8
    ensures forall k :: 0 <= k < |Params| ==> r[k] == toFloat(data[Params[k].key])
  {
    seq(|Params|, k requires 0 <= k < |Params| => toFloat(data[Params[k].key]))
  }

  /** The service on a request, with the table walked in `order`: the error
      text when a parameter is missing, otherwise the text of the price. */
  function Respond(order: seq<Param>, data: map<string, string>, toFloat: string -> real, price: seq<real> -> real,
                   show: real -> string): (r: string)
    requires forall p :: p in order <==> p in Params
    ensures !Complete(data) ==> |r| > 0 && r == Lines(Missing(order, data))
    ensures Complete(data) ==> r == show(price(Arguments(data, toFloat)))
  {
    var message := Lines(Missing(order, data));
    assert !Complete(data) ==> |Missing(order, data)| > 0 by {
      if !Complete(data) {
        var k :| 0 <= k < |Params| && Params[k].key !in data;
        assert Params[k] in Missing(order, data);
      }
    }
    assert Complete(data) ==> |Missing(order, data)| == 0 by {
      if Complete(data) && |Missing(order, data)| > 0 {
        assert false;
      }
    }
    if message != "" then message else show(price(Arguments(data, toFloat)))
  }

  /** `get_option_value` of the current service: the table in its written
      order, so the error lines follow the table. */
  function GetOptionValue(data: map<string, string>, toFloat: string -> real, price: seq<real> -> real,
                          show: real -> string): (r: string)
    ensures !Complete(data) ==> |r| > 0 && r == Lines(Missing(Params, data))
    ensures Complete(data) ==> r == show(price(Arguments(data, toFloat)))
  {
    Respond(Params, data, toFloat, price, show)
  }

  /** The same parameters in any order: the dictionary order of the Python 2
      service. */
  predicate Arrangement(order: seq<Param>) {
    multiset(order) == multiset(Params)
  }

  /** `get_option_value` of the Python 2 service, whose table is walked in the
      dictionary's order `order`. */
  function GetOptionValueLegacy(order: seq<Param>, data: map<string, string>, toFloat: string -> real,
                                price: seq<real> -> real, show: real -> string): (r: string)
    requires Arrangement(order)
    ensures !Complete(data) ==> |r| > 0 && r == Lines(Missing(order, data))
    ensures Complete(data) ==> r == show(price(Arguments(data, toFloat)))
  {
    forall p ensures p in order <==> p in Params {
      assert p in order <==> p in multiset(order);
    }
    Respond(order, data, toFloat, price, show)
  }

  /** How often `p` is missing from a walk over `order`: as often as it
      occurs in `order` when the request lacks it, never otherwise. */
  lemma {:induction false} MissingCount(order: seq<Param>, data: map<string, string>, p: Param)
    ensures multiset(Missing(order, data))[p] == if p.key in data then 0 else multiset(order)[p]
  {
    if |order| > 0 {
      MissingCount(order[1..], data, p);
      var head := if order[0].key in data then [] else [order[0]];
      assert multiset(Missing(order, data)) == multiset(head) + multiset(Missing(order[1..], data));
      assert order == [order[0]] + order[1..];
      assert multiset(order) == multiset{order[0]} + multiset(order[1..]);
    }
  }

  /** Whatever order the Python 2 dictionary walks, its error text has one
      line per missing parameter, the same lines the current service writes. */
  lemma LegacyReportsSameLines(order: seq<Param>, data: map<string, string>)
    requires Arrangement(order)
    ensures multiset(Missing(order, data)) == multiset(Missing(Params, data))
  {
    SameLinesForArrangement(order, Params, data);
  }

  lemma SameLinesForArrangement(a: seq<Param>, b: seq<Param>, data: map<string, string>)
    requires multiset(a) == multiset(b)
    ensures multiset(Missing(a, data)) == multiset(Missing(b, data))
  {
    forall p ensures multiset(Missing(a, data))[p] == multiset(Missing(b, data))[p] {
      MissingCount(a, data, p);
      MissingCount(b, data, p);
    }
  }

  /** The table's keys are distinct, so each missing parameter has exactly one
      line. */
  lemma OneLinePerMissingKey(data: map<string, string>, k: int)
    requires 0 <= k < |Params| && Params[k].key !in data
    ensures multiset(Missing(Params, data))[Params[k]] == 1
  {
    MissingCount(Params, data, Params[k]);
    ParamsDistinct();
    CountDistinct(Params, k);
  }

  lemma ParamsDistinct()
    ensures forall i, j :: 0 <= i < j < |Params| ==> Params[i] != Params[j]
  {
  }

  lemma {:induction false} CountDistinct(s: seq<Param>, k: int)
    requires 0 <= k < |s|
    requires forall i, j :: 0 <= i < j < |s| ==> s[i] != s[j]
    ensures multiset(s)[s[k]] == 1
  {
    assert s == s[..k] + [s[k]] + s[k + 1..];
    assert s[k] !in s[..k] && s[k] !in s[k + 1..] by {
      forall i | 0 <= i < k ensures s[..k][i] != s[k] { }
      var tail := s[k + 1..];
      forall i | 0 <= i < |tail| ensures tail[i] != s[k] {
        assert tail[i] == s[k + 1 + i];
      }
    }
    assert multiset(s) == multiset(s[..k]) + multiset{s[k]} + multiset(s[k + 1..]);
  }

  /** Parameters outside the table do not change the answer: two requests
      that agree on the table's keys get the same reply. */
  lemma ExtraKeysIgnored(data: map<string, string>, other: map<string, string>, toFloat: string -> real,
                         price: seq<real> -> real, show: real -> string)
    requires forall k :: 0 <= k < |Params| ==> (Params[k].key in data <==> Params[k].key in other)
    requires forall k :: 0 <= k < |Params| && Params[k].key in data ==> data[Params[k].key] == other[Params[k].key]
    ensures GetOptionValue(data, toFloat, price, show) == GetOptionValue(other, toFloat, price, show)
  {
    SameMissing(Params, data, other);
    if Complete(data) {
      assert Arguments(data, toFloat) == Arguments(other, toFloat);
    }
  }

  lemma {:induction false} SameMissing(order: seq<Param>, data: map<string, string>, other: map<string, string>)
    requires forall p :: p in order ==> (p.key in data <==> p.key in other)
    ensures Missing(order, data) == Missing(order, other)
  {
    if |order| > 0 {
      SameMissing(order[1..], data, other);
    }
  }
}

=== FILE: wrappers.dfy ===
/** Failure-carrying results shared by every module of the model.

    The library reports most of its failures by raising a Python exception or by
    printing a message and carrying on with an undefined value. The model makes
    each of those outcomes an explicit `Err` with a kind from `Error`.
 */
module Wrappers {

  /** The failure kinds the library can run into. */
  datatype Error =
    | ConfigurationError(reason: string)   // negative rate, bad correlation label, ...
    | MissingParameter(key: string)        // a market-environment key that is absent
    | GridMismatch                         // a required date is not (uniquely) in the grid
    | NoTimeGrid                           // the simulator has not built its grid yet
    | PayoffEvaluation                     // the payoff cannot be evaluated on the arrays
    | ShapeMismatch                        // an array does not have the shape numpy needs
    | ZeroDivision                         // a Python float division by zero
    | NotANumber                           // numpy yields nan (0/0, mean of nothing)

  datatype Option<+T> = None | Some(value: T)

  datatype Result<+T> = Ok(value: T) | Err(error: Error) {

    predicate IsFailure() {
      Err?
    }

    function PropagateFailure<U>(): Result<U>
      requires Err?
    {
      Err(error)
    }

    function Extract(): T
      requires Ok?
    {
      value
    }
  }
}

=== FILE: year_deltas.dfy ===
/** Conversion of calendar dates to year fractions (`get_year_deltas`).

    A Python `datetime` is modelled as an integer day number; the difference of
    two dates in whole days is then plain integer subtraction.
 */
module YearDeltas {

  /** A calendar date as a day number. */
  type Date = int

  /** The library's default number of days per year. */
  const DefaultDayCount: real := 365.0

  /** The year fraction from `from` to `to`. */
  function YearFraction(from: Date, to: Date, dayCount: real): real
    requires dayCount != 0.0
  {
    (to - from) as real / dayCount
  }

  /** Each date's distance from the first date, in years. The first date is
      required: the source indexes `date_list[0]`. */
  function YearFractions(dates: seq<Date>, dayCount: real): (r: seq<real>)
    requires |dates| > 0
    requires dayCount != 0.0
    ensures |r| == |dates|
    ensures r[0] == 0.0
    ensures forall i :: 0 <= i < |dates| ==> dates[i] as real == dates[0] as real + r[i] * dayCount
  {
    seq(|dates|, i requires 0 <= i < |dates| => YearFraction(dates[0], dates[i], dayCount))
  }

  ghost predicate NonDecreasingDates(dates: seq<Date>) {
    forall i, j :: 0 <= i < j < |dates| ==> dates[i] <= dates[j]
  }

  /** With a positive day count, later dates never get smaller fractions. */
  lemma YearFractionsMonotone(dates: seq<Date>, dayCount: real)
    requires |dates| > 0
    requires dayCount > 0.0
    requires NonDecreasingDates(dates)
    ensures forall i, j :: 0 <= i < j < |dates| ==>
      YearFractions(dates, dayCount)[i] <= YearFractions(dates, dayCount)[j]
  {
    var r := YearFractions(dates, dayCount);
    forall i, j | 0 <= i < j < |dates| ensures r[i] <= r[j] {
      assert r[i] * dayCount <= r[j] * dayCount;
    }
  }

  /** With a positive day count, a date before the first gets a negative
      fraction, and a date after it a positive one. */
  lemma YearFractionsSign(dates: seq<Date>, dayCount: real, i: int)
    requires |dates| > 0
    requires dayCount > 0.0
    requires 0 <= i < |dates|
    ensures dates[i] < dates[0] <==> YearFractions(dates, dayCount)[i] < 0.0
    ensures dates[i] > dates[0] <==> YearFractions(dates, dayCount)[i] > 0.0
  {
    var r := YearFractions(dates, dayCount);
    assert dates[i] as real == dates[0] as real + r[i] * dayCount;
    if r[i] < 0.0 {
      assert r[i] * dayCount < 0.0;
    } else if r[i] > 0.0 {
      assert r[i] * dayCount > 0.0;
    } else {
      assert r[i] * dayCount == 0.0;
    }
  }
}
